=== FILE: README.md ===
# flic in Dafny

A model of flic, a small message relay for Node.js processes. A **bridge** (the
hub) accepts TCP connections from **nodes** (peers). Each node identifies itself
under a name with an `IDENT` record. After that it can:

- `tell` one named node an event and optionally wait for that node's reply;
- `shout` to every node;
- `leave`.

Every record is a JSON object `{id, method, data, nodeName?}`.

The repository holds two generations of the same system, and both are modelled:

- **current**: `lib/message.js`, `lib/bridge.js` and `lib/node.js`. Records end
  in a NUL character, and a chunk read from the transport is split on NUL.
- **older**: `lib/flic-message.js`, `lib/flic-bridge.js` and
  `lib/flic-node.js`. Records have no terminator, and a whole chunk is handed to
  `JSON.parse`.

Every handler is a pure function from a state to a new state plus the
*effects* it has, in order:

- for the hub, the records it writes and to which connection;
- for a peer, its writes, emitted events, callback invocations, scheduled
  retries and the end of its transport.

The transport enters only as parameters:

- `dead`: the connections whose `write` throws;
- `fails`: whether the peer's own write throws;
- `id` / `ids`: the identifiers `uuid.v4` would generate.

JSON is a concrete canonical serializer and parser over integers, strings,
booleans, `null` and arrays. Strings are escaped as `JSON.stringify` escapes
them: a short escape for the quote, the backslash, `\b`, `\t`, `\n`, `\f` and
`\r`, and `\u00XX` for every other character below U+0020. The facts the
framing relies on are proved, not assumed: the text holds no control character
and so no NUL, reading it back returns the value, and the only text read as a
value is that value's own text.

Modules:

| module | file | role |
|---|---|---|
| `Wrappers` | wrappers.dfy | `Option` and `Result` |
| `Json` | json.dfy | values, `JSON.stringify` and `JSON.parse` for them, and `String(v)` as a property key |
| `Message` | message.dfy | the current record and its text |
| `Framing` | framing.dfy | NUL framing and the reader's split / skip / parse loop |
| `Registry` | registry.dfy | the hub's name-to-connection table, in insertion order |
| `Bridge`, `BridgeProperties` | bridge.dfy, bridge_properties.dfy | the current hub |
| `Node`, `NodeProperties` | node.dfy, node_properties.dfy | the current peer |
| `Scenarios` | scenarios.dfy | exchanges between current peers through the hub |
| `LegacyMessage` | legacy_message.dfy | the older record |
| `LegacyBridge`, `LegacyBridgeProperties` | legacy_bridge.dfy, legacy_bridge_properties.dfy | the older hub |
| `LegacyNode`, `LegacyNodeProperties` | legacy_node.dfy, legacy_node_properties.dfy | the older peer |

Points worth knowing about the code:

- The current `tell` checks only that the address splits into exactly two
  parts on ':'. Empty parts and names outside `\w|-` are accepted. Only the
  older peer also checks the name against `^(\w|-)+$` (`LegacyNodeProperties.TellStricter`).
- The older hub writes a `SHOUT` back to its sender (`LegacyBridgeProperties.ShoutEchoesSender`).
- The older hub's error strings are `Error: Duplicate node name!` and
  `Error: Attempting to tell non-existent node!`. A forward that throws is
  answered with `GONE`.
- The older hub has no `LEAVE` handler. A graceful `leave` of a peer talking
  to it is never acknowledged (`LegacyBridgeProperties.OtherMethodsIgnored`).

## Model

| member | source | states |
|---|---|---|
| Json.Serialize | lib/message.js:33 | the JSON text of any value is non-empty and holds no control character, since every one is escaped, so the NUL terminator cannot occur inside a record |
| Json.EscapeChar | lib/message.js:33 | a character's escape holds no control character: control characters are written as escapes |
| Json.ReadCharOfEscape | lib/bridge.js:65 | every character's escape, short or `\u00XX`, reads back as that character and is consumed whole |
| Json.ReadCharCanonical | lib/bridge.js:65 | the text the reader takes a string character from is exactly that character's escape, so raw control characters, upper-case hex and unwritten escapes are refused |
| Json.StringBodyCanonical | lib/bridge.js:65 | a string body the reader accepts is exactly the escaped text of the string it returns, then the closing quote and the rest |
| Json.NatTextOfDigits | lib/bridge.js:65 | a digit run without a leading zero is the decimal text of its value |
| Json.NumberCanonical | lib/bridge.js:65 | a number the reader accepts is exactly the decimal text of its value, so leading zeros and `-0` are refused |
| Json.ValueCanonical | lib/bridge.js:65 | any value the reader accepts is exactly the text `JSON.stringify` writes for it, followed by the rest |
| Json.ValueRoundTrip | lib/bridge.js:65 | parsing the text of a value, followed by anything that cannot continue it, returns the value and leaves the following text untouched |
| Json.ParseSerialize | lib/node.js:125 | `JSON.parse(JSON.stringify(v))` is `v` |
| Json.StringRoundTrip | lib/message.js:33 | an escaped string body is read back as the same string, stopping at its closing quote |
| Json.NumberRoundTrip | lib/message.js:33 | the decimal text of any integer, negative ones included, reads back as that integer |
| Json.PropertyKey | lib/bridge.js:127 | a scalar is looked up under its `String` and a one-element array of a non-null value under its element's, which is the same property `object[v]` indexes; other arrays name no property |
| Json.JsString | lib/flic-bridge.js:112 | `String(v)` agrees with the property key for every non-array value |
| Json.Expect | lib/message.js:23-27 | a literal is consumed exactly when the text starts with it, and the literal plus the rest is the text |
| Message.New | lib/message.js:6-12 | a record keeps its id and method; data that is not an array becomes the empty array; no node name is set |
| Message.SetNodeName | lib/message.js:18-20 | only the node name changes |
| Message.TailText | lib/message.js:29-31 | the `nodeName` member is written exactly when the name is non-empty (truthy) |
| Message.ToString | lib/message.js:22-34 | the text ends in one NUL and has no other NUL |
| Message.TailRoundTrip | lib/message.js:29-31 | the members after `data` read back as the node name, the empty name for an omitted member |
| Message.RecordRoundTrip | lib/message.js:22-33 | parsing a record's text gives back the record: id, method, data and node name |
| Message.ParseRecord | lib/bridge.js:65 | a frame that parses as a record is that record's text |
| Message.ParseRecordExactly | lib/bridge.js:65 | a frame parses as a record exactly when it is that record's text |
| Message.ParseRecordInjective | lib/message.js:22-33 | two records with the same text are the same record |
| Framing.Split | lib/bridge.js:57 | splitting gives one more piece than there are separators, and no piece contains the separator |
| Framing.JoinSplit | lib/bridge.js:57 | joining the pieces with the separator gives the text back |
| Framing.SplitWithout | lib/node.js:222 | a text without the separator is a single piece |
| Framing.SplitAfterPiece | lib/node.js:222 | a separator-free piece followed by the separator splits off as the first piece |
| Framing.FramesOfTerminated | lib/bridge.js:57-62 | whatever follows a run of NUL-terminated texts, the reader sees each of those texts as one frame, in order, first |
| Framing.FramesOfFrame | lib/node.js:117-122 | whatever follows a run of written records, the reader's frames start with exactly their texts |
| Framing.SplitFrameRoundTrip | lib/bridge.js:57-62 | splitting a chunk of written records and skipping empty pieces yields exactly the record texts |
| Framing.ParseAll | lib/bridge.js:65 | each frame is parsed on its own |
| Framing.Decode | lib/bridge.js:57-90 | the records dispatched are, in order, those whose texts are the leading frames; the chunk is cut short exactly when a frame is not the text of any record |
| Framing.Dispatched | lib/bridge.js:59-90 | the dispatched records are the parse results up to the first failure, which is reported; none after it is dispatched |
| Framing.DecodeFrame | lib/bridge.js:53-91 | a chunk holding records written back to back decodes to exactly those records, nothing dropped |
| Framing.DecodeStopsAtMalformed | lib/node.js:116-145 | the records before a malformed frame are dispatched; the throw drops that frame and the rest of the chunk |
| Framing.DecodeOne | lib/message.js:33 | a single written record is decoded as that record |
| Registry.Count | lib/bridge.js:100 | a connection has no bound name exactly when the count of its names is zero |
| Registry.Names | lib/bridge.js:108 | the names in the order `for ... in` visits them |
| Registry.Lookup | lib/bridge.js:140-144 | a lookup finds a connection exactly when an entry has the name, and it is that entry's connection |
| Registry.LookupEntry | lib/bridge.js:142 | with unique names, every entry is found under its name |
| Registry.AsMap | lib/bridge.js:31 | the table is the map from each bound name to its connection |
| Registry.LookupAppend | lib/bridge.js:99 | binding a fresh name binds it to the connection and changes no other lookup |
| Registry.Register | lib/bridge.js:98-100 | registering a free name binds it to the connection, changes no other lookup, keeps names unique and truthy, and adds one name to that connection only |
| Registry.Remove | lib/bridge.js:167 | deleting a name removes exactly its entries and keeps names unique |
| Registry.NameOf | lib/bridge.js:155-162 | `getSocketName` gives the first name, in insertion order, bound to the connection, and nothing when none is |
| Registry.Cleanup | lib/bridge.js:164-171 | cleanup unbinds the connection's first name, unless it is empty, and changes no other lookup; with unique truthy names a bound connection loses exactly one name and no other connection loses any |
| Registry.RemoveCount | lib/bridge.js:167 | deleting an entry's name takes one name from that entry's connection and none from any other |
| Registry.CleanupTimes | lib/bridge.js:164-171 | n cleanups of one connection in a row unbind n of its names, or all when it has fewer, and keep every other binding |
| Registry.CleanupDeletesOnlyItsEntry | lib/bridge.js:164-171 | with unique names, cleanup only drops names bound to the connection, keeps every other binding as it was, and leaves the table alone for an unbound connection |
| Bridge.Configure | lib/bridge.js:18-29 | a number is the port, a function the callback, options keep what they give, and the rest defaults to 127.0.0.1:8221 |
| Bridge.Detach | lib/bridge.js:164-171 | cleanup stops reading the connection, keeps names unique and binds no name anew |
| Bridge.WriteTo | lib/bridge.js:146-153 | a live write delivers the record; a throwing one delivers nothing and cleans the connection up |
| Bridge.SendTo | lib/bridge.js:140-144 | an unregistered name gets nothing and changes nothing; a registered one is written as `_write_to_socket` writes |
| Bridge.Ident | lib/bridge.js:93-104 | names stay unique after an `IDENT` |
| Bridge.Tell | lib/bridge.js:123-133 | a `TELL` writes at most one record and binds no name |
| Bridge.Broadcast | lib/bridge.js:108-113 | a broadcast writes at most one record per name, all of them the same record, and binds no name |
| Bridge.Shout | lib/bridge.js:106-114 | a `SHOUT` keeps names unique and binds none |
| Bridge.Ack | lib/bridge.js:116-121 | an `ACK` writes at most one record and binds no name |
| Bridge.Leave | lib/bridge.js:135-138 | a `LEAVE` keeps names unique and binds none |
| Bridge.Handle | lib/bridge.js:67-85 | no record but an `IDENT` binds a name, and no record breaks uniqueness |
| Bridge.HandleAll | lib/bridge.js:59-86 | handling a chunk's records in order keeps names unique whenever each step does |
| Bridge.Handling | lib/bridge.js:67-85 | the hub's record handler keeps names unique |
| Bridge.HandleChunk | lib/bridge.js:49-91 | a cleaned-up connection is read no more; reading keeps names unique and one `close` listener per name bound to each connection still read |
| Bridge.OnError | lib/bridge.js:50 | an `error` runs the one cleanup added at accept: it unbinds the name `getSocketName` finds and stops reading; after a cleanup nothing listens and nothing changes |
| Bridge.OnClose | lib/bridge.js:100 | a `close` runs one cleanup per `IDENT` listener, so every name bound to the connection is unbound and nothing else; with no listener left it changes nothing |
| Bridge.Close | lib/bridge.js:173-179 | `close` keeps names unique and binds none |
| BridgeProperties.FanoutMembers | lib/bridge.js:108-113 | a broadcast record goes to exactly the entries not skipped |
| BridgeProperties.FanoutCount | lib/bridge.js:108-113 | with unique names, a broadcast reaches every name but the skipped one, if registered |
| BridgeProperties.FanoutAll | lib/bridge.js:175-177 | with nothing skipped, the i-th record goes to the i-th entry |
| BridgeProperties.SendToEntry | lib/bridge.js:140-144 | a live registered name is written one record on its connection |
| BridgeProperties.BroadcastSuffix | lib/bridge.js:108-113 | when no write throws, visiting any suffix of the names writes the fan-out of that suffix and changes nothing |
| BridgeProperties.BroadcastAll | lib/bridge.js:108-113 | when no write throws, visiting all names writes the fan-out in registration order |
| BridgeProperties.IdentDuplicate | lib/bridge.js:94-96 | an `IDENT` under a taken name changes nothing and answers `duplicate-node` to the requester |
| BridgeProperties.IdentFresh | lib/bridge.js:97-103 | a fresh name is bound to the connection, no other binding changes, the connection gains one `close` listener, and the ack `[id, [null]]` goes to that connection |
| BridgeProperties.TellUnknown | lib/bridge.js:127-129 | a `TELL` to an unregistered name, on any connection, changes nothing and answers `unknown-node` to the sender only if the sender is registered |
| BridgeProperties.TellKnown | lib/bridge.js:130-131 | a `TELL` to a registered name writes one record to it, carrying sender, request id, event and parameters |
| BridgeProperties.ShoutFanout | lib/bridge.js:106-114 | a `SHOUT` writes its data to every registered name but the sender's, in registration order |
| BridgeProperties.ShoutReach | lib/bridge.js:106-114 | exactly the connections of names other than the sender's hear a `SHOUT`, one record fewer than names iff the sender is registered |
| BridgeProperties.AckRelay | lib/bridge.js:116-121 | an `ACK` is relayed as `[cbid, params]` to the registered `data[0]` and dropped otherwise |
| BridgeProperties.ArrayDestination | lib/bridge.js:116-142 | a `TELL` or `ACK` addressed to a one-element array `[x]` is handled exactly as one addressed to `x` |
| BridgeProperties.LeaveThenCleanup | lib/bridge.js:135-138 | a `LEAVE` acknowledges first, then unbinds the connection's name and nothing else, and the connection is read no more |
| BridgeProperties.UnknownMethodIgnored | lib/bridge.js:83-84 | a record with any other method has no effect |
| BridgeProperties.HandleAllAppend | lib/bridge.js:59-86 | handling two runs of records in a row is handling their concatenation |
| BridgeProperties.ChunkOfRecords | lib/bridge.js:53-91 | a chunk of written records is handled record by record, in order |
| BridgeProperties.ChunkStopsAtMalformed | lib/bridge.js:87-90 | a malformed frame ends the chunk; the records before it keep their effects |
| BridgeProperties.CloseFanout | lib/bridge.js:173-179 | when no write throws, `close` writes `CLOSE` to every registered name, in order, and changes nothing |
| BridgeProperties.ErrorKeepsLaterName | lib/bridge.js:50 | an `error` on a connection bound under two names unbinds the first `getSocketName` finds and keeps the other |
| BridgeProperties.TwoIdentsThenClose | lib/bridge.js:93-104 | two `IDENT`s under fresh names in one chunk bind both to the connection; its `close` then unbinds both and every name it held before, and nothing else |
| BridgeProperties.HandlePreservesValid | lib/bridge.js:53-91 | no chunk ever binds a name twice |
| Node.Configure | lib/node.js:20-45 | an options object keeps every member it gives; positional arguments give 5 attempts and timeout 0, and an id, port or callback that is not the default comes from an argument of its kind |
| Node.OnSocketError | lib/node.js:94-111 | before connecting, each failure counts one attempt; the k-th failure below the attempt bound retries after k * 50 ms, and from then on the connect callback gets the failure, or nothing happens exactly when it is the no-op or a once-only one that ran; once connected the error is emitted and the state kept |
| Node.OnAck | lib/node.js:148-154 | an `ACK` throws exactly when `data[1]` is not missing, `null` or an array; otherwise it retires the waiter under `data[0]`, files none, writes nothing and has at most one effect, and an unknown id changes nothing |
| Node.HandleData | lib/node.js:113-146 | reading a chunk never writes, retries, files a waiter or changes configuration or connection state, and a chunk without records changes nothing |
| Node.LastOf | lib/node.js:24-36 | the index found is the last argument of the kind, and none is found iff no argument is of it |
| Node.Run | lib/node.js:152 | calling a held function invokes it once with the arguments, unless it is the no-op or a `_.once` function that already ran |
| Node.WriteBridge | lib/node.js:248-255 | a write sends the record stamped with the peer's id, or emits `'error'` when it throws |
| Node.OnConnect | lib/node.js:71-92 | on connect the peer is connected, files the connect callback under the `IDENT` id and writes `IDENT` |
| Node.ErrorStep | lib/node.js:94-111 | before connecting, the k-th failure retries after k * backoff below the bound and calls the connect callback from then on; once connected, the error is emitted |
| Node.ApplyArgs | lib/node.js:152 | `apply` accepts a missing value, `null` or an array, and throws on anything else |
| Node.Fire | lib/node.js:152 | running a waiter leaves the waiter table alone |
| Node.Vals | lib/node.js:189 | every value is emitted as itself, in order |
| Node.OnTell | lib/node.js:156-185 | an inbound `TELL` is handled exactly when its parameters are an array |
| Node.Receive | lib/node.js:127-140 | records other than `ACK` and `TELL` never change the peer |
| Node.Serialized | lib/node.js:171 | a reply's arguments are written in order, functions and `undefined` as `null` |
| Node.Answer | lib/node.js:166-175 | the reply closure changes nothing in the peer |
| Node.PopCallback | lib/node.js:216-220 | a trailing function is split off the arguments, and only a trailing one |
| Node.Tell | lib/node.js:222-226 | `tell` throws exactly when the address does not split into two parts on ':' |
| Node.Shout | lib/node.js:243-246 | `shout` changes nothing in the peer |
| Node.Leave | lib/node.js:257-270 | a truthy `force` ends the transport at once; otherwise `LEAVE` is written with a waiter that ends it |
| NodeProperties.PositionalConfig | lib/node.js:20-45 | positional arguments: the last string, number and function win, what is missing defaults, and the attempt bound is 5 and the timeout 0 |
| NodeProperties.OptionsConfig | lib/node.js:39-45 | an options object keeps every member it gives, and each member it leaves out takes its default |
| NodeProperties.Backoffs | lib/node.js:102-104 | the k-th retry waits k * backoff |
| NodeProperties.RetrySchedule | lib/node.js:98-104 | below the bound, n failures schedule n retries, each one backoff step longer than the last |
| NodeProperties.GiveUpAtBound | lib/node.js:98-107 | a fresh peer failing max-attempts times retries after 50, 100, ... ms, then calls the connect callback with the failure |
| NodeProperties.FailuresSplit | lib/node.js:94-111 | failures compose: a + b failures are a failures followed by b |
| NodeProperties.CallbackRepeatsAfterGivingUp | lib/node.js:105-107 | unlike the older peer's once-wrapped callback, the current handler calls the connect callback again for every failure it is handed past the bound |
| NodeProperties.NoRetryAfterConnect | lib/node.js:108-110 | once connected, a failure never retries or calls back; it is emitted and the state is kept |
| NodeProperties.SplitCount | lib/node.js:222 | an address splits into one more part than it has ':' characters |
| NodeProperties.TellAddress | lib/node.js:208-241 | `tell` succeeds iff the address has exactly one ':'; it then writes `TELL [name, event, args]` and files a trailing function, only then |
| NodeProperties.AckFiresOnce | lib/node.js:148-154 | an `ACK` runs its waiter once with `data[1]` and removes it, so a repeated `ACK` does nothing; an `ACK` for no waiter changes nothing |
| NodeProperties.AckToArrayId | lib/node.js:151-153 | an `ACK` whose `data[0]` is a one-element array `[x]` acts as one whose `data[0]` is `x` |
| NodeProperties.AckThrows | lib/node.js:152 | an `ACK` whose arguments are not an array or `null` throws before any waiter runs |
| NodeProperties.InboundTellReply | lib/node.js:156-185 | an inbound `TELL` emits event, parameters and a reply closure, and the closure writes `ACK [from, cbid, args]` |
| NodeProperties.AllWritesStamped | lib/node.js:248-249 | every record a peer writes carries its own id as `nodeName` |
| NodeProperties.LeaveEndsOnAck | lib/node.js:262-268 | a graceful `leave` does not end the transport until the `ACK` for its `LEAVE` arrives, and then does |
| NodeProperties.ReceiveStopsAtThrow | lib/node.js:116-145 | a throwing handler drops itself and the rest of the chunk; the records before keep their effects |
| NodeProperties.ChunkOfRecords | lib/node.js:113-146 | a chunk of written records is read record by record; a malformed frame ends the chunk |
| Scenarios.HubReadsOne | lib/bridge.js:53-91 | the hub reads one written record as that record |
| Scenarios.PeerReadsOne | lib/node.js:113-146 | a peer reads one written record as that record |
| Scenarios.AddressParts | lib/node.js:222-229 | `name:event` without other ':' splits into the name and the event |
| Scenarios.TellWrites | lib/node.js:208-241 | `tell` with a trailing callback files it under the record's id and writes `TELL [name, event, args]` |
| Scenarios.HubForwards | lib/bridge.js:130-131 | the hub forwards a `TELL` for a registered name to that name's connection |
| Scenarios.HubRefusesTell | lib/bridge.js:127-129 | the hub answers a `TELL` for an unknown name with `unknown-node` on the sender's connection |
| Scenarios.HubRelays | lib/bridge.js:116-121 | the hub relays a reply to the registered name it is addressed to |
| Scenarios.PeerHearsTell | lib/node.js:156-185 | a forwarded `TELL` is emitted as event, parameters and a reply closure for the sender and request id |
| Scenarios.PeerHearsReply | lib/node.js:148-154 | a relayed reply runs the callback waiting under its id with the reply's arguments and retires it |
| Scenarios.HubRefusesIdent | lib/bridge.js:94-96 | a taken name is refused with `duplicate-node` and nothing changes |
| Scenarios.PeerHearsIdentReply | lib/node.js:88 | the reply to `IDENT` runs the connect callback and retires its waiter |
| Scenarios.HubAcksLeave | lib/bridge.js:135-138 | the hub acknowledges a `LEAVE` and forgets the connection's name |
| Scenarios.PeerHearsLeaveAck | lib/node.js:265-267 | the acknowledgement of `LEAVE` ends the transport |
| Scenarios.TellReachesTold | test/test.js:228-237 | a `tell` with a callback reaches the named peer through the hub as event, parameters and a reply closure |
| Scenarios.ReplyReachesTeller | test/test.js:228-237 | the reply goes back through the hub, and the teller's callback runs with the reply's arguments and is retired |
| Scenarios.TellUnknownNode | test/test.js:248-253 | a `tell` to a name nobody holds calls the teller's callback with `unknown-node` |
| Scenarios.ConnectUnderTakenName | test/test.js:150-158 | connecting under a taken name calls the connect callback with `duplicate-node`, and the hub keeps the earlier holder |
| Scenarios.LeaveRoundTrip | lib/node.js:257-270 | a graceful leave is acknowledged, the name is forgotten at the hub, and the peer's transport then ends |
| LegacyMessage.ParseChunk | lib/flic-bridge.js:47 | a chunk is read as a record only when the whole chunk is that record's text |
| LegacyMessage.ToString | lib/flic-message.js:43-55 | the older record text has no NUL, ends in '}' and parses back to the record |
| LegacyMessage.TrailingTextRejected | lib/flic-message.js:54 | a record's text followed by any more text does not parse |
| LegacyMessage.TwoRecordsInOneChunk | lib/flic-message.js:54 | one record parses, but two records written back to back and read as one chunk do not |
| LegacyBridge.ListenPortAsWritten | lib/flic-bridge.js:20-31 | as written, only the `invalid-port-number` error can be raised |
| LegacyBridge.ListenPort | lib/flic-bridge.js:20-31 | the corrected check raises only `invalid-port-number` |
| LegacyBridge.ValidPortIgnored | lib/flic-bridge.js:20-31 | as written, every valid port is accepted but never stored, so the server listens on no given port |
| LegacyBridge.ListenPortChecks | lib/flic-bridge.js:20-31 | the corrected check accepts exactly falsy arguments and numbers in (1023, 65535], listens on the number given or 8221, and throws exactly where the written one does |
| LegacyBridge.TryWrite | lib/flic-bridge.js:69-73 | a guarded write delivers the record, or nothing when it throws |
| LegacyBridge.Key | lib/flic-bridge.js:112 | the property name agrees with the current hub's key wherever that one names a property, arrays included, and for a missing argument |
| LegacyBridge.Ident | lib/flic-bridge.js:53-106 | an `IDENT` never crashes, writes at most one record and keeps names unique |
| LegacyBridge.Tell | lib/flic-bridge.js:107-140 | a `TELL` never changes the table and writes at most one record |
| LegacyBridge.WriteAll | lib/flic-bridge.js:144-150 | a write to all writes at most one record per name, only that record, and never to a connection that throws |
| LegacyBridge.Shout | lib/flic-bridge.js:141-151 | a `SHOUT` never crashes and changes nothing |
| LegacyBridge.Ack | lib/flic-bridge.js:152-165 | an `ACK` never crashes, changes nothing and writes at most one record |
| LegacyBridge.Handle | lib/flic-bridge.js:50-168 | only `IDENT` changes the hub, and names stay unique |
| LegacyBridge.HandleChunk | lib/flic-bridge.js:43-47 | a chunk that is not one record crashes the process before anything is written |
| LegacyBridge.OnClose | lib/flic-bridge.js:85-92 | a close writes nothing, and crashes exactly when two or more close listeners were added |
| LegacyBridge.Close | lib/flic-bridge.js:178-191 | `close` never crashes and leaves the table to the close events |
| LegacyBridgeProperties.WriteAllMembers | lib/flic-bridge.js:144-150 | a connection is written to iff its write does not throw and some entry has it |
| LegacyBridgeProperties.WriteAllInOrder | lib/flic-bridge.js:144-150 | when no write throws, every entry is written once, in registration order |
| LegacyBridgeProperties.IdentDuplicate | lib/flic-bridge.js:55-75 | a taken name leaves the hub as it is and answers `Error: Duplicate node name!` |
| LegacyBridgeProperties.IdentThenClose | lib/flic-bridge.js:78-104 | a fresh name is bound and welcomed; the connection's later close unbinds it without crashing and restores every lookup |
| LegacyBridgeProperties.TwoIdentsCrashOnClose | lib/flic-bridge.js:85-92 | a connection identified under two names crashes the process when it closes |
| LegacyBridgeProperties.TellUnknown | lib/flic-bridge.js:112-126 | a `TELL` for an unknown name writes the error to the sender, when the sender is registered and live |
| LegacyBridgeProperties.TellKnown | lib/flic-bridge.js:128-133 | a `TELL` for a live name is forwarded to it with sender, request id, event and parameters |
| LegacyBridgeProperties.TellGone | lib/flic-bridge.js:134-139 | a forward that throws answers `GONE` to the sender, and crashes when that unguarded write cannot be made |
| LegacyBridgeProperties.TellToArrayName | lib/flic-bridge.js:112 | a destination `[name]` reaches the node `name`, as `String` coerces it |
| LegacyBridgeProperties.ShoutReachesAll | lib/flic-bridge.js:141-151 | a `SHOUT` reaches exactly the live registered connections |
| LegacyBridgeProperties.ShoutEchoesSender | lib/flic-bridge.js:144-150 | the sender of a `SHOUT` hears it too |
| LegacyBridgeProperties.AckRelay | lib/flic-bridge.js:152-165 | an `ACK` is relayed as `[cbid, params]` to a live registered `data[0]` and dropped otherwise |
| LegacyBridgeProperties.OtherMethodsIgnored | lib/flic-bridge.js:166-167 | any other method, `LEAVE` included, has no effect |
| LegacyBridgeProperties.ChunkIsOneRecord | lib/flic-bridge.js:43-47 | a chunk holding one record is handled as it; two records in one chunk crash the process |
| LegacyBridgeProperties.TwoRecordsFramed | lib/message.js:33 | with a terminator after each record, the same two records decode as both records |
| LegacyBridgeProperties.CloseEndsAll | lib/flic-bridge.js:178-191 | `close` ends every live registered connection with `CLOSE` and its data |
| LegacyNode.Configure | lib/flic-node.js:44-68 | the older constructor always allows 5 attempts with timeout 0 and wraps the connect callback in `_.once` |
| LegacyNode.OnSocketError | lib/flic-node.js:118-135 | before connecting, each failure counts one attempt; the k-th failure below 5 retries after k * 250 ms, and from then on the callback gets the failure, nothing happening exactly when it is the no-op or its `_.once` wrapper already ran; once connected the error is emitted and the state kept |
| LegacyNode.HandleData | lib/flic-node.js:137-145 | a chunk that does not parse is ignored |
| LegacyNode.Tell | lib/flic-node.js:237-241 | the older `tell` can only throw the invalid-address error |
| LegacyNode.Leave | lib/flic-node.js:272-285 | only `true` ends the transport at once; any other value files a waiter for `LEAVE` |
| LegacyNodeProperties.OnceAtMostOnce | lib/flic-node.js:65-67 | over any run of events, a `_.once` function is called at most once, and never once it has fired |
| LegacyNodeProperties.ConfigureOnce | lib/flic-node.js:54-68 | the last string, number and function arguments win, the function wrapped once-only; defaults otherwise |
| LegacyNodeProperties.RetryThenGiveUpOnce | lib/flic-node.js:118-135 | a failing peer retries after 250, 500, 750 and 1000 ms, then calls back with the failure, and calls back at most once however many failures follow |
| LegacyNodeProperties.TellAddress | lib/flic-node.js:237-241 | the older `tell` succeeds iff the address has exactly one ':' and the name matches `^(\w\|-)+$`, and then acts as the current one |
| LegacyNodeProperties.TellStricter | lib/flic-node.js:239 | `a.b:ev` is accepted by the current peer and refused by the older one |
| LegacyNodeProperties.LeaveOnlyForTrue | lib/flic-node.js:273 | `leave(1)` writes `LEAVE` in the older peer but force-leaves in the current one |
| LegacyNodeProperties.ChunkIsOneRecord | lib/flic-node.js:137-161 | one record per chunk is handled as the current peer handles it; two records in one chunk are ignored whole |

## Left out

- Sockets, `net.connect`/`net.createServer`, `listen`, `setTimeout`, `setEncoding` and `socket.end` are not modelled. Their outcomes are parameters or effects: `dead`, `fails`, `Retry(ms)`, `EndTransport`.
- `EventEmitter` is not modelled: emitted events are `Emit` effects, and what listeners do with them is not modelled. An `'error'` emitted with no listener, which Node.js turns into a throw, is not modelled.
- `uuid.v4` is not modelled: identifiers are parameters.
- Only canonical JSON is read. Whitespace, escapes other than those written, numbers with a fraction or exponent, `NaN` and objects inside `data` are not modelled, and a frame in any other form counts as malformed.
- Json.Serialize: integers are exact at any size here, while the source's numbers are IEEE doubles. `JSON.parse` rounds an integer beyond 2^53, so `12345678901234567891` is forwarded as `12345678901234567000`, and `JSON.stringify` writes integers from 10^21 up in exponent form (`1e+21`); the model keeps and writes every digit.
- Records whose `data` is not an array, or whose `method` or `nodeName` is not a string, are not modelled, because the writers never produce them.
- An explicit empty `nodeName` is not modelled. The empty name stands for an absent member, which is what `toString` writes for a falsy name.
- Bridge.Ident: lodash `_.has` (lib/bridge.js:94) reads a string holding '.' or '[...]' that is not itself a key as a property path. So with "a" registered, an `IDENT` from "a.nodeName" finds the socket's own `nodeName` and is refused with `duplicate-node`; the model looks the whole name up and registers it. Names that hit inherited properties of a plain object, such as `constructor`, are not modelled either.
- Bridge.Tell: when such a dotted string, or an array of two or more elements, resolves as a path through a registered socket's own properties (lib/bridge.js:127), the source writes to the undefined `this._sockets[path]`, and the catch throws again on `undefined.removeAllListeners()`, which drops the rest of the chunk; the model answers `unknown-node` and reads on. The same holds for `[null]` while "null" is registered, because `_.has` tests "null" but `this._sockets[[null]]` reads "". A one-element array of any other value is modelled (BridgeProperties.ArrayDestination).
- Bridge.SendTo: an `ACK` addressed to such a path (lib/bridge.js:141) throws the same way and drops the rest of the chunk; the model writes nothing and reads on.
- Bridge.Ack: for the paths above the source throws and drops the rest of the chunk, where the model relays nothing and reads on.
- Json.PropertyKey: arrays of two or more elements and `[null]` name no property here; lodash reads the first as a deep path and the second as "null".
- BridgeProperties.TellUnknown: states `unknown-node` for every destination without a key, which for the multi-element and `[null]` paths above holds only while the path does not resolve.
- BridgeProperties.AckRelay: states that an `ACK` without a key is dropped, which for the multi-element and `[null]` paths above holds only while the path does not resolve.
- Node.OnAck: `_.get(this._waiters, mid)` (lib/node.js:152) reads a dotted string or an array of two or more elements as a path, and inherited properties of the waiter table, where the model looks the whole key up in the table; for `[null]` it runs the waiter "null" but deletes "". Waiter ids are generated by `uuid.v4` and hold no '.'.
- Node.Tell: the address is a string here, as is LegacyNode.Tell's. A call with no address, or with a number, function or other non-string first, reaches `whoWhat.split(':')` (lib/node.js:222, lib/flic-node.js:237) and throws a `TypeError` to the caller before any state changes; that error path is not modelled.
- Registry.Names: the visiting order of integer-like keys in `for ... in` is not modelled: the registry visits names in insertion order, where JavaScript visits integer-like keys first, in ascending order.
- Escapes are read only in the form `JSON.stringify` writes them: `\/`, `\u` escapes of characters that have a short escape or are not control characters, and upper-case hex digits are treated as malformed, as are leading zeros and `-0`. Lone surrogates cannot be represented, because a character here is a Unicode scalar value.
- Bridge.OnError: an `error` on a connection already cleaned up, which has no listener left and which Node.js would turn into a throw, is modelled as changing nothing.
- The Node 0.10 `listen` branch (lib/bridge.js:34-40) and the listening/error callbacks of the server are not modelled, because they are runtime-version and I/O concerns. Bridge.Configure records only whether a callback was given.
- User callbacks and event listeners throwing are not modelled. So are `this` inside them and what they return.
- Transport chunks that split a record or a UTF-8 sequence are not modelled: a chunk holds whole records.
- `_connect_bridge` removing old listeners, and the socket timeout, are not modelled: a retry is the `Retry(ms)` effect.
- The older peer's `'error'` emit after connecting is not modelled beyond the effect it shares with the current peer.
- bin/cli.js and lib/flic.js are not part of this model. They are thin wrappers that construct the classes above.
- LegacyBridge.Close: `socket.end(text)` is modelled as a write of the record. Ending the connection is left to the close events.

## Findings

| source | as written | input that shows it | evidently intended | confidence | as-written member | corrected member |
|---|---|---|---|---|---|---|
| lib/flic-bridge.js:20-31 | a valid numeric port passes the range check but is never assigned to `self._port`, so line 171 listens on `undefined` (a port the system picks) | `new Bridge(9000)` | listen on the port that passed the check | high; not executed | LegacyBridge.ValidPortIgnored | LegacyBridge.ListenPortChecks |
| lib/flic-message.js:54 | records are written with no delimiter, and the reader parses each whole chunk (lib/flic-bridge.js:47, lib/flic-node.js:141), so two records that arrive in one chunk fail to parse: the hub crashes, and a peer drops both | two records, each written on its own, coalesced into one chunk | a delimiter after each record, with a reader that splits on it, as lib/message.js:33 and lib/bridge.js:57 later do | medium; not executed | LegacyMessage.TwoRecordsInOneChunk | LegacyBridgeProperties.TwoRecordsFramed |

=== FILE: bridge.dfy ===
/** The hub of the relay (lib/bridge.js): it keeps the registry of identified
    nodes and routes every record it reads to the connections named in it.
    Every handler is a pure step from the hub's state to the new state and the
    records written, in order. Sockets are opaque connection handles; the
    transport's behaviour enters as parameters: `dead` is the set of
    connections on which `socket.write` throws, and `id` (or `ids`) supplies
    the identifiers `uuid.v4` would generate for the records the hub creates. */
module Bridge {
  import opened Wrappers
  import opened Json
  import opened Message
  import opened Framing
  import opened Registry

  const DEFAULT_PORT := 8221
  const DEFAULT_HOST := "127.0.0.1"

  /** The constructor's first argument. */
  datatype ConfigArg =
    | Absent
    | PortNumber(number: int)
    | Function
    | Options(host: Option<string>, port: Option<int>)

  /** Where the hub listens, and whether a listening/error callback was
      given (as the second argument or as the only one). */
  datatype Config = Config(host: string, port: int, callback: bool)

  /** A number is the port, a function is the callback, and `host` and
      `port` take their defaults when the options leave them out. */
  function Configure(arg: ConfigArg, callbackArg: bool): (c: Config)
    ensures c.callback <==> callbackArg || arg.Function?
    ensures c.host != DEFAULT_HOST ==> arg.Options? && arg.host == Some(c.host)
    ensures c.port != DEFAULT_PORT ==>
      (arg.PortNumber? && arg.number == c.port) || (arg.Options? && arg.port == Some(c.port))
    ensures arg.PortNumber? ==> c.host == DEFAULT_HOST && c.port == arg.number
    ensures arg.Absent? || arg.Function? ==> c.host == DEFAULT_HOST && c.port == DEFAULT_PORT
    ensures arg.Options? && arg.host.Some? ==> c.host == arg.host.value
    ensures arg.Options? && arg.port.Some? ==> c.port == arg.port.value
  {
    var callback := callbackArg || arg.Function?;
    match arg
    case Absent => Config(DEFAULT_HOST, DEFAULT_PORT, callback)
    case Function => Config(DEFAULT_HOST, DEFAULT_PORT, callback)
    case PortNumber(p) => Config(DEFAULT_HOST, p, callback)
    case Options(host, port) =>
      Config(if host.Some? then host.value else DEFAULT_HOST,
             if port.Some? then port.value else DEFAULT_PORT, callback)
  }

  /** One record written to one connection. */
  datatype Delivery = Delivery(to: ConnId, msg: Message)

  /** The hub's state: the registry; the connections whose listeners
      `_cleanup_dead_socket` removed, so that they are read no longer and
      their `error` events are not handled; and, per connection, how many
      `close` listeners it holds, one for each `IDENT` registered on it
      since it was last cleaned up. */
  datatype Hub = Hub(reg: Registry, detached: set<ConnId>, closers: map<ConnId, nat>)

  /** The number of `close` listeners of a connection. */
  function Closers(hub: Hub, conn: ConnId): nat
  {
    if conn in hub.closers then hub.closers[conn] else 0
  }

  /** The listener bookkeeping agrees with the registry: names are unique
      and truthy, and every connection still read holds one `close`
      listener per name bound to it. A hub with no connections is tracked,
      and every handler keeps it so. */
  ghost predicate Tracked(hub: Hub) {
    && Valid(hub.reg) && Named(hub.reg)
    && forall c :: c !in hub.detached ==> Count(hub.reg, c) == Closers(hub, c)
  }

  /** A hub state and the records written on the way to it. */
  datatype Step = Step(hub: Hub, out: seq<Delivery>)

  /** No name is bound anew: every name bound after is bound before, to the
      same connection. */
  ghost predicate Shrinks(before: Registry, after: Registry) {
    forall k :: Lookup(after, k).Some? ==> Lookup(before, k) == Lookup(after, k)
  }

  /** `_cleanup_dead_socket`: the connection's name is unbound and its
      listeners are removed. */
  function Detach(hub: Hub, conn: ConnId): (h: Hub)
    ensures conn in h.detached && h.detached == hub.detached + {conn} && Closers(h, conn) == 0
    ensures Valid(hub.reg) ==> Valid(h.reg)
    ensures Shrinks(hub.reg, h.reg)
    ensures Tracked(hub) ==> Tracked(h)
  {
    Hub(Cleanup(hub.reg, conn), hub.detached + {conn}, hub.closers - {conn})
  }

  /** `_write_to_socket`: a write that throws cleans the connection up
      instead of delivering. */
  function WriteTo(hub: Hub, conn: ConnId, msg: Message, dead: set<ConnId>): (s: Step)
    ensures conn !in dead ==> s == Step(hub, [Delivery(conn, msg)])
    ensures conn in dead ==> s == Step(Detach(hub, conn), [])
    ensures Tracked(hub) ==> Tracked(s.hub)
  {
    if conn in dead then Step(Detach(hub, conn), []) else Step(hub, [Delivery(conn, msg)])
  }

  /** `_send_to_node`: writes only to a registered name; a name that is no
      property key (`None`) is never registered. */
  function SendTo(hub: Hub, name: Option<string>, msg: Message, dead: set<ConnId>): (s: Step)
    ensures name.None? || Lookup(hub.reg, name.value).None? ==> s == Step(hub, [])
    ensures name.Some? && Lookup(hub.reg, name.value).Some? ==>
      s == WriteTo(hub, Lookup(hub.reg, name.value).value, msg, dead)
    ensures |s.out| <= 1
    ensures Valid(hub.reg) ==> Valid(s.hub.reg)
    ensures Shrinks(hub.reg, s.hub.reg)
    ensures Tracked(hub) ==> Tracked(s.hub)
  {
    if name.None? then Step(hub, [])
    else match Lookup(hub.reg, name.value)
      case None => Step(hub, [])
      case Some(conn) => WriteTo(hub, conn, msg, dead)
  }

  /** The key the sender's `nodeName` is registered and looked up under. */
  function SenderKey(m: Message): string
  {
    if m.nodeName == "" then "undefined" else m.nodeName
  }

  /** The sender's `nodeName` as written in a forwarded record. */
  function SenderValue(m: Message): Value
  {
    if m.nodeName == "" then Null else Str(m.nodeName)
  }

  /** The sender's name a `SHOUT` skips; a missing name equals no key. */
  function ShoutSkip(m: Message): Option<string>
  {
    if m.nodeName == "" then None else Some(m.nodeName)
  }

  function DuplicateAck(m: Message, id: string): Message
  {
    New(id, ACK, Arr([Str(m.id), Arr([Str("duplicate-node")])]))
  }

  function WelcomeAck(m: Message, id: string): Message
  {
    New(id, ACK, Arr([Str(m.id), Arr([Null])]))
  }

  function UnknownNodeAck(m: Message, id: string): Message
  {
    New(id, ACK, Arr([Str(m.id), Arr([Str("unknown-node")])]))
  }

  function Forward(m: Message, id: string): Message
  {
    New(id, TELL, Arr([SenderValue(m), Str(m.id), Written(ArgAt(m.data, 1)), Written(ArgAt(m.data, 2))]))
  }

  function Relay(m: Message, id: string): Message
  {
    New(id, ACK, Arr([Written(ArgAt(m.data, 1)), Written(ArgAt(m.data, 2))]))
  }

  function LeaveAck(m: Message, id: string): Message
  {
    New(id, ACK, Arr([Str(m.id), Arr([])]))
  }

  /** `_handle_ident_message`: a fresh name is bound to the connection,
      which gains a `close` listener, and is then acknowledged through the
      new binding. */
  function Ident(hub: Hub, conn: ConnId, m: Message, id: string, dead: set<ConnId>): (s: Step)
    ensures Valid(hub.reg) ==> Valid(s.hub.reg)
    ensures Tracked(hub) ==> Tracked(s.hub)
  {
    var name := SenderKey(m);
    if Lookup(hub.reg, name).Some? then WriteTo(hub, conn, DuplicateAck(m, id), dead)
    else
      var bound := Hub(Register(hub.reg, name, conn), hub.detached, hub.closers[conn := Closers(hub, conn) + 1]);
      SendTo(bound, Some(name), WelcomeAck(m, id), dead)
  }

  /** `_handle_tell_message`. */
  function Tell(hub: Hub, m: Message, id: string, dead: set<ConnId>): (s: Step)
    ensures Valid(hub.reg) ==> Valid(s.hub.reg)
    ensures Tracked(hub) ==> Tracked(s.hub)
    ensures Shrinks(hub.reg, s.hub.reg) && |s.out| <= 1
  {
    var dest := KeyOf(ArgAt(m.data, 0));
    if dest.None? || Lookup(hub.reg, dest.value).None? then
      SendTo(hub, Some(SenderKey(m)), UnknownNodeAck(m, id), dead)
    else
      SendTo(hub, dest, Forward(m, id), dead)
  }

  /** The names of a snapshot of the registry, visited in order, each sent
      the record unless it is `skip` or is no longer registered. */
  function Broadcast(hub: Hub, names: seq<string>, skip: Option<string>, msg: Message, dead: set<ConnId>): (s: Step)
    ensures Valid(hub.reg) ==> Valid(s.hub.reg)
    ensures Shrinks(hub.reg, s.hub.reg)
    ensures |s.out| <= |names|
    ensures forall i :: 0 <= i < |s.out| ==> s.out[i].msg == msg
    ensures Tracked(hub) ==> Tracked(s.hub)
    decreases |names|
  {
    if names == [] then Step(hub, [])
    else
      var first := if skip == Some(names[0]) then Step(hub, []) else SendTo(hub, Some(names[0]), msg, dead);
      var rest := Broadcast(first.hub, names[1..], skip, msg, dead);
      Step(rest.hub, first.out + rest.out)
  }

  /** `_handle_shout_message`: one record, with the shout's data, to every
      registered name but the sender's. */
  function Shout(hub: Hub, m: Message, id: string, dead: set<ConnId>): (s: Step)
    ensures Valid(hub.reg) ==> Valid(s.hub.reg)
    ensures Tracked(hub) ==> Tracked(s.hub)
    ensures Shrinks(hub.reg, s.hub.reg)
  {
    Broadcast(hub, Names(hub.reg), ShoutSkip(m), New(id, SHOUT, Arr(m.data)), dead)
  }

  /** `_handle_ack_message`. */
  function Ack(hub: Hub, m: Message, id: string, dead: set<ConnId>): (s: Step)
    ensures Valid(hub.reg) ==> Valid(s.hub.reg)
    ensures Tracked(hub) ==> Tracked(s.hub)
    ensures Shrinks(hub.reg, s.hub.reg) && |s.out| <= 1
  {
    SendTo(hub, KeyOf(ArgAt(m.data, 0)), Relay(m, id), dead)
  }

  /** `_handle_leave_message`. */
  function Leave(hub: Hub, conn: ConnId, m: Message, id: string, dead: set<ConnId>): (s: Step)
    ensures Valid(hub.reg) ==> Valid(s.hub.reg)
    ensures Tracked(hub) ==> Tracked(s.hub)
    ensures Shrinks(hub.reg, s.hub.reg)
  {
    var s := WriteTo(hub, conn, LeaveAck(m, id), dead);
    Step(Detach(s.hub, conn), s.out)
  }

  /** The `switch` in `_handle_data`: one record read from `conn`. */
  function Handle(hub: Hub, conn: ConnId, m: Message, id: string, dead: set<ConnId>): (s: Step)
    ensures Valid(hub.reg) ==> Valid(s.hub.reg)
    ensures m.command != IDENT ==> Shrinks(hub.reg, s.hub.reg)
    ensures Tracked(hub) ==> Tracked(s.hub)
  {
    if m.command == IDENT then Ident(hub, conn, m, id, dead)
    else if m.command == TELL then Tell(hub, m, id, dead)
    else if m.command == SHOUT then Shout(hub, m, id, dead)
    else if m.command == ACK then Ack(hub, m, id, dead)
    else if m.command == LEAVE then Leave(hub, conn, m, id, dead)
    else Step(hub, [])
  }

  /** Handling one record read from a connection, with the identifier for
      the record it creates; `HandleAll` folds any such step over a chunk. */
  type Handler = (Hub, ConnId, Message, string) -> Step

  /** A step that keeps names unique. */
  ghost predicate KeepsValid(handler: Handler) {
    forall hub: Hub, conn: ConnId, m: Message, id: string :: Valid(hub.reg) ==> Valid(handler(hub, conn, m, id).hub.reg)
  }

  /** A step that keeps the listener bookkeeping in agreement. */
  ghost predicate KeepsTracked(handler: Handler) {
    forall hub: Hub, conn: ConnId, m: Message, id: string :: Tracked(hub) ==> Tracked(handler(hub, conn, m, id).hub)
  }

  /** The records of one chunk handled in order; the i-th record handled
      creates its records with identifier `ids(next + i)`. */
  function HandleAll(handler: Handler, hub: Hub, conn: ConnId, ms: seq<Message>, ids: nat -> string, next: nat): (s: Step)
    ensures KeepsValid(handler) && Valid(hub.reg) ==> Valid(s.hub.reg)
    ensures KeepsTracked(handler) && Tracked(hub) ==> Tracked(s.hub)
    decreases |ms|
  {
    if ms == [] then Step(hub, [])
    else
      var first := handler(hub, conn, ms[0], ids(next));
      var rest := HandleAll(handler, first.hub, conn, ms[1..], ids, next + 1);
      Step(rest.hub, first.out + rest.out)
  }

  /** `Handle` with the transport's failures fixed. */
  function Handling(dead: set<ConnId>): (handler: Handler)
    ensures KeepsValid(handler) && KeepsTracked(handler)
  {
    (hub: Hub, conn: ConnId, m: Message, id: string) => Handle(hub, conn, m, id, dead)
  }

  /** `_handle_data`: a chunk read from `conn`. A connection whose listeners
      were removed is not read. */
  function HandleChunk(hub: Hub, conn: ConnId, chunk: string, ids: nat -> string, dead: set<ConnId>): (s: Step)
    ensures Valid(hub.reg) ==> Valid(s.hub.reg)
    ensures conn in hub.detached ==> s == Step(hub, [])
    ensures Tracked(hub) ==> Tracked(s.hub)
  {
    if conn in hub.detached then Step(hub, [])
    else HandleAll(Handling(dead), hub, conn, Decode(chunk).messages, ids, 0)
  }

  /** The `error` event of a connection: its one `error` listener, added
      when the connection was accepted, cleans it up. A connection already
      cleaned up has no listener left. */
  function OnError(hub: Hub, conn: ConnId): (h: Hub)
    ensures Valid(hub.reg) ==> Valid(h.reg)
    ensures Tracked(hub) ==> Tracked(h)
    ensures conn in hub.detached ==> h == hub
    ensures conn !in hub.detached ==> conn in h.detached && Closers(h, conn) == 0
    ensures conn !in hub.detached ==>
      forall k :: Lookup(h.reg, k) == if Some(k) == NameOf(hub.reg, conn) && k != "" then None else Lookup(hub.reg, k)
  {
    if conn in hub.detached then hub else Detach(hub, conn)
  }

  /** The `close` event of a connection: every `close` listener that
      `IDENT` added runs `_cleanup_dead_socket`. The first one removes all
      listeners, but the emitter has already taken its list, so the others
      still run, each deleting the next name `getSocketName` finds. */
  function OnClose(hub: Hub, conn: ConnId): (h: Hub)
    ensures Valid(hub.reg) ==> Valid(h.reg)
    ensures Tracked(hub) ==> Tracked(h)
    ensures Shrinks(hub.reg, h.reg)
    ensures Closers(hub, conn) == 0 ==> h == hub
    ensures Closers(hub, conn) > 0 ==> conn in h.detached && Closers(h, conn) == 0
    ensures Tracked(hub) && conn !in hub.detached ==>
      forall k :: Lookup(h.reg, k) == if Lookup(hub.reg, k) == Some(conn) then None else Lookup(hub.reg, k)
  {
    var n := Closers(hub, conn);
    if n == 0 then hub
    else
      var h := Hub(CleanupTimes(hub.reg, conn, n), hub.detached + {conn}, hub.closers - {conn});
      assert Tracked(hub) && conn !in hub.detached ==> forall k :: Lookup(h.reg, k) != Some(conn);
      h
  }

  /** `close(closeData)`: one `CLOSE` record to every registered name. */
  function Close(hub: Hub, closeData: Value, id: string, dead: set<ConnId>): (s: Step)
    ensures Valid(hub.reg) ==> Valid(s.hub.reg)
    ensures Tracked(hub) ==> Tracked(s.hub)
    ensures Shrinks(hub.reg, s.hub.reg)
  {
    Broadcast(hub, Names(hub.reg), None, New(id, CLOSE, closeData), dead)
  }
}

=== FILE: bridge_properties.dfy ===
/** What the hub's handlers promise, stated against the registry and the
    records written (lib/bridge.js:53-179). Unless a lemma says otherwise,
    its connections are live: no write to them throws. */
module BridgeProperties {
  import opened Wrappers
  import opened Json
  import opened Message
  import opened Framing
  import opened Registry
  import opened Bridge

  /** No registered connection is one whose writes throw. */
  predicate Live(reg: Registry, dead: set<ConnId>) {
    forall i :: 0 <= i < |reg| ==> reg[i].conn !in dead
  }

  /** Reference fan-out: the record once to each registry entry in order,
      the entry named `skip` left out. */
  function Fanout(reg: Registry, skip: Option<string>, msg: Message): seq<Delivery>
  {
    if reg == [] then []
    else (if skip == Some(reg[0].name) then [] else [Delivery(reg[0].conn, msg)]) + Fanout(reg[1..], skip, msg)
  }

  /** The fan-out reaches exactly the entries other than `skip`. */
  lemma {:induction false} FanoutMembers(reg: Registry, skip: Option<string>, msg: Message)
    ensures forall d :: d in Fanout(reg, skip, msg) <==>
      exists i :: 0 <= i < |reg| && skip != Some(reg[i].name) && d == Delivery(reg[i].conn, msg)
  {
    if reg != [] {
      FanoutMembers(reg[1..], skip, msg);
      forall d | d in Fanout(reg, skip, msg)
        ensures exists i :: 0 <= i < |reg| && skip != Some(reg[i].name) && d == Delivery(reg[i].conn, msg)
      {
        if d !in Fanout(reg[1..], skip, msg) {
          assert skip != Some(reg[0].name) && d == Delivery(reg[0].conn, msg);
        } else {
          var i :| 0 <= i < |reg[1..]| && skip != Some(reg[1..][i].name) && d == Delivery(reg[1..][i].conn, msg);
          assert reg[i + 1] == reg[1..][i];
        }
      }
      forall d | exists i :: 0 <= i < |reg| && skip != Some(reg[i].name) && d == Delivery(reg[i].conn, msg)
        ensures d in Fanout(reg, skip, msg)
      {
        var i :| 0 <= i < |reg| && skip != Some(reg[i].name) && d == Delivery(reg[i].conn, msg);
        if i > 0 {
          assert reg[1..][i - 1] == reg[i];
        }
      }
    }
  }

  /** In a valid registry the fan-out writes one record per entry, one less
      when the skipped name is registered. */
  lemma {:induction false} FanoutCount(reg: Registry, skip: Option<string>, msg: Message)
    requires Valid(reg)
    ensures |Fanout(reg, skip, msg)| == |reg| - (if skip.Some? && Lookup(reg, skip.value).Some? then 1 else 0)
  {
    if reg != [] {
      FanoutCount(reg[1..], skip, msg);
      if skip == Some(reg[0].name) {
        assert forall i :: 0 <= i < |reg[1..]| ==> reg[1..][i].name != reg[0].name by {
          forall i | 0 <= i < |reg[1..]| ensures reg[1..][i].name != reg[0].name {
            assert reg[1..][i] == reg[i + 1];
          }
        }
      }
    }
  }

  /** Sending to a registered name of a valid registry writes to that
      entry's connection. */
  lemma SendToEntry(hub: Hub, i: nat, msg: Message, dead: set<ConnId>)
    requires Valid(hub.reg) && Live(hub.reg, dead) && i < |hub.reg|
    ensures SendTo(hub, Some(hub.reg[i].name), msg, dead) == Step(hub, [Delivery(hub.reg[i].conn, msg)])
  {
    LookupEntry(hub.reg, i);
  }

  /** Broadcasting over the names of a valid registry whose connections
      are live changes nothing and fans the record out in registry order. */
  lemma {:induction false} BroadcastSuffix(hub: Hub, k: nat, skip: Option<string>, msg: Message, dead: set<ConnId>)
    requires Valid(hub.reg) && Live(hub.reg, dead) && k <= |hub.reg|
    ensures Broadcast(hub, Names(hub.reg)[k..], skip, msg, dead) == Step(hub, Fanout(hub.reg[k..], skip, msg))
    decreases |hub.reg| - k
  {
    var reg := hub.reg;
    if k < |reg| {
      var names := Names(reg)[k..];
      assert names[0] == reg[k].name;
      assert names[1..] == Names(reg)[k + 1..];
      SendToEntry(hub, k, msg, dead);
      BroadcastSuffix(hub, k + 1, skip, msg, dead);
      assert reg[k..][0] == reg[k] && reg[k..][1..] == reg[k + 1..];
    } else {
      assert Names(reg)[k..] == [] && reg[k..] == [];
    }
  }

  lemma BroadcastAll(hub: Hub, skip: Option<string>, msg: Message, dead: set<ConnId>)
    requires Valid(hub.reg) && Live(hub.reg, dead)
    ensures Broadcast(hub, Names(hub.reg), skip, msg, dead) == Step(hub, Fanout(hub.reg, skip, msg))
  {
    BroadcastSuffix(hub, 0, skip, msg, dead);
    assert Names(hub.reg)[0..] == Names(hub.reg) && hub.reg[0..] == hub.reg;
  }

  /** An `IDENT` under a name already registered changes nothing and tells
      the requesting connection `duplicate-node`. */
  lemma IdentDuplicate(hub: Hub, conn: ConnId, m: Message, id: string, dead: set<ConnId>)
    requires m.command == IDENT && Lookup(hub.reg, SenderKey(m)).Some? && conn !in dead
    ensures Handle(hub, conn, m, id, dead)
      == Step(hub, [Delivery(conn, New(id, ACK, Arr([Str(m.id), Arr([Str("duplicate-node")])])))])
  {
  }

  /** An `IDENT` under a fresh name binds it to the connection, adds a
      `close` listener to it, leaves every other binding alone and then
      acknowledges through the new binding. */
  lemma IdentFresh(hub: Hub, conn: ConnId, m: Message, id: string, dead: set<ConnId>)
    requires m.command == IDENT && Lookup(hub.reg, SenderKey(m)).None? && conn !in dead
    ensures var s := Handle(hub, conn, m, id, dead);
      && s.hub.detached == hub.detached
      && Closers(s.hub, conn) == Closers(hub, conn) + 1
      && (forall k :: Lookup(s.hub.reg, k) == if k == SenderKey(m) then Some(conn) else Lookup(hub.reg, k))
      && s.out == [Delivery(conn, New(id, ACK, Arr([Str(m.id), Arr([Null])])))]
  {
  }

  /** A `TELL` to a name that is not registered changes nothing; the sender,
      when registered, is told `unknown-node`. */
  lemma TellUnknown(hub: Hub, conn: ConnId, m: Message, id: string, dead: set<ConnId>)
    requires m.command == TELL
    requires KeyOf(ArgAt(m.data, 0)).None? || Lookup(hub.reg, KeyOf(ArgAt(m.data, 0)).value).None?
    requires Live(hub.reg, dead)
    ensures var s := Handle(hub, conn, m, id, dead);
      && s.hub == hub
      && (Lookup(hub.reg, SenderKey(m)).None? ==> s.out == [])
      && (Lookup(hub.reg, SenderKey(m)).Some? ==>
           s.out == [Delivery(Lookup(hub.reg, SenderKey(m)).value, New(id, ACK, Arr([Str(m.id), Arr([Str("unknown-node")])])))])
  {
    if Lookup(hub.reg, SenderKey(m)).Some? {
      var i :| 0 <= i < |hub.reg| && hub.reg[i] == Entry(SenderKey(m), Lookup(hub.reg, SenderKey(m)).value);
    }
  }

  /** A `TELL` to a registered name writes one record, to that name alone,
      carrying the sender, the request id, the event and the parameters. */
  lemma TellKnown(hub: Hub, conn: ConnId, m: Message, id: string, dead: set<ConnId>, to: ConnId)
    requires m.command == TELL && KeyOf(ArgAt(m.data, 0)).Some?
    requires Lookup(hub.reg, KeyOf(ArgAt(m.data, 0)).value) == Some(to) && to !in dead
    ensures Handle(hub, conn, m, id, dead) == Step(hub, [Delivery(to,
      New(id, TELL, Arr([SenderValue(m), Str(m.id), Written(ArgAt(m.data, 1)), Written(ArgAt(m.data, 2))])))])
  {
  }

  /** A `SHOUT` changes nothing and writes its data, in one record, to every
      registered name except the sender's, in registry order. */
  lemma ShoutFanout(hub: Hub, conn: ConnId, m: Message, id: string, dead: set<ConnId>)
    requires m.command == SHOUT && Valid(hub.reg) && Live(hub.reg, dead)
    ensures Handle(hub, conn, m, id, dead) == Step(hub, Fanout(hub.reg, ShoutSkip(m), New(id, SHOUT, Arr(m.data))))
  {
    BroadcastAll(hub, ShoutSkip(m), New(id, SHOUT, Arr(m.data)), dead);
  }

  /** Who hears a `SHOUT`: every registered connection under a name other
      than the sender's, and nobody else; one record fewer than there are
      names exactly when the sender is registered. */
  lemma ShoutReach(hub: Hub, conn: ConnId, m: Message, id: string, dead: set<ConnId>)
    requires m.command == SHOUT && Valid(hub.reg) && Live(hub.reg, dead)
    ensures var s := Handle(hub, conn, m, id, dead);
      && (forall d :: d in s.out <==> exists i :: (0 <= i < |hub.reg|
            && (m.nodeName == "" || hub.reg[i].name != m.nodeName)
            && d == Delivery(hub.reg[i].conn, New(id, SHOUT, Arr(m.data)))))
      && |s.out| == |hub.reg| - (if m.nodeName != "" && Lookup(hub.reg, m.nodeName).Some? then 1 else 0)
  {
    var msg := New(id, SHOUT, Arr(m.data));
    ShoutFanout(hub, conn, m, id, dead);
    FanoutMembers(hub.reg, ShoutSkip(m), msg);
    FanoutCount(hub.reg, ShoutSkip(m), msg);
  }

  /** An `ACK` is relayed as `[cbid, params]` to the name in `data[0]` if it
      is registered, and dropped otherwise; nothing changes. */
  lemma AckRelay(hub: Hub, conn: ConnId, m: Message, id: string, dead: set<ConnId>)
    requires m.command == ACK && Live(hub.reg, dead)
    ensures var s := Handle(hub, conn, m, id, dead);
      var to := KeyOf(ArgAt(m.data, 0));
      && s.hub == hub
      && (to.None? || Lookup(hub.reg, to.value).None? ==> s.out == [])
      && (to.Some? && Lookup(hub.reg, to.value).Some? ==>
           s.out == [Delivery(Lookup(hub.reg, to.value).value, New(id, ACK, Arr([Written(ArgAt(m.data, 1)), Written(ArgAt(m.data, 2))])))])
  {
    var to := KeyOf(ArgAt(m.data, 0));
    if to.Some? && Lookup(hub.reg, to.value).Some? {
      var i :| 0 <= i < |hub.reg| && hub.reg[i] == Entry(to.value, Lookup(hub.reg, to.value).value);
    }
  }

  /** lodash reads a one-element array destination as the path to its
      element, and `this._sockets[[x]]` indexes the same property, so a
      `TELL` or `ACK` addressed to `[x]` is handled as one addressed to `x`. */
  lemma ArrayDestination(hub: Hub, conn: ConnId, m: Message, id: string, dead: set<ConnId>, x: Value)
    requires m.command == TELL || m.command == ACK
    requires |m.data| > 0 && m.data[0] == Arr([x]) && !x.Null? && !x.Arr?
    ensures Handle(hub, conn, m, id, dead) == Handle(hub, conn, m.(data := [x] + m.data[1..]), id, dead)
  {
  }

  /** A `LEAVE` first acknowledges on the leaving connection, then unbinds
      the name that connection was registered under, and nothing else; the
      connection is read no more. */
  lemma LeaveThenCleanup(hub: Hub, conn: ConnId, m: Message, id: string, dead: set<ConnId>,
                         chunk: string, ids: nat -> string)
    requires m.command == LEAVE && conn !in dead
    ensures var s := Handle(hub, conn, m, id, dead);
      && s.out == [Delivery(conn, New(id, ACK, Arr([Str(m.id), Arr([])])))]
      && (forall k :: Lookup(s.hub.reg, k) == if Some(k) == NameOf(hub.reg, conn) && k != "" then None else Lookup(hub.reg, k))
      && HandleChunk(s.hub, conn, chunk, ids, dead) == Step(s.hub, [])
  {
  }

  /** A record whose method the hub does not know has no effect. */
  lemma UnknownMethodIgnored(hub: Hub, conn: ConnId, m: Message, id: string, dead: set<ConnId>)
    requires m.command !in {IDENT, TELL, SHOUT, ACK, LEAVE}
    ensures Handle(hub, conn, m, id, dead) == Step(hub, [])
  {
  }

  /** Handling records one after another: the second run starts from where
      the first left off, and its writes follow the first run's. */
  lemma {:induction false} HandleAllAppend(handler: Handler, hub: Hub, conn: ConnId, a: seq<Message>, b: seq<Message>,
                                           ids: nat -> string, next: nat)
    ensures var first := HandleAll(handler, hub, conn, a, ids, next);
      var second := HandleAll(handler, first.hub, conn, b, ids, next + |a|);
      HandleAll(handler, hub, conn, a + b, ids, next) == Step(second.hub, first.out + second.out)
    decreases |a|
  {
    if a == [] {
      assert a + b == b;
    } else {
      var s := handler(hub, conn, a[0], ids(next));
      assert (a + b)[0] == a[0] && (a + b)[1..] == a[1..] + b;
      HandleAllAppend(handler, s.hub, conn, a[1..], b, ids, next + 1);
      var r1 := HandleAll(handler, s.hub, conn, a[1..], ids, next + 1);
      var r2 := HandleAll(handler, r1.hub, conn, b, ids, next + |a|);
      assert s.out + (r1.out + r2.out) == (s.out + r1.out) + r2.out;
    }
  }

  /** A chunk of written records is handled record by record, in order. */
  lemma ChunkOfRecords(hub: Hub, conn: ConnId, ms: seq<Message>, ids: nat -> string, dead: set<ConnId>)
    requires conn !in hub.detached
    ensures HandleChunk(hub, conn, Frame(ms), ids, dead) == HandleAll(Handling(dead), hub, conn, ms, ids, 0)
  {
    DecodeFrame(ms);
  }

  /** The records before a malformed frame keep their effects; the malformed
      frame and the rest of the chunk have none. */
  lemma ChunkStopsAtMalformed(hub: Hub, conn: ConnId, ms: seq<Message>, t: string, ids: nat -> string, dead: set<ConnId>)
    requires conn !in hub.detached
    requires Frames(t) != [] && ParseRecord(Frames(t)[0]).None?
    ensures HandleChunk(hub, conn, Frame(ms) + t, ids, dead) == HandleAll(Handling(dead), hub, conn, ms, ids, 0)
  {
    DecodeStopsAtMalformed(ms, t);
  }

  /** `close(d)` writes one `CLOSE` record carrying `d` (or no data when `d`
      is not an array) to every registered name, and changes nothing. */
  lemma CloseFanout(hub: Hub, closeData: Value, id: string, dead: set<ConnId>)
    requires Valid(hub.reg) && Live(hub.reg, dead)
    ensures var s := Close(hub, closeData, id, dead);
      && s.hub == hub
      && |s.out| == |hub.reg|
      && forall i :: 0 <= i < |hub.reg| ==>
           s.out[i] == Delivery(hub.reg[i].conn, Message(id, CLOSE, if closeData.Arr? then closeData.items else [], ""))
  {
    var msg := New(id, CLOSE, closeData);
    BroadcastAll(hub, None, msg, dead);
    FanoutAll(hub.reg, msg);
  }

  lemma {:induction false} FanoutAll(reg: Registry, msg: Message)
    ensures |Fanout(reg, None, msg)| == |reg|
    ensures forall i :: 0 <= i < |reg| ==> Fanout(reg, None, msg)[i] == Delivery(reg[i].conn, msg)
  {
    if reg != [] {
      FanoutAll(reg[1..], msg);
    }
  }

  /** Every handler keeps names unique. */
  lemma HandlePreservesValid(hub: Hub, conn: ConnId, chunk: string, ids: nat -> string, dead: set<ConnId>)
    requires Valid(hub.reg)
    ensures Valid(HandleChunk(hub, conn, chunk, ids, dead).hub.reg)
  {
  }

  /** No chunk breaks the agreement between `close` listeners and names. */
  lemma HandlePreservesTracked(hub: Hub, conn: ConnId, chunk: string, ids: nat -> string, dead: set<ConnId>)
    requires Tracked(hub)
    ensures Tracked(HandleChunk(hub, conn, chunk, ids, dead).hub)
  {
  }

  /** An `error` runs one cleanup, so a connection bound under two names
      keeps the one `getSocketName` does not find first. */
  lemma ErrorKeepsLaterName(hub: Hub, conn: ConnId, first: string, later: string)
    requires Valid(hub.reg) && conn !in hub.detached && first != ""
    requires NameOf(hub.reg, conn) == Some(first) && Lookup(hub.reg, later) == Some(conn) && later != first
    ensures Lookup(OnError(hub, conn).reg, first).None?
    ensures Lookup(OnError(hub, conn).reg, later) == Some(conn)
  {
  }

  /** A connection that identifies under two fresh names in one chunk holds
      both, and its `close` then unbinds both, together with any name it
      held before, and nothing else. */
  lemma TwoIdentsThenClose(hub: Hub, conn: ConnId, m1: Message, m2: Message, ids: nat -> string, dead: set<ConnId>)
    requires Tracked(hub) && conn !in hub.detached && conn !in dead
    requires m1.command == IDENT && m2.command == IDENT && SenderKey(m1) != SenderKey(m2)
    requires Lookup(hub.reg, SenderKey(m1)).None? && Lookup(hub.reg, SenderKey(m2)).None?
    ensures var s := HandleChunk(hub, conn, Frame([m1, m2]), ids, dead);
      && Lookup(s.hub.reg, SenderKey(m1)) == Some(conn)
      && Lookup(s.hub.reg, SenderKey(m2)) == Some(conn)
      && forall k :: Lookup(OnClose(s.hub, conn).reg, k)
           == if k == SenderKey(m1) || k == SenderKey(m2) || Lookup(hub.reg, k) == Some(conn) then None else Lookup(hub.reg, k)
  {
    var s := HandleChunk(hub, conn, Frame([m1, m2]), ids, dead);
    TwoIdents(hub, conn, m1, m2, ids, dead);
    ChunkOfRecords(hub, conn, [m1, m2], ids, dead);
    assert Tracked(s.hub) && conn !in s.hub.detached;
    var h := OnClose(s.hub, conn);
    forall k
      ensures Lookup(h.reg, k)
        == if k == SenderKey(m1) || k == SenderKey(m2) || Lookup(hub.reg, k) == Some(conn) then None else Lookup(hub.reg, k)
    {
      assert Lookup(h.reg, k) == if Lookup(s.hub.reg, k) == Some(conn) then None else Lookup(s.hub.reg, k);
    }
  }

  /** Two fresh `IDENT`s in a row bind both names to the connection and
      keep it read. */
  lemma TwoIdents(hub: Hub, conn: ConnId, m1: Message, m2: Message, ids: nat -> string, dead: set<ConnId>)
    requires conn !in hub.detached && conn !in dead
    requires m1.command == IDENT && m2.command == IDENT && SenderKey(m1) != SenderKey(m2)
    requires Lookup(hub.reg, SenderKey(m1)).None? && Lookup(hub.reg, SenderKey(m2)).None?
    ensures var s := HandleAll(Handling(dead), hub, conn, [m1, m2], ids, 0);
      && s.hub.detached == hub.detached
      && forall k :: Lookup(s.hub.reg, k) == if k == SenderKey(m1) || k == SenderKey(m2) then Some(conn) else Lookup(hub.reg, k)
  {
    var s1 := Handle(hub, conn, m1, ids(0), dead);
    IdentFresh(hub, conn, m1, ids(0), dead);
    var s2 := Handle(s1.hub, conn, m2, ids(1), dead);
    IdentFresh(s1.hub, conn, m2, ids(1), dead);
    assert [m1, m2][1..] == [m2];
    assert HandleAll(Handling(dead), s1.hub, conn, [m2], ids, 1).hub == s2.hub;
  }

}

=== FILE: framing.dfy ===
/** NUL-terminated framing of records in a transport chunk: the writer
    appends one NUL to each record (lib/message.js:33); a reader splits the
    chunk on NUL, skips empty pieces and parses the rest in order, giving up
    on the remainder of the chunk at the first piece that fails to parse
    (lib/bridge.js:55-90, lib/node.js:113-146). */
module Framing {
  import opened Wrappers
  import opened Json
  import opened Message

  /** `s.split(sep)`: the pieces between separators, empty ones included,
      so there is always one more piece than there are separators. */
  function Split(s: string, sep: char): (r: seq<string>)
    ensures |r| > 0
    ensures forall i :: 0 <= i < |r| ==> sep !in r[i]
    decreases |s|
  {
    if s == "" then [""]
    else
      var tail := Split(s[1..], sep);
      if s[0] == sep then [""] + tail else [[s[0]] + tail[0]] + tail[1..]
  }

  /** The inverse of splitting: the pieces joined with the separator. */
  function Join(pieces: seq<string>, sep: char): string
    requires |pieces| > 0
  {
    if |pieces| == 1 then pieces[0] else pieces[0] + [sep] + Join(pieces[1..], sep)
  }

  /** Splitting loses nothing: joining the pieces gives the text back. */
  lemma {:induction false} JoinSplit(s: string, sep: char)
    ensures Join(Split(s, sep), sep) == s
    decreases |s|
  {
    if s != "" {
      var tail := Split(s[1..], sep);
      JoinSplit(s[1..], sep);
      if s[0] == sep {
        assert Split(s, sep)[1..] == tail;
        assert s == [sep] + s[1..];
      } else {
        var r := Split(s, sep);
        if |tail| == 1 {
          assert r == [[s[0]] + tail[0]];
        } else {
          assert r[1..] == tail[1..];
          assert Join(tail, sep) == tail[0] + [sep] + Join(tail[1..], sep);
        }
        assert s == [s[0]] + s[1..];
      }
    }
  }

  /** A text without the separator is a single piece. */
  lemma {:induction false} SplitWithout(s: string, sep: char)
    requires sep !in s
    ensures Split(s, sep) == [s]
    decreases |s|
  {
    if s != "" {
      SplitWithout(s[1..], sep);
      assert [s[0]] + s[1..] == s;
    }
  }

  /** A piece without the separator, followed by it, splits off as one
      piece. */
  lemma {:induction false} SplitAfterPiece(a: string, sep: char, t: string)
    requires sep !in a
    ensures Split(a + [sep] + t, sep) == [a] + Split(t, sep)
    decreases |a|
  {
    var s := a + [sep] + t;
    if a == "" {
      assert s == [sep] + t;
      assert s[1..] == t;
    } else {
      assert s[1..] == a[1..] + [sep] + t;
      SplitAfterPiece(a[1..], sep, t);
      assert [a[0]] + a[1..] == a;
    }
  }

  /** The pieces that are not empty, in order. */
  function NonEmpty(pieces: seq<string>): (r: seq<string>)
  {
    if pieces == [] then []
    else (if pieces[0] == "" then [] else [pieces[0]]) + NonEmpty(pieces[1..])
  }

  /** The frames a reader dispatches from a chunk. */
  function Frames(chunk: string): (r: seq<string>)
  {
    NonEmpty(Split(chunk, '\0'))
  }

  /** Each text followed by one NUL, concatenated. */
  function Terminated(texts: seq<string>): string
  {
    if texts == [] then "" else texts[0] + "\0" + Terminated(texts[1..])
  }

  /** NUL-free, non-empty texts: what the writer puts between terminators. */
  predicate Writable(texts: seq<string>) {
    forall i :: 0 <= i < |texts| ==> texts[i] != "" && '\0' !in texts[i]
  }

  /** Whatever follows a run of terminated texts, the reader sees each of
      those texts as one frame, in order, before anything else. */
  lemma {:induction false} FramesOfTerminated(texts: seq<string>, t: string)
    requires Writable(texts)
    ensures Frames(Terminated(texts) + t) == texts + Frames(t)
  {
    if texts == [] {
      assert Terminated(texts) + t == t;
    } else {
      var head := texts[0];
      var more := Terminated(texts[1..]) + t;
      assert Terminated(texts) + t == head + ['\0'] + more;
      SplitAfterPiece(head, '\0', more);
      var pieces := [head] + Split(more, '\0');
      assert pieces[1..] == Split(more, '\0');
      FramesOfTerminated(texts[1..], t);
      assert texts == [head] + texts[1..];
    }
  }

  /** The chunk a writer produces by writing the records in order. */
  function Frame(ms: seq<Message>): string
  {
    if ms == [] then "" else ToString(ms[0]) + Frame(ms[1..])
  }

  function RecordTexts(ms: seq<Message>): (r: seq<string>)
    ensures |r| == |ms| && Writable(r)
    ensures forall i :: 0 <= i < |ms| ==> r[i] == RecordText(ms[i])
  {
    seq(|ms|, i requires 0 <= i < |ms| => RecordText(ms[i]))
  }

  lemma {:induction false} FrameIsTerminated(ms: seq<Message>)
    ensures Frame(ms) == Terminated(RecordTexts(ms))
  {
    if ms != [] {
      FrameIsTerminated(ms[1..]);
      assert RecordTexts(ms)[1..] == RecordTexts(ms[1..]);
      assert ToString(ms[0]) == RecordText(ms[0]) + "\0";
    }
  }

  /** Whatever follows a run of written records, the reader sees each of
      those records as one frame, in order, before anything else. */
  lemma FramesOfFrame(ms: seq<Message>, t: string)
    ensures Frames(Frame(ms) + t) == RecordTexts(ms) + Frames(t)
  {
    FrameIsTerminated(ms);
    FramesOfTerminated(RecordTexts(ms), t);
  }

  /** Splitting a sequence of written records and skipping empty pieces
      yields exactly the record texts, in order. */
  lemma SplitFrameRoundTrip(ms: seq<Message>)
    ensures Frames(Frame(ms)) == RecordTexts(ms)
  {
    FramesOfFrame(ms, "");
    assert Frame(ms) + "" == Frame(ms);
    assert Frames("") == [];
  }

  /** What a reader made of a chunk: the records it dispatched, in order, and
      whether a malformed frame cut the rest of the chunk off. */
  datatype Decoded = Decoded(messages: seq<Message>, dropped: bool)

  /** What `JSON.parse` makes of each frame. */
  function ParseAll(frames: seq<string>): (r: seq<Option<Message>>)
    ensures |r| == |frames|
    ensures forall i :: 0 <= i < |frames| ==> r[i] == ParseRecord(frames[i])
  {
    seq(|frames|, i requires 0 <= i < |frames| => ParseRecord(frames[i]))
  }

  /** The records dispatched in order, up to the first frame that did not
      parse; that frame and the rest of the chunk are dropped. */
  function Dispatched(results: seq<Option<Message>>): (d: Decoded)
    ensures d.dropped ==> |d.messages| < |results| && results[|d.messages|].None?
    ensures !d.dropped ==> |d.messages| == |results|
    ensures forall i :: 0 <= i < |d.messages| ==> results[i] == Some(d.messages[i])
  {
    if results == [] then Decoded([], false)
    else
      match results[0]
      case None => Decoded([], true)
      case Some(m) =>
        var d := Dispatched(results[1..]);
        Decoded([m] + d.messages, d.dropped)
  }

  /** What a reader makes of a chunk: the i-th record dispatched is the one
      whose text is the i-th frame, and a frame that is no record's text
      ends the chunk. */
  function Decode(chunk: string): (d: Decoded)
    ensures |d.messages| <= |Frames(chunk)|
    ensures forall i :: 0 <= i < |d.messages| ==> RecordText(d.messages[i]) == Frames(chunk)[i]
    ensures d.dropped <==> |d.messages| < |Frames(chunk)|
    ensures d.dropped ==> forall m :: RecordText(m) != Frames(chunk)[|d.messages|]
  {
    var d := Dispatched(ParseAll(Frames(chunk)));
    assert d.dropped ==> forall m :: RecordText(m) != Frames(chunk)[|d.messages|] by {
      if d.dropped {
        forall m ensures RecordText(m) != Frames(chunk)[|d.messages|] {
          RecordRoundTrip(m);
        }
      }
    }
    d
  }

  /** Each record as a successful parse. */
  function AllParsed(ms: seq<Message>): (r: seq<Option<Message>>)
    ensures |r| == |ms| && forall i :: 0 <= i < |ms| ==> r[i] == Some(ms[i])
    decreases |ms|
  {
    if ms == [] then [] else [Some(ms[0])] + AllParsed(ms[1..])
  }

  lemma ConsAppend<T>(xs: seq<T>, ys: seq<T>)
    requires xs != []
    ensures [xs[0]] + (xs[1..] + ys) == xs + ys
  {
    assert xs == [xs[0]] + xs[1..];
  }

  /** A record that parsed is dispatched ahead of what follows it. */
  lemma DispatchedCons(m: Message, rest: seq<Option<Message>>)
    ensures Dispatched([Some(m)] + rest) == Decoded([m] + Dispatched(rest).messages, Dispatched(rest).dropped)
  {
    assert ([Some(m)] + rest)[1..] == rest;
  }

  lemma {:induction false} DispatchedPrefix(ms: seq<Message>, more: seq<Option<Message>>)
    ensures Dispatched(AllParsed(ms) + more)
      == Decoded(ms + Dispatched(more).messages, Dispatched(more).dropped)
    decreases |ms|
  {
    if ms == [] {
      assert AllParsed(ms) + more == more;
    } else {
      var tail := AllParsed(ms[1..]) + more;
      assert AllParsed(ms) + more == [Some(ms[0])] + tail;
      DispatchedCons(ms[0], tail);
      DispatchedPrefix(ms[1..], more);
      ConsAppend(ms, Dispatched(more).messages);
    }
  }

  lemma ParseAllAppend(a: seq<string>, b: seq<string>)
    ensures ParseAll(a + b) == ParseAll(a) + ParseAll(b)
  {
    var both, each := ParseAll(a + b), ParseAll(a) + ParseAll(b);
    forall i | 0 <= i < |both|
      ensures both[i] == each[i]
    {
      if i < |a| {
        assert (a + b)[i] == a[i];
      } else {
        assert (a + b)[i] == b[i - |a|];
      }
    }
  }

  /** Every record text parses back to its record. */
  lemma ParseAllRecordTexts(ms: seq<Message>)
    ensures ParseAll(RecordTexts(ms)) == AllParsed(ms)
  {
    forall i | 0 <= i < |ms|
      ensures ParseRecord(RecordText(ms[i])) == Some(ms[i])
    {
      RecordRoundTrip(ms[i]);
    }
  }

  lemma ParseRecordTexts(ms: seq<Message>, more: seq<string>)
    ensures Dispatched(ParseAll(RecordTexts(ms) + more))
      == Decoded(ms + Dispatched(ParseAll(more)).messages, Dispatched(ParseAll(more)).dropped)
  {
    ParseAllAppend(RecordTexts(ms), more);
    ParseAllRecordTexts(ms);
    DispatchedPrefix(ms, ParseAll(more));
  }

  /** Decoding what a writer wrote returns exactly the written records. */
  lemma DecodeFrame(ms: seq<Message>)
    ensures Decode(Frame(ms)) == Decoded(ms, false)
  {
    SplitFrameRoundTrip(ms);
    ParseRecordTexts(ms, []);
    assert RecordTexts(ms) + [] == RecordTexts(ms);
    assert ms + [] == ms;
  }

  /** The records in front of a malformed frame are all dispatched; the
      malformed frame and everything after it in the chunk are dropped. */
  lemma DecodeStopsAtMalformed(ms: seq<Message>, t: string)
    requires Frames(t) != [] && ParseRecord(Frames(t)[0]).None?
    ensures Decode(Frame(ms) + t) == Decoded(ms, true)
  {
    FramesOfFrame(ms, t);
    ParseRecordTexts(ms, Frames(t));
    assert ms + [] == ms;
  }

  /** One written record decodes to itself. */
  lemma DecodeOne(m: Message)
    ensures Decode(ToString(m)) == Decoded([m], false)
  {
    assert Frame([m]) == ToString(m) + Frame([]);
    assert Frame([m]) == ToString(m);
    DecodeFrame([m]);
  }
}

=== FILE: json.dfy ===
/** The values a message's `data` array can carry, and the canonical JSON
    text the relay writes for them (lib/message.js:33 hands every record to
    `JSON.stringify`; lib/bridge.js:65 and lib/node.js:125 hand every frame to
    `JSON.parse`). Only the canonical form written here is read back: the two
    facts the framing relies on, that the text never holds a NUL character
    and that reading it back returns the value, are proved below. */
module Json {
  import opened Wrappers

  /** A JSON value. Numbers are integers (floating point is not modelled). */
  datatype Value = Null | Bool(b: bool) | Num(n: int) | Str(s: string) | Arr(items: seq<Value>)

  /** JavaScript truthiness of a value. */
  predicate Truthy(v: Value) {
    match v
    case Null => false
    case Bool(b) => b
    case Num(n) => n != 0
    case Str(s) => s != ""
    case Arr(_) => true
  }

  /** What a parser read, and the text after it. */
  datatype Parsed<+T> = Parsed(value: T, rest: string)

  // ---------------------------------------------------------------------
  // Decimal integers

  predicate IsDigit(c: char) {
    '0' <= c <= '9'
  }

  predicate AllDigits(s: string) {
    forall i :: 0 <= i < |s| ==> IsDigit(s[i])
  }

  /** A text that cannot continue the number in front of it. */
  predicate Delimits(rest: string) {
    rest == "" || !IsDigit(rest[0])
  }

  function DigitChar(d: nat): (c: char)
    requires d < 10
    ensures IsDigit(c)
  {
    ('0' as int + d) as char
  }

  function DigitValue(c: char): (d: nat)
    requires IsDigit(c)
    ensures d < 10 && DigitChar(d) == c
  {
    c as int - '0' as int
  }

  /** Decimal digits of `n`, most significant first, without leading zeros. */
  function NatText(n: nat): (r: string)
    ensures |r| > 0 && AllDigits(r) && Printable(r)
    ensures |r| > 1 ==> r[0] != '0'
  {
    if n < 10 then [DigitChar(n)] else NatText(n / 10) + [DigitChar(n % 10)]
  }

  /** The number a run of decimal digits denotes. */
  function DigitsValue(s: string): nat
    requires AllDigits(s)
  {
    if s == "" then 0 else DigitsValue(s[..|s| - 1]) * 10 + DigitValue(s[|s| - 1])
  }

  lemma {:induction false} NatTextRoundTrip(n: nat)
    ensures DigitsValue(NatText(n)) == n
  {
    if n >= 10 {
      NatTextRoundTrip(n / 10);
      var t := NatText(n);
      assert t[..|t| - 1] == NatText(n / 10);
    }
  }

  /** The longest prefix of `s` made of digits. */
  function DigitRun(s: string): (r: string)
    ensures r <= s && AllDigits(r)
    ensures |r| < |s| ==> !IsDigit(s[|r|])
  {
    if s != "" && IsDigit(s[0]) then [s[0]] + DigitRun(s[1..]) else ""
  }

  lemma {:induction false} DigitRunOfDigits(d: string, rest: string)
    requires AllDigits(d) && Delimits(rest)
    ensures DigitRun(d + rest) == d
  {
    if d == "" {
      assert d + rest == rest;
    } else {
      assert (d + rest)[1..] == d[1..] + rest;
      DigitRunOfDigits(d[1..], rest);
      assert [d[0]] + d[1..] == d;
    }
  }

  function IntText(n: int): (r: string)
    ensures |r| > 0 && Printable(r) && '\0' !in r
  {
    if n < 0 then "-" + NatText(-n) else NatText(n)
  }

  /** `String(v)` for a value that is not an array. */
  function ScalarKey(v: Value): string
    requires !v.Arr?
  {
    match v
    case Null => "null"
    case Bool(b) => if b then "true" else "false"
    case Num(n) => IntText(n)
    case Str(s) => s
  }

  /** The property lodash's `_.has` and `_.get` look a value up under. A
      scalar is its own key. An array is a property path: a one-element
      path names its element's key, which for an element other than
      `null` is also the property `object[v]` indexes, so the test and the
      access agree. Other arrays give `None`: an empty path names nothing,
      and longer paths and `[null]` are not modelled. */
  function PropertyKey(v: Value): (r: Option<string>)
    ensures r.None? <==> v.Arr? && (|v.items| != 1 || v.items[0].Null?)
    ensures v.Str? ==> r == Some(v.s)
    ensures r.Some? ==> r.value == JsString(v)
  {
    if !v.Arr? then Some(ScalarKey(v))
    else if |v.items| == 1 && !v.items[0].Null? then Some(JsString(v.items[0]))
    else None
  }

  /** `String(v)`, the property name plain object indexing uses: scalars as
      `ScalarKey` gives them; an array joins its elements with ',', an
      element that is `null` written as nothing. */
  function JsString(v: Value): (r: string)
    ensures !v.Arr? ==> r == ScalarKey(v)
    decreases v, 1
  {
    if v.Arr? then JoinElements(v.items) else ScalarKey(v)
  }

  function JoinElements(items: seq<Value>): string
    decreases items, 0
  {
    if items == [] then ""
    else
      var first := if items[0].Null? then "" else JsString(items[0]);
      if |items| == 1 then first else first + "," + JoinElements(items[1..])
  }

  /** A one-element array of a string names the same property as the
      string; an empty array names the empty property. */
  lemma ArrayKeys(s: string)
    ensures JsString(Arr([Str(s)])) == s
    ensures JsString(Arr([])) == ""
    ensures JsString(Arr([Null])) == ""
  {
  }

  /** A run of digits and its decimal value; `None` when there is none or
      it has a leading zero, which `JSON.parse` refuses. */
  function ParseDigits(s: string): (r: Option<Parsed<nat>>)
    ensures r.Some? ==> |r.value.rest| < |s|
  {
    var run := DigitRun(s);
    if run == "" || (|run| > 1 && run[0] == '0') then None else Some(Parsed(DigitsValue(run), s[|run|..]))
  }

  /** An integer; `-0`, which no integer is written as, is not read. */
  function ParseNumber(s: string): (r: Option<Parsed<int>>)
    ensures r.Some? ==> |r.value.rest| < |s|
  {
    if s != "" && s[0] == '-' then
      match ParseDigits(s[1..])
      case None => None
      case Some(p) => if p.value == 0 then None else var v: int := 0 - p.value; Some(Parsed(v, p.rest))
    else
      match ParseDigits(s)
      case None => None
      case Some(p) => var v: int := p.value; Some(Parsed(v, p.rest))
  }

  /** A digit run without a leading zero is the text of a positive number,
      unless it is the single digit zero. */
  lemma {:induction false} DigitsPositive(run: string)
    requires AllDigits(run) && run != "" && run[0] != '0'
    ensures DigitsValue(run) >= 1
    decreases |run|
  {
    if |run| > 1 {
      DigitsPositive(run[..|run| - 1]);
    }
  }

  /** A digit run without a leading zero is the decimal text of its value. */
  lemma {:induction false} NatTextOfDigits(run: string)
    requires AllDigits(run) && run != "" && (|run| > 1 ==> run[0] != '0')
    ensures NatText(DigitsValue(run)) == run
    decreases |run|
  {
    var last := run[|run| - 1];
    if |run| == 1 {
      assert run == [last];
    } else {
      var front := run[..|run| - 1];
      NatTextOfDigits(front);
      DigitsPositive(front);
      var n := DigitsValue(run);
      assert n / 10 == DigitsValue(front) && n % 10 == DigitValue(last);
      assert run == front + [last];
    }
  }

  lemma DigitsCanonical(t: string)
    ensures ParseDigits(t).Some? ==> t == NatText(ParseDigits(t).value.value) + ParseDigits(t).value.rest
  {
    var run := DigitRun(t);
    if ParseDigits(t).Some? {
      NatTextOfDigits(run);
      assert t == run + t[|run|..];
    }
  }

  /** The converse of the number round trip: a number the reader accepts is
      the decimal text of the integer it returns, followed by the rest. */
  lemma NumberCanonical(s: string)
    ensures ParseNumber(s).Some? ==> s == IntText(ParseNumber(s).value.value) + ParseNumber(s).value.rest
  {
    if ParseNumber(s).Some? {
      if s[0] == '-' {
        var p := ParseDigits(s[1..]).value;
        DigitsCanonical(s[1..]);
        var n: int := 0 - p.value;
        assert ParseNumber(s).value == Parsed(n, p.rest);
        assert IntText(n) == "-" + NatText(p.value);
        assert s == "-" + s[1..];
        AppendAssoc("-", NatText(p.value), p.rest);
      } else {
        DigitsCanonical(s);
      }
    }
  }

  /** The text of an integer starts with a minus sign or a digit. */
  lemma IntTextStart(n: int)
    ensures IntText(n)[0] == '-' || IsDigit(IntText(n)[0])
  {
  }

  lemma DigitsRoundTrip(n: nat, rest: string)
    requires Delimits(rest)
    ensures ParseDigits(NatText(n) + rest) == Some(Parsed(n, rest))
  {
    var digits := NatText(n);
    DigitRunOfDigits(digits, rest);
    NatTextRoundTrip(n);
    assert (digits + rest)[|digits|..] == rest;
  }

  lemma NatNumberRoundTrip(n: nat, rest: string)
    requires Delimits(rest)
    ensures ParseNumber(NatText(n) + rest) == Some(Parsed(n, rest))
  {
    var s := NatText(n) + rest;
    DigitsRoundTrip(n, rest);
    assert s[0] != '-' by { assert s[0] == NatText(n)[0]; }
  }

  lemma NegNumberRoundTrip(m: nat, rest: string)
    requires m > 0 && Delimits(rest)
    ensures ParseNumber(['-'] + (NatText(m) + rest)) == Some(Parsed(0 - m, rest))
  {
    var s := ['-'] + (NatText(m) + rest);
    assert s[1..] == NatText(m) + rest;
    DigitsRoundTrip(m, rest);
  }

  lemma NumberRoundTrip(n: int, rest: string)
    requires Delimits(rest)
    ensures ParseNumber(IntText(n) + rest) == Some(Parsed(n, rest))
  {
    if n < 0 {
      var m: nat := -n;
      assert IntText(n) == ['-'] + NatText(m);
      assert IntText(n) + rest == ['-'] + (NatText(m) + rest);
      NegNumberRoundTrip(m, rest);
    } else {
      NatNumberRoundTrip(n, rest);
    }
  }

  // ---------------------------------------------------------------------
  // Strings

  /** Text with no control character (nothing below U+0020), NUL included. */
  predicate Printable(s: string) {
    forall c :: c in s ==> ' ' <= c
  }

  /** The two-character escape `JSON.stringify` writes for a character, by
      its letter: the quote, the backslash, and backspace, tab, line feed,
      form feed and carriage return. */
  function ShortEscape(c: char): (r: Option<char>)
    ensures r.Some? ==> ' ' <= r.value
    ensures ' ' <= c && c != '"' && c != '\\' ==> r.None?
  {
    if c == '"' then Some('"')
    else if c == '\\' then Some('\\')
    else if c == '\U{8}' then Some('b')
    else if c == '\t' then Some('t')
    else if c == '\n' then Some('n')
    else if c == '\U{C}' then Some('f')
    else if c == '\r' then Some('r')
    else None
  }

  /** The character a two-character escape stands for, by its letter. */
  function ShortUnescape(letter: char): (r: Option<char>)
    ensures r.Some? ==> ShortEscape(r.value) == Some(letter)
  {
    if letter == '"' then Some('"')
    else if letter == '\\' then Some('\\')
    else if letter == 'b' then Some('\U{8}')
    else if letter == 't' then Some('\t')
    else if letter == 'n' then Some('\n')
    else if letter == 'f' then Some('\U{C}')
    else if letter == 'r' then Some('\r')
    else None
  }

  lemma ShortEscapeInverse(c: char)
    ensures ShortEscape(c).Some? ==> ShortUnescape(ShortEscape(c).value) == Some(c)
  {
  }

  /** A lower-case hexadecimal digit, as `JSON.stringify` writes them. */
  predicate IsHexDigit(c: char) {
    ('0' <= c <= '9') || ('a' <= c <= 'f')
  }

  function HexValue(c: char): (d: nat)
    requires IsHexDigit(c)
    ensures d < 16
  {
    if c <= '9' then c as int - '0' as int else c as int - 'a' as int + 10
  }

  function HexDigit(d: nat): (c: char)
    requires d < 16
    ensures IsHexDigit(c) && HexValue(c) == d
  {
    if d < 10 then ('0' as int + d) as char else ('a' as int + d - 10) as char
  }

  /** A code written as `\u00XX`: a control character without a short
      escape. */
  predicate CodeEscaped(code: nat) {
    code < 0x20 && ShortEscape(code as char).None?
  }

  /** The escape sequence `JSON.stringify` writes for one character: a short
      escape where there is one, `\u00XX` for any other control character,
      and the character itself otherwise. */
  function EscapeChar(c: char): (r: string)
    ensures Printable(r) && '\0' !in r
  {
    match ShortEscape(c)
    case Some(letter) => ['\\', letter]
    case None =>
      if c < ' ' then ['\\', 'u', '0', '0', HexDigit(c as int / 16), HexDigit(c as int % 16)]
      else [c]
  }

  function Escape(s: string): (r: string)
    ensures Printable(r) && '\0' !in r
  {
    if s == "" then "" else EscapeChar(s[0]) + Escape(s[1..])
  }

  lemma EscapeCons(c: char, s: string)
    ensures Escape([c] + s) == EscapeChar(c) + Escape(s)
  {
    assert ([c] + s)[0] == c && ([c] + s)[1..] == s;
  }

  /** A string literal: the escaped characters between double quotes. */
  function Quote(s: string): (r: string)
    ensures |r| >= 2 && r[0] == '"' && Printable(r) && '\0' !in r
  {
    ['"'] + Escape(s) + ['"']
  }

  /** Prepends `c` to the text of a successful parse. */
  function ConsChar(c: char, p: Option<Parsed<string>>): (r: Option<Parsed<string>>)
    ensures r.Some? <==> p.Some?
    ensures r.Some? ==> r.value.rest == p.value.rest
  {
    match p
    case None => None
    case Some(q) => Some(Parsed([c] + q.value, q.rest))
  }

  /** The code of a `\u00XX` escape whose backslash starts `s`, when `s`
      starts with one `EscapeChar` writes. */
  function CodeAt(s: string): (r: Option<nat>)
    ensures r.Some? ==> |s| >= 6 && CodeEscaped(r.value)
  {
    if |s| >= 6 && s[1] == 'u' && s[2] == '0' && s[3] == '0' && IsHexDigit(s[4]) && IsHexDigit(s[5])
       && CodeEscaped(HexValue(s[4]) * 16 + HexValue(s[5]))
    then Some(HexValue(s[4]) * 16 + HexValue(s[5]))
    else None
  }

  /** The first character of a string body and the length of the text
      that stands for it: a raw character other than the quote, the
      backslash and the control characters (which `JSON.parse` refuses
      raw), or one of the escapes `EscapeChar` writes. */
  function ReadChar(s: string): (r: Option<(char, nat)>)
    ensures r.Some? ==> 0 < r.value.1 <= |s|
  {
    if s == "" || s[0] == '"' then None
    else if s[0] == '\\' then
      if |s| >= 2 && ShortUnescape(s[1]).Some? then Some((ShortUnescape(s[1]).value, 2))
      else match CodeAt(s)
        case Some(code) => Some((code as char, 6))
        case None => None
    else if s[0] < ' ' then None
    else Some((s[0], 1))
  }

  /** Reads the characters of a string literal whose opening quote is
      already consumed, up to and including its closing quote. */
  function ParseStringBody(s: string): (r: Option<Parsed<string>>)
    ensures r.Some? ==> |r.value.rest| < |s|
    decreases |s|
  {
    if s == "" then None
    else if s[0] == '"' then Some(Parsed("", s[1..]))
    else match ReadChar(s)
      case None => None
      case Some((c, k)) => ConsChar(c, ParseStringBody(s[k..]))
  }

  /** The text `ReadChar` reads a character from is the character's escape. */
  lemma ReadCharCanonical(s: string)
    ensures ReadChar(s).Some? ==> s[..ReadChar(s).value.1] == EscapeChar(ReadChar(s).value.0)
  {
    if ReadChar(s).Some? {
      var (c, k) := ReadChar(s).value;
      ShortEscapeInverse(c);
      if k == 6 {
        var code := CodeAt(s).value;
        assert code == HexValue(s[4]) * 16 + HexValue(s[5]);
        assert HexDigit(code / 16) == s[4] && HexDigit(code % 16) == s[5];
      }
    }
  }

  /** Each character's escape is read back as that character. */
  lemma ReadCharOfEscape(c: char, tail: string)
    ensures ReadChar(EscapeChar(c) + tail) == Some((c, |EscapeChar(c)|))
  {
    var t := EscapeChar(c) + tail;
    ShortEscapeInverse(c);
    match ShortEscape(c)
    case Some(letter) =>
      assert t[0] == '\\' && t[1] == letter;
    case None =>
      if c < ' ' {
        var hi, lo := c as int / 16, c as int % 16;
        assert t[..6] == ['\\', 'u', '0', '0', HexDigit(hi), HexDigit(lo)];
        assert CodeAt(t) == Some(c as int) by {
          assert HexValue(t[4]) * 16 + HexValue(t[5]) == c as int;
        }
        assert (c as int) as char == c;
      } else {
        assert t[0] == c;
      }
  }

  /** One escaped character is read back as itself, ahead of whatever the
      rest of the body reads as. */
  lemma ReadEscapeChar(c: char, tail: string)
    ensures ParseStringBody(EscapeChar(c) + tail) == ConsChar(c, ParseStringBody(tail))
  {
    var t := EscapeChar(c) + tail;
    ReadCharOfEscape(c, tail);
    assert t[0] != '"' by { ShortEscapeInverse(c); }
    assert t[|EscapeChar(c)|..] == tail;
  }

  lemma {:induction false} StringRoundTrip(s: string, rest: string)
    ensures ParseStringBody(Escape(s) + ['"'] + rest) == Some(Parsed(s, rest))
  {
    var t := Escape(s) + ['"'] + rest;
    if s == "" {
      assert t == ['"'] + rest;
    } else {
      var tail := Escape(s[1..]) + ['"'] + rest;
      assert t == EscapeChar(s[0]) + tail;
      ReadEscapeChar(s[0], tail);
      StringRoundTrip(s[1..], rest);
      assert [s[0]] + s[1..] == s;
    }
  }

  /** The converse: a string body the reader accepts is exactly the escaped
      text of the string it returns, its closing quote and the rest. */
  lemma {:induction false} StringBodyCanonical(s: string)
    ensures ParseStringBody(s).Some? ==>
      s == Escape(ParseStringBody(s).value.value) + ['"'] + ParseStringBody(s).value.rest
    decreases |s|
  {
    var r := ParseStringBody(s);
    if r.Some? && s[0] != '"' {
      var (c, k) := ReadChar(s).value;
      StringBodyCanonical(s[k..]);
      var v := ParseStringBody(s[k..]).value.value;
      ReadCharCanonical(s);
      EscapeCons(c, v);
      assert s == s[..k] + s[k..];
      AppendAssoc(EscapeChar(c), Escape(v), ['"'] + r.value.rest);
      AppendAssoc(Escape(v), ['"'], r.value.rest);
      AppendAssoc(EscapeChar(c) + Escape(v), ['"'], r.value.rest);
    }
  }

  lemma AppendAssoc<T>(a: seq<T>, b: seq<T>, c: seq<T>)
    ensures (a + b) + c == a + (b + c)
  {
  }

  // ---------------------------------------------------------------------
  // Values

  /** The canonical text of a value, as `JSON.stringify` writes it. */
  function Serialize(v: Value): (r: string)
    ensures |r| > 0 && Printable(r) && '\0' !in r
    decreases v
  {
    match v
    case Null => "null"
    case Bool(b) => if b then "true" else "false"
    case Num(n) => IntText(n)
    case Str(s) => Quote(s)
    case Arr(items) => "[" + SerializeItems(items) + "]"
  }

  /** The elements of an array, separated by commas. */
  function SerializeItems(vs: seq<Value>): (r: string)
    ensures Printable(r) && '\0' !in r
    ensures r == "" <==> vs == []
    decreases vs
  {
    if vs == [] then ""
    else if |vs| == 1 then Serialize(vs[0])
    else Serialize(vs[0]) + "," + SerializeItems(vs[1..])
  }

  /** Reads one value from the front of `s`. */
  function ParseValue(s: string): (r: Option<Parsed<Value>>)
    ensures r.Some? ==> |r.value.rest| < |s|
    decreases |s|, 0
  {
    if s == "" then None
    else if s[0] == 'n' then (if "null" <= s then Some(Parsed(Null, s[4..])) else None)
    else if s[0] == 't' then (if "true" <= s then Some(Parsed(Bool(true), s[4..])) else None)
    else if s[0] == 'f' then (if "false" <= s then Some(Parsed(Bool(false), s[5..])) else None)
    else if s[0] == '"' then
      match ParseStringBody(s[1..])
      case None => None
      case Some(p) => Some(Parsed(Str(p.value), p.rest))
    else if s[0] == '[' then
      match ParseArrayBody(s[1..])
      case None => None
      case Some(p) => Some(Parsed(Arr(p.value), p.rest))
    else
      match ParseNumber(s)
      case None => None
      case Some(p) => Some(Parsed(Num(p.value), p.rest))
  }

  /** Reads the elements of an array whose `[` is already consumed, up to
      and including the closing `]`. */
  function ParseArrayBody(s: string): (r: Option<Parsed<seq<Value>>>)
    ensures r.Some? ==> |r.value.rest| < |s|
    decreases |s|, 2
  {
    if s != "" && s[0] == ']' then Some(Parsed([], s[1..])) else ParseElements(s)
  }

  /** Reads one or more comma-separated values and the closing `]`. */
  function ParseElements(s: string): (r: Option<Parsed<seq<Value>>>)
    ensures r.Some? ==> |r.value.rest| < |s| && r.value.value != []
    decreases |s|, 1
  {
    match ParseValue(s)
    case None => None
    case Some(p) =>
      if p.rest != "" && p.rest[0] == ',' then
        match ParseElements(p.rest[1..])
        case None => None
        case Some(q) => Some(Parsed([p.value] + q.value, q.rest))
      else if p.rest != "" && p.rest[0] == ']' then Some(Parsed([p.value], p.rest[1..]))
      else None
  }

  /** Reading back the text of a value returns the value and leaves the
      text after it untouched. */
  lemma {:induction false} ValueRoundTrip(v: Value, rest: string)
    requires Delimits(rest)
    ensures ParseValue(Serialize(v) + rest) == Some(Parsed(v, rest))
    decreases v, 0
  {
    match v
    case Null => LiteralRoundTrip(v, rest);
    case Bool(_) => LiteralRoundTrip(v, rest);
    case Num(n) => NumValueRoundTrip(n, rest);
    case Str(t) => StrValueRoundTrip(t, rest);
    case Arr(items) =>
      var s := Serialize(v) + rest;
      assert s[0] == '[';
      assert s[1..] == SerializeItems(items) + "]" + rest;
      ArrayBodyRoundTrip(items, rest);
  }

  lemma LiteralRoundTrip(v: Value, rest: string)
    requires v.Null? || v.Bool?
    ensures ParseValue(Serialize(v) + rest) == Some(Parsed(v, rest))
  {
    var s := Serialize(v) + rest;
    if v.Null? {
      assert "null" <= s;
      assert s[4..] == rest;
    } else if v.b {
      assert "true" <= s;
      assert s[4..] == rest;
    } else {
      assert "false" <= s;
      assert s[5..] == rest;
    }
  }

  lemma NumValueRoundTrip(n: int, rest: string)
    requires Delimits(rest)
    ensures ParseValue(Serialize(Num(n)) + rest) == Some(Parsed(Num(n), rest))
  {
    var s := Serialize(Num(n)) + rest;
    NumberRoundTrip(n, rest);
    IntTextStart(n);
    assert s[0] == IntText(n)[0];
  }

  lemma StrValueRoundTrip(t: string, rest: string)
    ensures ParseValue(Serialize(Str(t)) + rest) == Some(Parsed(Str(t), rest))
  {
    var s := Serialize(Str(t)) + rest;
    assert s[0] == '"';
    assert s[1..] == Escape(t) + ['"'] + rest;
    StringRoundTrip(t, rest);
  }

  /** Reading back the elements of an array and its closing bracket. */
  lemma ArrayBodyRoundTrip(items: seq<Value>, rest: string)
    ensures ParseArrayBody(SerializeItems(items) + "]" + rest) == Some(Parsed(items, rest))
    decreases items, 1
  {
    var body := SerializeItems(items) + "]" + rest;
    if items == [] {
      assert body == "]" + rest;
      assert body[1..] == rest;
    } else {
      ElementsRoundTrip(items, rest);
      assert body[0] != ']' by {
        assert body[0] == Serialize(items[0])[0];
        FirstCharNotClose(items[0]);
      }
    }
  }

  /** No value's text starts with `]`. */
  lemma FirstCharNotClose(v: Value)
    ensures Serialize(v)[0] != ']'
  {
    match v
    case Num(n) =>
      if n >= 0 {
        assert IsDigit(NatText(n)[0]);
      }
    case _ =>
  }

  lemma {:induction false} ElementsRoundTrip(vs: seq<Value>, rest: string)
    requires vs != []
    ensures ParseElements(SerializeItems(vs) + "]" + rest) == Some(Parsed(vs, rest))
    decreases vs, 0
  {
    var s := SerializeItems(vs) + "]" + rest;
    if |vs| == 1 {
      var tail := "]" + rest;
      assert s == Serialize(vs[0]) + tail;
      ValueRoundTrip(vs[0], tail);
      assert tail[1..] == rest;
      assert [vs[0]] == vs;
    } else {
      var more := SerializeItems(vs[1..]) + "]" + rest;
      var tail := "," + more;
      assert s == Serialize(vs[0]) + tail;
      ValueRoundTrip(vs[0], tail);
      assert tail[1..] == more;
      ElementsRoundTrip(vs[1..], rest);
      assert [vs[0]] + vs[1..] == vs;
    }
  }

  /** The converse of the value round trip: a value the reader accepts is
      exactly the canonical text of the value it returns, followed by the
      rest, so no two texts are read as the same value. */
  lemma {:induction false} ValueCanonical(s: string)
    ensures ParseValue(s).Some? ==> s == Serialize(ParseValue(s).value.value) + ParseValue(s).value.rest
    decreases |s|, 0
  {
    if ParseValue(s).Some? {
      if s[0] == 'n' || s[0] == 't' || s[0] == 'f' {
        LiteralCanonical(s);
      } else if s[0] == '"' {
        StrCanonical(s);
      } else if s[0] == '[' {
        ArrayBodyCanonical(s[1..]);
        ArrCanonical(s);
      } else {
        NumberCanonical(s);
      }
    }
  }

  lemma LiteralCanonical(s: string)
    requires s != "" && (s[0] == 'n' || s[0] == 't' || s[0] == 'f')
    ensures ParseValue(s).Some? ==> s == Serialize(ParseValue(s).value.value) + ParseValue(s).value.rest
  {
    if ParseValue(s).Some? {
      var k := |Serialize(ParseValue(s).value.value)|;
      assert s == s[..k] + s[k..];
    }
  }

  lemma StrCanonical(s: string)
    requires s != "" && s[0] == '"'
    ensures ParseValue(s).Some? ==> s == Serialize(ParseValue(s).value.value) + ParseValue(s).value.rest
  {
    if ParseValue(s).Some? {
      var p := ParseStringBody(s[1..]).value;
      StringBodyCanonical(s[1..]);
      assert s == ['"'] + s[1..];
      AppendAssoc(['"'], Escape(p.value) + ['"'], p.rest);
      AppendAssoc(Escape(p.value), ['"'], p.rest);
    }
  }

  /** An array, given that its body reads back canonically. */
  lemma ArrCanonical(s: string)
    requires s != "" && s[0] == '['
    requires ParseArrayBody(s[1..]).Some? ==>
      s[1..] == SerializeItems(ParseArrayBody(s[1..]).value.value) + "]" + ParseArrayBody(s[1..]).value.rest
    ensures ParseValue(s).Some? ==> s == Serialize(ParseValue(s).value.value) + ParseValue(s).value.rest
  {
    if ParseValue(s).Some? {
      var p := ParseArrayBody(s[1..]).value;
      assert s == "[" + s[1..];
      AppendAssoc("[", SerializeItems(p.value) + "]", p.rest);
      AppendAssoc("[", SerializeItems(p.value), "]");
    }
  }

  lemma {:induction false} ArrayBodyCanonical(s: string)
    ensures ParseArrayBody(s).Some? ==>
      s == SerializeItems(ParseArrayBody(s).value.value) + "]" + ParseArrayBody(s).value.rest
    decreases |s|, 2
  {
    if s != "" && s[0] == ']' {
      assert s == "]" + s[1..];
    } else {
      ElementsCanonical(s);
    }
  }

  lemma {:induction false} ElementsCanonical(s: string)
    ensures ParseElements(s).Some? ==>
      s == SerializeItems(ParseElements(s).value.value) + "]" + ParseElements(s).value.rest
    decreases |s|, 1
  {
    var r := ParseElements(s);
    if r.Some? {
      ValueCanonical(s);
      var p := ParseValue(s).value;
      var head := Serialize(p.value);
      assert s == head + p.rest;
      if p.rest[0] == ',' {
        ElementsCanonical(p.rest[1..]);
        var q := ParseElements(p.rest[1..]).value;
        var items := [p.value] + q.value;
        assert items[0] == p.value && items[1..] == q.value;
        assert SerializeItems(items) == head + "," + SerializeItems(q.value);
        assert p.rest == "," + (SerializeItems(q.value) + "]" + q.rest);
        AppendAssoc(head, ",", SerializeItems(q.value) + "]" + q.rest);
        AppendAssoc(head + ",", SerializeItems(q.value), "]" + q.rest);
        AppendAssoc(head + "," + SerializeItems(q.value), "]", q.rest);
        AppendAssoc(SerializeItems(q.value), "]", q.rest);
      } else {
        assert p.rest == "]" + p.rest[1..];
        AppendAssoc(head, "]", p.rest[1..]);
      }
    }
  }

  /** `JSON.stringify` followed by `JSON.parse` returns the value. */
  lemma ParseSerialize(v: Value)
    ensures ParseValue(Serialize(v)) == Some(Parsed(v, ""))
  {
    ValueRoundTrip(v, "");
    assert Serialize(v) + "" == Serialize(v);
  }

  // ---------------------------------------------------------------------
  // Literal text

  /** The text after the literal `lit`, when `s` starts with it. */
  function Expect(lit: string, s: string): (r: Option<string>)
    ensures r.Some? <==> lit <= s
    ensures r.Some? ==> lit + r.value == s
  {
    if lit <= s then Some(s[|lit|..]) else None
  }

  lemma ExpectLiteral(lit: string, t: string)
    ensures Expect(lit, lit + t) == Some(t)
  {
    assert lit <= lit + t;
    assert (lit + t)[|lit|..] == t;
  }
}

=== FILE: legacy_bridge.dfy ===
/** The older hub (lib/flic-bridge.js). It routes the same records as
    `Bridge` and builds its forwarded `TELL` and relayed `ACK` the same way;
    it differs in the port check, in reading each transport chunk as one
    record, in its error strings, in writing a `SHOUT` back to its sender,
    in answering a failed forward with `GONE`, and in deleting a node's name
    from a close listener added at `IDENT` rather than on a failed write.
    An exception nothing catches ends the process: such a step is
    `crashed`, with the records written before it. Records are written as
    `LegacyMessage.ToString` gives them, with no terminator. */
module LegacyBridge {
  import opened Wrappers
  import opened Json
  import opened Message
  import opened Registry
  import LegacyMessage
  import Bridge

  const DEFAULT_PORT := 8221
  const INVALID_PORT := "invalid-port-number"
  const DUPLICATE_NODE := "Error: Duplicate node name!"
  const UNKNOWN_NODE := "Error: Attempting to tell non-existent node!"
  const GONE := "GONE"

  // ---------------------------------------------------------------------
  // Port

  predicate Falsy(arg: Option<Value>) {
    arg.None? || !Truthy(arg.value)
  }

  predicate ValidPort(n: int) {
    1023 < n <= 65535
  }

  /** The constructor's port check as written: a falsy argument sets the
      port to the default; a number outside (1023, 65535] and any other
      truthy value throw; a valid number is accepted but never stored, so
      the server listens on `undefined`, shown as `None`: a port the system
      picks. */
  function ListenPortAsWritten(port: Option<Value>): (r: Result<Option<int>, string>)
    ensures r.Err? ==> r.error == INVALID_PORT
  {
    if Falsy(port) then Ok(Some(DEFAULT_PORT))
    else if port.value.Num? && ValidPort(port.value.n) then Ok(None)
    else Err(INVALID_PORT)
  }

  /** The same validation with the accepted port stored, as the
      validation evidently intends. */
  function ListenPort(port: Option<Value>): (r: Result<int, string>)
    ensures r.Err? ==> r.error == INVALID_PORT
  {
    if Falsy(port) then Ok(DEFAULT_PORT)
    else if port.value.Num? && ValidPort(port.value.n) then Ok(port.value.n)
    else Err(INVALID_PORT)
  }

  /** Every valid port a caller asks for is dropped: the server is told to
      listen on no port at all. */
  lemma ValidPortIgnored(n: int)
    requires ValidPort(n)
    ensures ListenPortAsWritten(Some(Num(n))) == Ok(None)
    ensures ListenPortAsWritten(Some(Num(n))) != Ok(Some(n))
  {
  }

  /** The corrected check listens on the port asked for, on the default
      for a falsy argument, and throws on exactly the arguments the check
      as written throws on. */
  lemma ListenPortChecks(port: Option<Value>)
    ensures ListenPort(port).Ok? <==> Falsy(port) || (port.value.Num? && ValidPort(port.value.n))
    ensures ListenPort(port).Ok? && !Falsy(port) ==> ListenPort(port).value == port.value.n
    ensures Falsy(port) ==> ListenPort(port) == Ok(DEFAULT_PORT)
    ensures ListenPort(port).Err? <==> ListenPortAsWritten(port).Err?
  {
  }

  // ---------------------------------------------------------------------
  // State

  /** The hub: the registry (`self._sockets`), the key each connection
      last identified under (`socket.nodeName`), and how many close
      listeners each connection's `IDENT`s have added. */
  datatype Hub = Hub(reg: Registry, socketName: map<ConnId, string>, closers: map<ConnId, nat>)

  /** A hub state, the records written on the way to it, and whether an
      uncaught exception ended the process. */
  datatype Step = Step(hub: Hub, out: seq<Bridge.Delivery>, crashed: bool)

  function Listeners(hub: Hub, conn: ConnId): nat {
    if conn in hub.closers then hub.closers[conn] else 0
  }

  /** A write whose exception is caught and ignored. */
  function TryWrite(conn: ConnId, msg: Message, dead: set<ConnId>): (out: seq<Bridge.Delivery>)
    ensures out == [] <==> conn in dead
    ensures out != [] ==> out == [Bridge.Delivery(conn, msg)]
  {
    if conn in dead then [] else [Bridge.Delivery(conn, msg)]
  }

  /** The property name `data[0]` indexes the registry under: `String` of
      the value, "undefined" when it is missing. */
  function Key(arg: Option<Value>): (k: string)
    ensures KeyOf(arg).Some? ==> KeyOf(arg) == Some(k)
    ensures arg.None? ==> KeyOf(arg) == Some(k)
  {
    if arg.None? then "undefined" else JsString(arg.value)
  }

  function ErrorAck(m: Message, id: string, text: string): Message
  {
    New(id, ACK, Arr([Str(m.id), Arr([Str(text)])]))
  }

  // ---------------------------------------------------------------------
  // Handlers

  /** `IDENT`: a taken name is answered with the duplicate error on the
      connection; a fresh one is bound to the connection, remembered on it,
      given a close listener, and welcomed. */
  function Ident(hub: Hub, conn: ConnId, m: Message, id: string, dead: set<ConnId>): (s: Step)
    ensures !s.crashed && |s.out| <= 1
    ensures Valid(hub.reg) ==> Valid(s.hub.reg)
  {
    var name := Bridge.SenderKey(m);
    if Lookup(hub.reg, name).Some? then Step(hub, TryWrite(conn, ErrorAck(m, id, DUPLICATE_NODE), dead), false)
    else
      var hub' := Hub(Register(hub.reg, name, conn), hub.socketName[conn := name],
                      hub.closers[conn := Listeners(hub, conn) + 1]);
      Step(hub', TryWrite(conn, Bridge.WelcomeAck(m, id), dead), false)
  }

  /** `TELL`: an unknown destination is reported to the sender's name when
      that is registered; a known one is written the forwarded record, and
      when that write throws the sender's name is written `GONE`, a write
      nothing guards. */
  function Tell(hub: Hub, m: Message, id: string, goneId: string, dead: set<ConnId>): (s: Step)
    ensures s.hub == hub && |s.out| <= 1
  {
    var sender := Lookup(hub.reg, Bridge.SenderKey(m));
    match Lookup(hub.reg, Key(ArgAt(m.data, 0)))
    case None =>
      Step(hub, if sender.Some? then TryWrite(sender.value, ErrorAck(m, id, UNKNOWN_NODE), dead) else [], false)
    case Some(to) =>
      if to !in dead then Step(hub, [Bridge.Delivery(to, Bridge.Forward(m, id))], false)
      else if sender.None? || sender.value in dead then Step(hub, [], true)
      else Step(hub, [Bridge.Delivery(sender.value, ErrorAck(m, goneId, GONE))], false)
  }

  /** Every registered connection, in registration order, that a write to
      does not throw on. */
  function WriteAll(reg: Registry, msg: Message, dead: set<ConnId>): (out: seq<Bridge.Delivery>)
    ensures |out| <= |reg|
    ensures forall i :: 0 <= i < |out| ==> out[i].msg == msg && out[i].to !in dead
  {
    if reg == [] then [] else TryWrite(reg[0].conn, msg, dead) + WriteAll(reg[1..], msg, dead)
  }

  /** `SHOUT`: the data to every registered name, the sender's included. */
  function Shout(hub: Hub, m: Message, id: string, dead: set<ConnId>): (s: Step)
    ensures s.hub == hub && !s.crashed
  {
    Step(hub, WriteAll(hub.reg, New(id, SHOUT, Arr(m.data)), dead), false)
  }

  /** `ACK`: `[cbid, params]` relayed to the name in `data[0]`. */
  function Ack(hub: Hub, m: Message, id: string, dead: set<ConnId>): (s: Step)
    ensures s.hub == hub && !s.crashed && |s.out| <= 1
  {
    match Lookup(hub.reg, Key(ArgAt(m.data, 0)))
    case None => Step(hub, [], false)
    case Some(to) => Step(hub, TryWrite(to, Bridge.Relay(m, id), dead), false)
  }

  /** One record read from a connection; other methods are ignored (there
      is no `LEAVE` here). */
  function Handle(hub: Hub, conn: ConnId, m: Message, id: string, goneId: string, dead: set<ConnId>): (s: Step)
    ensures Valid(hub.reg) ==> Valid(s.hub.reg)
    ensures m.command != IDENT ==> s.hub == hub
  {
    if m.command == IDENT then Ident(hub, conn, m, id, dead)
    else if m.command == TELL then Tell(hub, m, id, goneId, dead)
    else if m.command == SHOUT then Shout(hub, m, id, dead)
    else if m.command == ACK then Ack(hub, m, id, dead)
    else Step(hub, [], false)
  }

  /** A chunk is parsed whole; a parse that throws ends the process. */
  function HandleChunk(hub: Hub, conn: ConnId, chunk: string, id: string, goneId: string, dead: set<ConnId>): (s: Step)
    ensures LegacyMessage.ParseChunk(chunk).None? ==> s == Step(hub, [], true)
    ensures Valid(hub.reg) ==> Valid(s.hub.reg)
  {
    match LegacyMessage.ParseChunk(chunk)
    case None => Step(hub, [], true)
    case Some(m) => Handle(hub, conn, m, id, goneId, dead)
  }

  /** The connection's `'close'` event: each close listener deletes the
      name the connection last identified under, then drops the socket;
      the second listener finds the socket gone and throws. */
  function OnClose(hub: Hub, conn: ConnId): (s: Step)
    ensures s.out == []
    ensures s.crashed <==> Listeners(hub, conn) >= 2
    ensures Valid(hub.reg) ==> Valid(s.hub.reg)
  {
    if Listeners(hub, conn) == 0 || conn !in hub.socketName then Step(hub, [], Listeners(hub, conn) >= 2)
    else
      Step(Hub(Remove(hub.reg, hub.socketName[conn]), hub.socketName - {conn}, hub.closers - {conn}), [],
           Listeners(hub, conn) >= 2)
  }

  /** `close`: every registered connection is ended with a `CLOSE` record;
      failures are ignored and the registry is left to the close events. */
  function Close(hub: Hub, closeData: Value, id: string, dead: set<ConnId>): (s: Step)
    ensures s.hub == hub && !s.crashed
  {
    Step(hub, WriteAll(hub.reg, New(id, CLOSE, closeData), dead), false)
  }
}

=== FILE: legacy_bridge_properties.dfy ===
/** What the older hub's routing promises (lib/flic-bridge.js:43-191), and
    where it parts from the current hub. */
module LegacyBridgeProperties {
  import opened Wrappers
  import opened Json
  import opened Message
  import opened Registry
  import opened LegacyBridge
  import LegacyMessage
  import Bridge
  import Framing

  /** A connection is written to by a write-to-all exactly when some entry
      binds it and a write to it does not throw. */
  lemma {:induction false} WriteAllMembers(reg: Registry, msg: Message, dead: set<ConnId>)
    ensures forall d :: Bridge.Delivery(d, msg) in WriteAll(reg, msg, dead) <==>
      d !in dead && exists i :: 0 <= i < |reg| && reg[i].conn == d
    decreases |reg|
  {
    if reg != [] {
      WriteAllMembers(reg[1..], msg, dead);
      forall d
        ensures Bridge.Delivery(d, msg) in WriteAll(reg, msg, dead) <==>
          d !in dead && exists i :: 0 <= i < |reg| && reg[i].conn == d
      {
        if d !in dead && (exists i :: 0 <= i < |reg| && reg[i].conn == d) && reg[0].conn != d {
          var i :| 0 <= i < |reg| && reg[i].conn == d;
          assert reg[1..][i - 1].conn == d;
        }
        if d !in dead && exists i :: 0 <= i < |reg[1..]| && reg[1..][i].conn == d {
          var i :| 0 <= i < |reg[1..]| && reg[1..][i].conn == d;
          assert reg[i + 1].conn == d;
        }
      }
    }
  }

  /** When no write throws, a write-to-all writes each entry's connection
      once, in registration order: a connection holding two names is
      written twice. */
  lemma {:induction false} WriteAllInOrder(reg: Registry, msg: Message, dead: set<ConnId>)
    requires forall i :: 0 <= i < |reg| ==> reg[i].conn !in dead
    ensures |WriteAll(reg, msg, dead)| == |reg|
    ensures forall i :: 0 <= i < |reg| ==> WriteAll(reg, msg, dead)[i] == Bridge.Delivery(reg[i].conn, msg)
    decreases |reg|
  {
    if reg != [] {
      WriteAllInOrder(reg[1..], msg, dead);
    }
  }

  /** A duplicate `IDENT` leaves the hub as it is and answers the
      connection with the duplicate-name error. */
  lemma IdentDuplicate(hub: Hub, conn: ConnId, m: Message, id: string, goneId: string, dead: set<ConnId>)
    requires m.command == IDENT && Lookup(hub.reg, Bridge.SenderKey(m)).Some?
    ensures Handle(hub, conn, m, id, goneId, dead)
      == Step(hub, if conn in dead then [] else [Bridge.Delivery(conn, ErrorAck(m, id, DUPLICATE_NODE))], false)
  {
  }

  /** A fresh `IDENT` binds the name to the connection, changes no other
      name, and welcomes the connection; the connection's close, when it
      holds no other name, deletes that name again and nothing else. */
  lemma IdentThenClose(hub: Hub, conn: ConnId, m: Message, id: string, goneId: string, dead: set<ConnId>)
    requires m.command == IDENT && Lookup(hub.reg, Bridge.SenderKey(m)).None?
    requires Listeners(hub, conn) == 0
    ensures var s := Handle(hub, conn, m, id, goneId, dead);
      && !s.crashed
      && s.out == (if conn in dead then [] else [Bridge.Delivery(conn, Bridge.WelcomeAck(m, id))])
      && (forall k :: Lookup(s.hub.reg, k) == if k == Bridge.SenderKey(m) then Some(conn) else Lookup(hub.reg, k))
      && !OnClose(s.hub, conn).crashed
      && (forall k :: Lookup(OnClose(s.hub, conn).hub.reg, k) == Lookup(hub.reg, k))
  {
    var s := Handle(hub, conn, m, id, goneId, dead);
    assert Listeners(s.hub, conn) == 1;
    assert s.hub.socketName[conn] == Bridge.SenderKey(m);
  }

  /** A connection that identifies under two names gets two close
      listeners, and its close ends the process. */
  lemma TwoIdentsCrashOnClose(hub: Hub, conn: ConnId, m1: Message, m2: Message, id1: string, id2: string,
                              dead: set<ConnId>)
    requires m1.command == IDENT && m2.command == IDENT && Listeners(hub, conn) == 0
    requires Bridge.SenderKey(m1) != Bridge.SenderKey(m2)
    requires Lookup(hub.reg, Bridge.SenderKey(m1)).None? && Lookup(hub.reg, Bridge.SenderKey(m2)).None?
    ensures var s1 := Handle(hub, conn, m1, id1, id1, dead);
      var s2 := Handle(s1.hub, conn, m2, id2, id2, dead);
      && Lookup(s2.hub.reg, Bridge.SenderKey(m1)) == Some(conn)
      && Lookup(s2.hub.reg, Bridge.SenderKey(m2)) == Some(conn)
      && OnClose(s2.hub, conn).crashed
  {
    var s1 := Handle(hub, conn, m1, id1, id1, dead);
    assert Lookup(s1.hub.reg, Bridge.SenderKey(m2)).None?;
    assert Listeners(s1.hub, conn) == 1;
  }

  /** `TELL` to a name nobody holds writes the error to the sender's name
      when that is registered and alive, and nothing otherwise. */
  lemma TellUnknown(hub: Hub, conn: ConnId, m: Message, id: string, goneId: string, dead: set<ConnId>)
    requires m.command == TELL && Lookup(hub.reg, Key(ArgAt(m.data, 0))).None?
    ensures var sender := Lookup(hub.reg, Bridge.SenderKey(m));
      Handle(hub, conn, m, id, goneId, dead) == Step(hub,
        if sender.Some? && sender.value !in dead then [Bridge.Delivery(sender.value, ErrorAck(m, id, UNKNOWN_NODE))]
        else [], false)
  {
  }

  /** `TELL` to a live registered name writes the destination, and only the
      destination, the record the current hub forwards. */
  lemma TellKnown(hub: Hub, conn: ConnId, m: Message, id: string, goneId: string, dead: set<ConnId>, to: ConnId)
    requires m.command == TELL && Lookup(hub.reg, Key(ArgAt(m.data, 0))) == Some(to) && to !in dead
    ensures Handle(hub, conn, m, id, goneId, dead) == Step(hub, [Bridge.Delivery(to, Bridge.Forward(m, id))], false)
    ensures Bridge.Forward(m, id).data
      == [Bridge.SenderValue(m), Str(m.id), Written(ArgAt(m.data, 1)), Written(ArgAt(m.data, 2))]
  {
  }

  /** When the forward throws, the sender is written `GONE`; when the
      sender's name is not registered or its write throws too, the process
      ends. */
  lemma TellGone(hub: Hub, conn: ConnId, m: Message, id: string, goneId: string, dead: set<ConnId>, to: ConnId)
    requires m.command == TELL && Lookup(hub.reg, Key(ArgAt(m.data, 0))) == Some(to) && to in dead
    ensures var sender := Lookup(hub.reg, Bridge.SenderKey(m));
      var s := Handle(hub, conn, m, id, goneId, dead);
      && (s.crashed <==> sender.None? || sender.value in dead)
      && (!s.crashed ==> s.out == [Bridge.Delivery(sender.value, ErrorAck(m, goneId, GONE))])
      && (s.crashed ==> s.out == [])
  {
  }

  /** A one-element array names the node its element names. */
  lemma TellToArrayName(hub: Hub, conn: ConnId, m: Message, id: string, goneId: string, dead: set<ConnId>, name: string)
    requires m.command == TELL && |m.data| > 0 && m.data[0] == Arr([Str(name)])
    ensures Handle(hub, conn, m, id, goneId, dead)
      == Handle(hub, conn, m.(data := [Str(name)] + m.data[1..]), id, goneId, dead)
  {
    ArrayKeys(name);
    assert ArgAt(m.data, 0) == Some(Arr([Str(name)]));
    assert (m.(data := [Str(name)] + m.data[1..])).data[1..] == m.data[1..];
  }

  /** `SHOUT` writes its data to every live registered connection, the
      sender's own included, and to nothing else. */
  lemma ShoutReachesAll(hub: Hub, conn: ConnId, m: Message, id: string, goneId: string, dead: set<ConnId>)
    requires m.command == SHOUT
    ensures var s := Handle(hub, conn, m, id, goneId, dead);
      && s.hub == hub && !s.crashed
      && (forall i :: 0 <= i < |s.out| ==> s.out[i].msg == New(id, SHOUT, Arr(m.data)))
      && (forall d :: Bridge.Delivery(d, New(id, SHOUT, Arr(m.data))) in s.out <==>
            d !in dead && exists i :: 0 <= i < |hub.reg| && hub.reg[i].conn == d)
      && ((forall i :: 0 <= i < |hub.reg| ==> hub.reg[i].conn !in dead) ==>
            |s.out| == |hub.reg| && forall i :: 0 <= i < |hub.reg| ==> s.out[i].to == hub.reg[i].conn)
  {
    WriteAllMembers(hub.reg, New(id, SHOUT, Arr(m.data)), dead);
    if forall i :: 0 <= i < |hub.reg| ==> hub.reg[i].conn !in dead {
      WriteAllInOrder(hub.reg, New(id, SHOUT, Arr(m.data)), dead);
    }
  }

  /** Unlike the current hub, the older one writes a `SHOUT` back to a
      registered, live sender. */
  lemma ShoutEchoesSender(hub: Hub, conn: ConnId, m: Message, id: string, goneId: string, dead: set<ConnId>)
    requires m.command == SHOUT && Lookup(hub.reg, Bridge.SenderKey(m)) == Some(conn) && conn !in dead
    ensures Bridge.Delivery(conn, New(id, SHOUT, Arr(m.data))) in Handle(hub, conn, m, id, goneId, dead).out
  {
    WriteAllMembers(hub.reg, New(id, SHOUT, Arr(m.data)), dead);
  }

  /** `ACK` relays `[cbid, params]` to a live registered `data[0]` and is
      dropped otherwise. */
  lemma AckRelay(hub: Hub, conn: ConnId, m: Message, id: string, goneId: string, dead: set<ConnId>)
    requires m.command == ACK
    ensures var to := Lookup(hub.reg, Key(ArgAt(m.data, 0)));
      Handle(hub, conn, m, id, goneId, dead) == Step(hub,
        if to.Some? && to.value !in dead then [Bridge.Delivery(to.value, Bridge.Relay(m, id))] else [], false)
  {
  }

  /** Methods other than the four are ignored; the older hub has no
      `LEAVE`. */
  lemma OtherMethodsIgnored(hub: Hub, conn: ConnId, m: Message, id: string, goneId: string, dead: set<ConnId>)
    requires m.command !in {IDENT, TELL, SHOUT, ACK}
    ensures Handle(hub, conn, m, id, goneId, dead) == Step(hub, [], false)
    ensures m.command == LEAVE ==> Handle(hub, conn, m, id, goneId, dead).out == []
  {
  }

  /** A chunk holding one record is handled as that record; a chunk holding
      two ends the process before either is handled. */
  lemma ChunkIsOneRecord(hub: Hub, conn: ConnId, m1: Message, m2: Message, id: string, goneId: string,
                         dead: set<ConnId>)
    ensures HandleChunk(hub, conn, LegacyMessage.ToString(m1), id, goneId, dead) == Handle(hub, conn, m1, id, goneId, dead)
    ensures HandleChunk(hub, conn, LegacyMessage.ToString(m1) + LegacyMessage.ToString(m2), id, goneId, dead)
      == Step(hub, [], true)
  {
    LegacyMessage.TwoRecordsInOneChunk(m1, m2);
  }

  /** With a terminator after each record and a reader that splits on it,
      the same two writes are both read, in order. */
  lemma TwoRecordsFramed(m1: Message, m2: Message)
    ensures Framing.Decode(Framing.Frame([m1, m2])) == Framing.Decoded([m1, m2], false)
  {
    Framing.DecodeFrame([m1, m2]);
  }

  /** `close` ends every live registered connection with `CLOSE` and its
      data (or `[]` when the data is not an array). */
  lemma CloseEndsAll(hub: Hub, closeData: Value, id: string, dead: set<ConnId>)
    ensures var s := Close(hub, closeData, id, dead);
      && (forall d :: Bridge.Delivery(d, New(id, CLOSE, closeData)) in s.out <==>
            d !in dead && exists i :: 0 <= i < |hub.reg| && hub.reg[i].conn == d)
      && (forall i :: 0 <= i < |s.out| ==> s.out[i].msg.data == if closeData.Arr? then closeData.items else [])
  {
    WriteAllMembers(hub.reg, New(id, CLOSE, closeData), dead);
  }
}

=== FILE: legacy_message.dfy ===
/** The older wire record (lib/flic-message.js). Its members, constructor,
    `getId` and `setNodeName` are those of `Message`; the difference is the
    text: `toString` is the bare record, with no terminator after it, so a
    reader has to take a whole transport chunk as one record. */
module LegacyMessage {
  import opened Wrappers
  import opened Json
  import opened Message

  /** `toString`: the record text alone. */
  function ToString(m: Message): (r: string)
    ensures |r| > 0 && r[|r| - 1] == '}' && '\0' !in r
    ensures ParseRecord(r) == Some(m)
  {
    RecordRoundTrip(m);
    var tail := TailText(m.nodeName);
    assert RecordText(m)[|RecordText(m)| - 1] == tail[|tail| - 1];
    RecordText(m)
  }

  /** What a reader of the older protocol makes of a chunk: `JSON.parse` of
      all of it; `None` is the exception it throws. A chunk is read exactly
      when the whole of it is one record's text. */
  function ParseChunk(chunk: string): (r: Option<Message>)
    ensures r.Some? ==> chunk == ToString(r.value)
  {
    ParseRecord(chunk)
  }

  /** A record's text followed by anything at all is no longer a record:
      the parse fails at the first character after the closing brace. */
  lemma TrailingTextRejected(m: Message, t: string)
    requires t != ""
    ensures ParseChunk(RecordText(m) + t).None?
  {
    ReadUpToTail(m, t);
    TailTrailing(m.nodeName, t);
  }

  /** Two records written back to back and read as one chunk: the reader
      gets neither of them. */
  lemma TwoRecordsInOneChunk(m1: Message, m2: Message)
    ensures ParseChunk(ToString(m1)).Some?
    ensures ParseChunk(ToString(m1) + ToString(m2)).None?
  {
    TrailingTextRejected(m1, ToString(m2));
  }
}

=== FILE: legacy_node.dfy ===
/** The older peer (lib/flic-node.js). Its state, its waiters, the records
    it writes and its handlers for inbound records are those of `Node`; it
    differs in taking positional constructor arguments only and wrapping the
    connect callback in `_.once`, in a fixed retry policy of five attempts
    250 ms apart, in reading each transport chunk as one record and letting
    a handler's exception end the process, in also requiring the address of
    `tell` to name a node by word characters and '-', and in force-leaving
    only for `true` itself. */
module LegacyNode {
  import opened Wrappers
  import opened Json
  import opened Message
  import opened Framing
  import Node
  import LegacyMessage

  const DEFAULT_PORT := 8221
  const CONNECT_ATTEMPTS := 5
  /** Milliseconds added to the retry delay per failed attempt. */
  const BACKOFF := 250
  const CONNECT_FAILURE := "Error: Node could not connect to Bridge!"

  /** The constructor: the last string argument is the id, the last number
      the port, the last function, wrapped in `_.once`, the connect
      callback. The attempt bound is fixed and the timeout is always 0. */
  function Configure(args: seq<Node.Arg>, freshId: string): (c: Node.Config)
    ensures c.maxConnectAttempts == CONNECT_ATTEMPTS && c.timeout == 0
    ensures c.connectCallback.Fn? ==> c.connectCallback.once
  {
    var s := Node.LastOf(args, Node.StringArg);
    var n := Node.LastOf(args, Node.NumberArg);
    var f := Node.LastOf(args, Node.FunctionArg);
    Node.Config(if s.Some? then args[s.value].v.s else freshId,
                if n.Some? then args[n.value].v.n else DEFAULT_PORT,
                if f.Some? then Node.Fn(args[f.value].handle, true) else Node.Noop,
                CONNECT_ATTEMPTS, 0)
  }

  /** `_handle_socket_error` with the fixed policy: before the first
      connect, the k-th failure retries after 250k ms while k is below 5,
      and from then on hands the once-only connect callback the failure;
      once connected, the error is emitted and nothing changes. */
  function OnSocketError(peer: Node.Peer): (r: Node.Reaction)
    ensures r.peer.config == peer.config && r.peer.waiters == peer.waiters && r.peer.hasConnected == peer.hasConnected
    ensures !peer.hasConnected && peer.attempts + 1 < 5 ==> r.effects == [Node.Retry((peer.attempts + 1) * 250)]
    ensures !peer.hasConnected ==> r.peer.attempts == peer.attempts + 1
    ensures !peer.hasConnected && peer.attempts + 1 >= 5 ==>
      (r.effects == [] || r.effects == [Node.Invoke(peer.config.connectCallback, [Str(CONNECT_FAILURE)])])
      && (r.effects == [] <==>
            peer.config.connectCallback.Noop? || (peer.config.connectCallback.once && peer.config.connectCallback.handle in peer.fired))
    ensures peer.hasConnected ==> r == Node.Reaction(peer, [Node.Emit([Node.Val(Str("error")), Node.Failure])])
  {
    Node.ErrorStep(peer, BACKOFF, CONNECT_ATTEMPTS, CONNECT_FAILURE)
  }

  /** `_handle_data`: the chunk is parsed whole and a chunk that does not
      parse is ignored; a handler's exception is not caught and ends the
      process (`None`). */
  function HandleData(peer: Node.Peer, chunk: string): (r: Option<Node.Reaction>)
    ensures LegacyMessage.ParseChunk(chunk).None? ==> r == Some(Node.Reaction(peer, []))
  {
    match LegacyMessage.ParseChunk(chunk)
    case None => Some(Node.Reaction(peer, []))
    case Some(m) => Node.Receive(peer, m)
  }

  /** A character `\w` or '-' matches. */
  predicate NameChar(c: char) {
    ('a' <= c <= 'z') || ('A' <= c <= 'Z') || ('0' <= c <= '9') || c == '_' || c == '-'
  }

  /** `/^(\w|-)+$/.test(name)`. */
  predicate NamePattern(name: string) {
    |name| > 0 && forall i :: 0 <= i < |name| ==> NameChar(name[i])
  }

  /** `tell`: as the current peer's, with the node name also checked
      against the pattern before anything is filed or written. */
  function Tell(peer: Node.Peer, whoWhat: string, args: seq<Node.Arg>, id: string, fails: bool)
    : (r: Result<Node.Reaction, string>)
    ensures r.Err? ==> r.error == Node.INVALID_TELL
  {
    var parts := Split(whoWhat, ':');
    if |parts| == 2 && !NamePattern(parts[0]) then Err(Node.INVALID_TELL)
    else Node.Tell(peer, whoWhat, args, id, fails)
  }

  /** `leave(force)`: only `true` itself ends the transport at once; any
      other value writes `LEAVE` with a waiter that ends it. */
  function Leave(peer: Node.Peer, force: Node.Arg, id: string, fails: bool): (r: Node.Reaction)
    ensures force == Node.Data(Bool(true)) ==> r == Node.Reaction(peer, [Node.EndTransport])
    ensures force != Node.Data(Bool(true)) ==> r.peer.waiters == peer.waiters[id := Node.EndOnAck]
  {
    if force == Node.Data(Bool(true)) then Node.Reaction(peer, [Node.EndTransport])
    else
      var p := peer.(waiters := peer.waiters[id := Node.EndOnAck]);
      Node.Reaction(p, Node.WriteBridge(p, New(id, LEAVE, Null), fails))
  }

  // ---------------------------------------------------------------------
  // Runs of events

  /** What can happen to a peer: the transport's events, and the caller's
      calls, the reply closure of an inbound `TELL` among them. */
  datatype Event =
    | Connected(id: string, fails: bool)
    | SocketError
    | Chunk(text: string)
    | TellCall(whoWhat: string, args: seq<Node.Arg>, id: string, fails: bool)
    | ShoutCall(args: seq<Node.Arg>, id: string, fails: bool)
    | LeaveCall(force: Node.Arg, id: string, fails: bool)
    | ReplyCall(from: Value, cbid: Value, args: seq<Node.Arg>, id: string, fails: bool)

  /** One event; `None` when it ends the process. A `tell` that throws
      throws to its caller and changes nothing. */
  function Apply(peer: Node.Peer, e: Event): Option<Node.Reaction>
  {
    match e
    case Connected(id, fails) => Some(Node.OnConnect(peer, id, fails))
    case SocketError => Some(OnSocketError(peer))
    case Chunk(text) => HandleData(peer, text)
    case TellCall(whoWhat, args, id, fails) =>
      var r := Tell(peer, whoWhat, args, id, fails);
      Some(if r.Ok? then r.value else Node.Reaction(peer, []))
    case ShoutCall(args, id, fails) => Some(Node.Shout(peer, args, id, fails))
    case LeaveCall(force, id, fails) => Some(Leave(peer, force, id, fails))
    case ReplyCall(from, cbid, args, id, fails) => Some(Node.Answer(peer, from, cbid, args, id, fails))
  }

  /** The events in order, up to one that ends the process. */
  function ApplyAll(peer: Node.Peer, es: seq<Event>): Node.Reaction
    decreases |es|
  {
    if es == [] then Node.Reaction(peer, [])
    else match Apply(peer, es[0])
      case None => Node.Reaction(peer, [])
      case Some(first) =>
        var rest := ApplyAll(first.peer, es[1..]);
        Node.Reaction(rest.peer, first.effects + rest.effects)
  }

  /** How many times the `_.once` function with handle `h` is called. */
  function OnceCalls(effects: seq<Node.Effect>, h: nat): nat
    decreases |effects|
  {
    if effects == [] then 0
    else (if effects[0].Invoke? && effects[0].cb == Node.Fn(h, true) then 1 else 0) + OnceCalls(effects[1..], h)
  }
}

=== FILE: legacy_node_properties.dfy ===
/** What the older peer promises (lib/flic-node.js:44-290), and where it
    parts from the current peer. */
module LegacyNodeProperties {
  import opened Wrappers
  import opened Json
  import opened Message
  import opened Framing
  import opened LegacyNode
  import Node
  import NodeProperties
  import LegacyMessage

  lemma {:induction false} OnceCallsAppend(a: seq<Node.Effect>, b: seq<Node.Effect>, h: nat)
    ensures OnceCalls(a + b, h) == OnceCalls(a, h) + OnceCalls(b, h)
    decreases |a|
  {
    if a != [] {
      OnceCallsAppend(a[1..], b, h);
      var one := if a[0].Invoke? && a[0].cb == Node.Fn(h, true) then 1 else 0;
      assert (a + b)[0] == a[0];
      assert (a + b)[1..] == a[1..] + b;
      assert OnceCalls(a + b, h) == one + OnceCalls(a[1..] + b, h);
      assert OnceCalls(a, h) == one + OnceCalls(a[1..], h);
    } else {
      assert a + b == b;
    }
  }

  /** One record written or emitted calls nothing. */
  lemma WriteCallsNothing(peer: Node.Peer, msg: Message, fails: bool, h: nat)
    ensures OnceCalls(Node.WriteBridge(peer, msg, fails), h) == 0
  {
    var w := Node.WriteBridge(peer, msg, fails);
    assert w == [w[0]];
  }

  /** The fired set only grows, and a `_.once` function is called in a
      step only if it had not fired before, and has fired after. */
  predicate KeepsOnce(before: Node.Peer, r: Node.Reaction, h: nat) {
    && before.fired <= r.peer.fired
    && OnceCalls(r.effects, h) + (if h in before.fired then 1 else 0) <= (if h in r.peer.fired then 1 else 0)
  }

  lemma RunKeepsOnce(peer: Node.Peer, cb: Node.Callback, args: seq<Value>, h: nat)
    ensures KeepsOnce(peer, Node.Run(peer, cb, args), h)
  {
    var r := Node.Run(peer, cb, args);
    if r.effects != [] {
      assert r.effects == [Node.Invoke(cb, args)];
    }
  }

  lemma ReceiveKeepsOnce(peer: Node.Peer, m: Message, h: nat)
    requires Node.Receive(peer, m).Some?
    ensures KeepsOnce(peer, Node.Receive(peer, m).value, h)
  {
    var r := Node.Receive(peer, m).value;
    if m.command == ACK {
      var args := Node.ApplyArgs(ArgAt(m.data, 1)).value;
      var key := KeyOf(ArgAt(m.data, 0));
      if key.Some? && key.value in peer.waiters {
        match peer.waiters[key.value]
        case Call(cb) => RunKeepsOnce(peer, cb, args, h);
        case EndOnAck =>
      }
    } else if r.effects != [] {
      assert r.effects == [r.effects[0]];
    }
  }

  lemma ErrorKeepsOnce(peer: Node.Peer, h: nat)
    ensures KeepsOnce(peer, OnSocketError(peer), h)
  {
    var p := peer.(attempts := peer.attempts + 1);
    if !peer.hasConnected && p.attempts >= CONNECT_ATTEMPTS {
      RunKeepsOnce(p, p.config.connectCallback, [Str(CONNECT_FAILURE)], h);
    }
  }

  lemma ApplyKeepsOnce(peer: Node.Peer, e: Event, h: nat)
    requires Apply(peer, e).Some?
    ensures KeepsOnce(peer, Apply(peer, e).value, h)
  {
    match e
    case Connected(id, fails) => WriteCallsNothing(peer, New(id, IDENT, Null), fails, h);
    case SocketError => ErrorKeepsOnce(peer, h);
    case Chunk(text) =>
      if LegacyMessage.ParseChunk(text).Some? {
        ReceiveKeepsOnce(peer, LegacyMessage.ParseChunk(text).value, h);
      }
    case TellCall(whoWhat, args, id, fails) =>
      var r := Tell(peer, whoWhat, args, id, fails);
      if r.Ok? {
        var parts := Split(whoWhat, ':');
        var (rest, callback) := Node.PopCallback(args);
        var p := if callback.Some? then peer.(waiters := peer.waiters[id := Node.Call(Node.Fn(callback.value, false))]) else peer;
        WriteCallsNothing(p, New(id, TELL, Arr([Str(parts[0]), Str(parts[1]), Arr(Node.Serialized(rest))])), fails, h);
      }
    case ShoutCall(args, id, fails) => WriteCallsNothing(peer, New(id, SHOUT, Arr(Node.Serialized(args))), fails, h);
    case LeaveCall(force, id, fails) =>
      if force != Node.Data(Bool(true)) {
        WriteCallsNothing(peer.(waiters := peer.waiters[id := Node.EndOnAck]), New(id, LEAVE, Null), fails, h);
      }
    case ReplyCall(from, cbid, args, id, fails) =>
      WriteCallsNothing(peer, New(id, ACK, Arr([from, cbid, Arr(Node.Serialized(args))])), fails, h);
  }

  /** Over any run of events, a `_.once` function (the connect callback
      among them) is called at most once, and not at all once it has
      fired. */
  lemma {:induction false} OnceAtMostOnce(peer: Node.Peer, es: seq<Event>, h: nat)
    ensures KeepsOnce(peer, ApplyAll(peer, es), h)
    ensures OnceCalls(ApplyAll(peer, es).effects, h) <= 1
    ensures h in peer.fired ==> OnceCalls(ApplyAll(peer, es).effects, h) == 0
    decreases |es|
  {
    if es != [] {
      match Apply(peer, es[0])
      case None =>
      case Some(first) =>
        ApplyKeepsOnce(peer, es[0], h);
        OnceAtMostOnce(first.peer, es[1..], h);
        OnceCallsAppend(first.effects, ApplyAll(first.peer, es[1..]).effects, h);
    }
  }

  /** The constructor's function is the connect callback, wrapped in
      `_.once`; without one the callback is the no-op. */
  lemma ConfigureOnce(args: seq<Node.Arg>, freshId: string)
    ensures var c := Configure(args, freshId);
      && (Node.LastOf(args, Node.FunctionArg).Some? ==>
            c.connectCallback == Node.Fn(args[Node.LastOf(args, Node.FunctionArg).value].handle, true))
      && ((forall i :: 0 <= i < |args| ==> !Node.Is(Node.FunctionArg, args[i])) ==> c.connectCallback == Node.Noop)
      && (Node.LastOf(args, Node.StringArg).Some? ==> Node.Data(Str(c.id)) == args[Node.LastOf(args, Node.StringArg).value])
      && ((forall i :: 0 <= i < |args| ==> !Node.Is(Node.StringArg, args[i])) ==> c.id == freshId)
      && (Node.LastOf(args, Node.NumberArg).Some? ==> Node.Data(Num(c.port)) == args[Node.LastOf(args, Node.NumberArg).value])
      && ((forall i :: 0 <= i < |args| ==> !Node.Is(Node.NumberArg, args[i])) ==> c.port == DEFAULT_PORT)
  {
  }

  /** A fresh peer whose connection keeps failing retries after 250, 500,
      750 and 1000 ms, then calls its connect callback with the failure; a
      callback given to the constructor is called once however many
      failures follow. */
  lemma RetryThenGiveUpOnce(args: seq<Node.Arg>, freshId: string, later: nat)
    ensures var peer := Node.Create(Configure(args, freshId));
      var r := NodeProperties.Failures(peer, CONNECT_ATTEMPTS - 1, BACKOFF, CONNECT_ATTEMPTS, CONNECT_FAILURE);
      && r.effects == [Node.Retry(250), Node.Retry(500), Node.Retry(750), Node.Retry(1000)]
      && OnSocketError(r.peer).effects
           == (if peer.config.connectCallback.Noop? then [] else [Node.Invoke(peer.config.connectCallback, [Str(CONNECT_FAILURE)])])
      && (peer.config.connectCallback.Fn? ==>
            OnceCalls(ApplyAll(peer, seq(CONNECT_ATTEMPTS + later, i => SocketError)).effects,
                      peer.config.connectCallback.handle) <= 1)
  {
    var peer := Node.Create(Configure(args, freshId));
    NodeProperties.RetrySchedule(peer, CONNECT_ATTEMPTS - 1, BACKOFF, CONNECT_ATTEMPTS, CONNECT_FAILURE);
    var b := NodeProperties.Backoffs(0, CONNECT_ATTEMPTS - 1, BACKOFF);
    assert b == [Node.Retry(250), Node.Retry(500), Node.Retry(750), Node.Retry(1000)];
    if peer.config.connectCallback.Fn? {
      OnceAtMostOnce(peer, seq(CONNECT_ATTEMPTS + later, i => SocketError), peer.config.connectCallback.handle);
    }
  }

  /** The address check: exactly one ':' and a node name of word
      characters and '-'; otherwise the current peer's `tell`. */
  lemma TellAddress(peer: Node.Peer, whoWhat: string, args: seq<Node.Arg>, id: string, fails: bool)
    ensures Tell(peer, whoWhat, args, id, fails).Ok? <==>
      multiset(whoWhat)[':'] == 1 && NamePattern(Split(whoWhat, ':')[0])
    ensures Tell(peer, whoWhat, args, id, fails).Ok? ==> Tell(peer, whoWhat, args, id, fails) == Node.Tell(peer, whoWhat, args, id, fails)
  {
    NodeProperties.SplitCount(whoWhat, ':');
  }

  /** An address the current peer accepts and the older one refuses. */
  lemma TellStricter(peer: Node.Peer, args: seq<Node.Arg>, id: string, fails: bool)
    ensures Node.Tell(peer, "a.b:ev", args, id, fails).Ok?
    ensures Tell(peer, "a.b:ev", args, id, fails).Err?
  {
    SplitWithout("ev", ':');
    SplitAfterPiece("a.b", ':', "ev");
    assert "a.b" + [':'] + "ev" == "a.b:ev";
    assert !NameChar("a.b"[1]);
  }

  /** Only `true` itself force-leaves: any other truthy value, which the
      current peer takes as force, writes `LEAVE` and waits for its `ACK`. */
  lemma LeaveOnlyForTrue(peer: Node.Peer, id: string, fails: bool)
    ensures Leave(peer, Node.Data(Num(1)), id, fails).effects == Node.WriteBridge(peer.(waiters := peer.waiters[id := Node.EndOnAck]), Message(id, LEAVE, [], ""), fails)
    ensures Node.Leave(peer, Node.Data(Num(1)), id, fails).effects == [Node.EndTransport]
  {
  }

  /** A chunk is one record: a lone record is handled as the current peer
      handles it; a chunk that is not one record, two records back to back
      among them, is ignored whole; a handler that throws ends the
      process. */
  lemma ChunkIsOneRecord(peer: Node.Peer, m1: Message, m2: Message)
    ensures HandleData(peer, LegacyMessage.ToString(m1)) == Node.Receive(peer, m1)
    ensures HandleData(peer, LegacyMessage.ToString(m1) + LegacyMessage.ToString(m2)) == Some(Node.Reaction(peer, []))
    ensures Node.Receive(peer, m1).None? ==> ApplyAll(peer, [Chunk(LegacyMessage.ToString(m1))] + [Chunk(LegacyMessage.ToString(m2))]) == Node.Reaction(peer, [])
  {
    LegacyMessage.TwoRecordsInOneChunk(m1, m2);
    var es := [Chunk(LegacyMessage.ToString(m1))] + [Chunk(LegacyMessage.ToString(m2))];
    assert es[0] == Chunk(LegacyMessage.ToString(m1));
  }
}

=== FILE: message.dfy ===
/** The wire record exchanged between bridge and nodes (lib/message.js) and
    the text it is written as. */
module Message {
  import opened Wrappers
  import opened Json

  /** The method names of the protocol. */
  const IDENT := "IDENT"
  const TELL := "TELL"
  const SHOUT := "SHOUT"
  const ACK := "ACK"
  const CLOSE := "CLOSE"
  const LEAVE := "LEAVE"

  /** One record; `command` is the record's `method` member (`method` is a
      reserved word here). `nodeName == ""` stands for a record whose node name was
      never set, or was set to a falsy value: both are written without the
      `nodeName` member and read back the same way. */
  datatype Message = Message(id: string, command: string, data: seq<Value>, nodeName: string)

  /** `new Message(command, data)` with the identifier the caller's id
      generator supplied; `data` is kept only when it is an array (a missing
      argument is passed as `Null`). */
  function New(id: string, command: string, data: Value): (m: Message)
    ensures m.id == id && m.command == command && m.nodeName == ""
    ensures data.Arr? ==> m.data == data.items
    ensures !data.Arr? ==> m.data == []
  {
    Message(id, command, if data.Arr? then data.items else [], "")
  }

  function GetId(m: Message): (id: string)
    ensures id == m.id
  {
    m.id
  }

  /** Changes the node name and nothing else. */
  function SetNodeName(m: Message, nodeName: string): (r: Message)
    ensures r.nodeName == nodeName
    ensures r.id == m.id && r.command == m.command && r.data == m.data
  {
    m.(nodeName := nodeName)
  }

  /** `message.data[i]`, `None` standing for `undefined` past the end. */
  function ArgAt(data: seq<Value>, i: nat): Option<Value>
  {
    if i < |data| then Some(data[i]) else None
  }

  /** The key an argument is looked up under; `undefined` is the key
      "undefined". */
  function KeyOf(arg: Option<Value>): Option<string>
  {
    match arg
    case None => Some("undefined")
    case Some(v) => PropertyKey(v)
  }

  /** How an argument is written inside an array: `undefined` as `null`. */
  function Written(arg: Option<Value>): Value
  {
    match arg
    case None => Null
    case Some(v) => v
  }

  /** The text `toString` writes before each member's value; member
      names are plain identifiers and are written without escapes. */
  const ID_MEMBER := "{\"id\":\""
  const METHOD_MEMBER := ",\"method\":\""
  const DATA_MEMBER := ",\"data\":["
  const NAME_MEMBER := ",\"nodeName\":\""

  /** What follows the data array: the `nodeName` member exactly when the
      name is truthy, then the closing brace. */
  function TailText(nodeName: string): (r: string)
    ensures Printable(r) && '\0' !in r && |r| > 0 && r[|r| - 1] == '}'
    ensures NAME_MEMBER <= r <==> nodeName != ""
  {
    if nodeName == "" then "}" else NAME_MEMBER + (Escape(nodeName) + ['"'] + "}")
  }

  /** The `data` member and what follows it. */
  function DataText(m: Message): (r: string)
    ensures Printable(r) && '\0' !in r
  {
    DATA_MEMBER + (SerializeItems(m.data) + "]" + TailText(m.nodeName))
  }

  /** The `method` member and what follows it. */
  function MethodText(m: Message): (r: string)
    ensures Printable(r) && '\0' !in r
  {
    METHOD_MEMBER + (Escape(m.command) + ['"'] + DataText(m))
  }

  /** `JSON.stringify` of the record, without the terminator: the members
      `id`, `method` and `data` in that order, then the tail. It holds no
      control character, so in particular no NUL. */
  function RecordText(m: Message): (r: string)
    ensures |r| > 0 && Printable(r) && '\0' !in r
  {
    ID_MEMBER + (Escape(m.id) + ['"'] + MethodText(m))
  }

  /** `toString`: the record text followed by one NUL terminator. */
  function ToString(m: Message): (r: string)
    ensures |r| > 0 && r[|r| - 1] == '\0'
    ensures '\0' !in r[..|r| - 1]
  {
    var r := RecordText(m) + "\0";
    assert r[..|r| - 1] == RecordText(m);
    r
  }

  /** The members after the data array: the name written by `TailText`,
      `""` when there is none. */
  function ParseTail(rest: string): (r: Option<string>)
    ensures r.Some? ==> rest == TailText(r.value)
  {
    if rest == "}" then Some("")
    else
      var afterName :- Expect(NAME_MEMBER, rest);
      StringBodyCanonical(afterName);
      var name :- ParseStringBody(afterName);
      if name.rest == "}" && name.value != "" then Some(name.value) else None
  }

  /** A `nodeName` member is read back as the name exactly when nothing but
      the closing brace follows it. */
  lemma ReadNameMember(nodeName: string, after: string)
    requires nodeName != ""
    ensures ParseTail(NAME_MEMBER + (Escape(nodeName) + ['"'] + after))
      == if after == "}" then Some(nodeName) else None
  {
    var afterName := Escape(nodeName) + ['"'] + after;
    assert NAME_MEMBER + afterName != "}" by { assert (NAME_MEMBER + afterName)[0] == ','; }
    ExpectLiteral(NAME_MEMBER, afterName);
    StringRoundTrip(nodeName, after);
  }

  lemma TailRoundTrip(nodeName: string)
    ensures ParseTail(TailText(nodeName)) == Some(nodeName)
  {
    if nodeName != "" {
      ReadNameMember(nodeName, "}");
    }
  }

  /** Nothing may follow the closing brace. */
  lemma TailTrailing(nodeName: string, t: string)
    requires t != ""
    ensures ParseTail(TailText(nodeName) + t).None?
  {
    if nodeName == "" {
      assert TailText(nodeName) + t == "}" + t;
      BraceTrailing(t);
    } else {
      NameTrailing(nodeName, t);
    }
  }

  lemma BraceTrailing(t: string)
    requires t != ""
    ensures ParseTail("}" + t).None?
  {
    assert "}" + t != "}";
    assert ("}" + t)[0] != NAME_MEMBER[0];
  }

  lemma NameTrailing(nodeName: string, t: string)
    requires t != "" && nodeName != ""
    ensures ParseTail(TailText(nodeName) + t).None?
  {
    var after := "}" + t;
    assert |after| > 1;
    ReadNameMember(nodeName, after);
    var quoted := Escape(nodeName) + ['"'];
    assert TailText(nodeName) + t == NAME_MEMBER + (quoted + after) by {
      AppendAssoc(NAME_MEMBER, quoted + "}", t);
      AppendAssoc(quoted, "}", t);
    }
  }

  /** `JSON.parse` of one frame, accepting records in the canonical form
      `RecordText` writes and nothing else: a frame is read exactly when it
      is the text of the record read (with `RecordRoundTrip`, both ways). */
  function ParseRecord(s: string): (r: Option<Message>)
    ensures r.Some? ==> s == RecordText(r.value)
  {
    var afterId :- Expect(ID_MEMBER, s);
    StringBodyCanonical(afterId);
    var id :- ParseStringBody(afterId);
    var m :- ParseFromMethod(id.value, id.rest);
    assert s == ID_MEMBER + (Escape(m.id) + ['"'] + MethodText(m)) by {
      AppendAssoc(Escape(m.id), ['"'], MethodText(m));
    }
    Some(m)
  }

  function ParseFromMethod(id: string, s: string): (r: Option<Message>)
    ensures r.Some? ==> r.value.id == id && s == MethodText(r.value)
  {
    var afterMethod :- Expect(METHOD_MEMBER, s);
    StringBodyCanonical(afterMethod);
    var command :- ParseStringBody(afterMethod);
    var m :- ParseFromData(id, command.value, command.rest);
    assert s == METHOD_MEMBER + (Escape(m.command) + ['"'] + DataText(m)) by {
      AppendAssoc(Escape(m.command), ['"'], DataText(m));
    }
    Some(m)
  }

  function ParseFromData(id: string, command: string, s: string): (r: Option<Message>)
    ensures r.Some? ==> r.value.id == id && r.value.command == command && s == DataText(r.value)
  {
    var afterData :- Expect(DATA_MEMBER, s);
    ArrayBodyCanonical(afterData);
    var data :- ParseArrayBody(afterData);
    var name :- ParseTail(data.rest);
    var m := Message(id, command, data.value, name);
    assert s == DATA_MEMBER + (SerializeItems(m.data) + "]" + TailText(m.nodeName)) by {
      AppendAssoc(SerializeItems(m.data), "]", data.rest);
    }
    Some(m)
  }

  /** What the record's tail reads back as, whatever follows it. */
  function ReadTail(m: Message, t: string): Option<Message>
  {
    match ParseTail(TailText(m.nodeName) + t)
    case Some(name) => Some(Message(m.id, m.command, m.data, name))
    case None => None
  }

  lemma ReadData(m: Message, t: string)
    ensures ParseFromData(m.id, m.command, DataText(m) + t) == ReadTail(m, t)
  {
    var tail := TailText(m.nodeName) + t;
    var dataText := SerializeItems(m.data) + "]" + tail;
    assert DataText(m) + t == DATA_MEMBER + dataText;
    ExpectLiteral(DATA_MEMBER, dataText);
    ArrayBodyRoundTrip(m.data, tail);
  }

  lemma ReadMethod(m: Message, t: string)
    ensures ParseFromMethod(m.id, MethodText(m) + t) == ReadTail(m, t)
  {
    var afterMethod := Escape(m.command) + ['"'] + (DataText(m) + t);
    assert MethodText(m) + t == METHOD_MEMBER + afterMethod;
    ExpectLiteral(METHOD_MEMBER, afterMethod);
    StringRoundTrip(m.command, DataText(m) + t);
    ReadData(m, t);
  }

  /** Whatever follows the data array, the members before it read back as
      written. */
  lemma ReadUpToTail(m: Message, t: string)
    ensures ParseRecord(RecordText(m) + t) == ReadTail(m, t)
  {
    var afterId := Escape(m.id) + ['"'] + (MethodText(m) + t);
    assert RecordText(m) + t == ID_MEMBER + afterId;
    ExpectLiteral(ID_MEMBER, afterId);
    StringRoundTrip(m.id, MethodText(m) + t);
    ReadMethod(m, t);
  }

  /** Parsing the text of a record returns the record. */
  lemma RecordRoundTrip(m: Message)
    ensures ParseRecord(RecordText(m)) == Some(m)
  {
    ReadUpToTail(m, "");
    assert RecordText(m) + "" == RecordText(m);
    assert TailText(m.nodeName) + "" == TailText(m.nodeName);
    TailRoundTrip(m.nodeName);
  }

  /** A frame is read as a record exactly when it is that record's text. */
  lemma ParseRecordExactly(s: string, m: Message)
    ensures ParseRecord(s) == Some(m) <==> s == RecordText(m)
  {
    RecordRoundTrip(m);
  }

  /** Two records with the same text are the same record. */
  lemma ParseRecordInjective(m1: Message, m2: Message)
    requires RecordText(m1) == RecordText(m2)
    ensures m1 == m2
  {
    RecordRoundTrip(m1);
    RecordRoundTrip(m2);
  }
}

=== FILE: node.dfy ===
/** A peer of the relay (lib/node.js): its configuration, the connect and
    retry state machine, the table of callbacks waiting for an `ACK`, the
    records it writes to the hub and what it makes of the records it reads.
    Each operation is a pure step from the peer's state to the new state and
    the effects it has, in order. The environment enters as parameters: `id`
    is the identifier `uuid.v4` gives a new record, `fails` says whether the
    transport's `write` throws. */
module Node {
  import opened Wrappers
  import opened Json
  import opened Message
  import opened Framing

  const DEFAULT_PORT := 8221
  const DEFAULT_MAX_CONNECT_ATTEMPTS := 5
  const DEFAULT_TIMEOUT := 0
  /** Milliseconds added to the retry delay per failed attempt. */
  const CONNECT_BACKOFF_MULT := 50
  const CONNECT_FAILURE := "error: node could not connect to bridge!"
  const INVALID_TELL := "Invalid tell statement, should be (node_name:event_name)"

  /** A function the peer holds: the no-op default or one of the caller's,
      known by an opaque handle; `once` marks one wrapped in `_.once`. */
  datatype Callback = Noop | Fn(handle: nat, once: bool)

  /** A caller's argument to a public method. */
  datatype Arg = Data(v: Value) | Func(handle: nat) | Undefined

  /** What runs when the `ACK` a waiter is filed under arrives: a callback, or
      the closure `leave` files, which ends the transport. */
  datatype Waiter = Call(cb: Callback) | EndOnAck

  /** One argument of an emitted event: a value, `undefined`, the reply
      closure of an inbound `TELL` (which answers `from` under `cbid`), or
      the transport's error object. */
  datatype EmitArg = Val(v: Value) | Undef | Reply(from: Value, cbid: Value) | Failure

  datatype Effect =
    | Send(msg: Message)
    | Emit(args: seq<EmitArg>)
    | Invoke(cb: Callback, values: seq<Value>)
    | Retry(delay: int)
    | EndTransport

  datatype Config = Config(id: string, port: int, connectCallback: Callback, maxConnectAttempts: int, timeout: int)

  /** The peer's state: `_config`, `_waiters`, `_has_connected`,
      `_connect_attempts`, and the handles of `_.once` functions that ran. */
  datatype Peer = Peer(config: Config, waiters: map<string, Waiter>, hasConnected: bool, attempts: int, fired: set<nat>)

  /** A peer state and the effects on the way to it. */
  datatype Reaction = Reaction(peer: Peer, effects: seq<Effect>)

  /** The options object; a member left out is `None`. */
  datatype Options = Options(id: Option<string>, port: Option<int>, connectCallback: Option<Callback>,
                             maxConnectAttempts: Option<int>, timeout: Option<int>)

  /** The constructor's arguments: a plain object as the first argument is
      the options object; otherwise every argument is looked at in turn. */
  datatype CtorArgs = PlainObject(options: Options) | Positional(args: seq<Arg>)

  /** The kinds of argument the constructor looks for. */
  datatype ArgKind = StringArg | NumberArg | FunctionArg

  predicate Is(kind: ArgKind, a: Arg) {
    match kind
    case StringArg => a.Data? && a.v.Str?
    case NumberArg => a.Data? && a.v.Num?
    case FunctionArg => a.Func?
  }

  /** The position of the last argument of a kind, the one that wins when a
      later argument overrides an earlier one. */
  function LastOf(args: seq<Arg>, kind: ArgKind): (r: Option<nat>)
    ensures r.None? <==> forall i :: 0 <= i < |args| ==> !Is(kind, args[i])
    ensures r.Some? ==>
      r.value < |args| && Is(kind, args[r.value]) && forall j :: r.value < j < |args| ==> !Is(kind, args[j])
    decreases |args|
  {
    if args == [] then None
    else if Is(kind, args[|args| - 1]) then Some(|args| - 1)
    else
      var r := LastOf(args[..|args| - 1], kind);
      assert forall j :: 0 <= j < |args| - 1 ==> args[..|args| - 1][j] == args[j];
      r
  }

  /** The options positional arguments stand for: a string is the id, a
      number the port, a function the connect callback, and a later
      argument overrides an earlier one. */
  function ArgsOptions(args: seq<Arg>): (o: Options)
  {
    var s := LastOf(args, StringArg);
    var n := LastOf(args, NumberArg);
    var f := LastOf(args, FunctionArg);
    Options(if s.Some? then Some(args[s.value].v.s) else None,
            if n.Some? then Some(args[n.value].v.n) else None,
            if f.Some? then Some(Fn(args[f.value].handle, false)) else None,
            None, None)
  }

  /** `_.defaults` of the options with the defaults; `freshId` is the
      identifier `uuid.v4` supplies when the options give none. An options
      object keeps each member it gives; positional arguments can give only
      the id, the port and the callback, each one an argument of its kind,
      and never a once-only callback. */
  function Configure(ctor: CtorArgs, freshId: string): (c: Config)
    ensures ctor.PlainObject? && ctor.options.id.Some? ==> c.id == ctor.options.id.value
    ensures ctor.PlainObject? && ctor.options.port.Some? ==> c.port == ctor.options.port.value
    ensures ctor.PlainObject? && ctor.options.connectCallback.Some? ==> c.connectCallback == ctor.options.connectCallback.value
    ensures ctor.PlainObject? && ctor.options.maxConnectAttempts.Some? ==>
      c.maxConnectAttempts == ctor.options.maxConnectAttempts.value
    ensures ctor.PlainObject? && ctor.options.timeout.Some? ==> c.timeout == ctor.options.timeout.value
    ensures ctor.Positional? ==> c.maxConnectAttempts == DEFAULT_MAX_CONNECT_ATTEMPTS && c.timeout == DEFAULT_TIMEOUT
    ensures ctor.Positional? ==> c.id == freshId || exists i :: 0 <= i < |ctor.args| && ctor.args[i] == Data(Str(c.id))
    ensures ctor.Positional? ==> c.port == DEFAULT_PORT || exists i :: 0 <= i < |ctor.args| && ctor.args[i] == Data(Num(c.port))
    ensures ctor.Positional? ==> c.connectCallback == Noop || exists i :: 0 <= i < |ctor.args| && ctor.args[i].Func? && c.connectCallback == Fn(ctor.args[i].handle, false)
  {
    var o := if ctor.PlainObject? then ctor.options else ArgsOptions(ctor.args);
    Config(Default(o.id, freshId), Default(o.port, DEFAULT_PORT), Default(o.connectCallback, Noop),
           Default(o.maxConnectAttempts, DEFAULT_MAX_CONNECT_ATTEMPTS), Default(o.timeout, DEFAULT_TIMEOUT))
  }

  function Default<T>(o: Option<T>, d: T): T
  {
    if o.Some? then o.value else d
  }

  /** The peer the constructor builds, before its first connection attempt
      completes: no waiters, not connected, no attempt failed. */
  function Create(config: Config): (p: Peer)
    ensures p.config == config && p.waiters == map[] && !p.hasConnected && p.attempts == 0 && p.fired == {}
  {
    Peer(config, map[], false, 0, {})
  }

  /** Calling a function the peer holds; a `_.once` function runs the first
      time only. */
  function Run(peer: Peer, cb: Callback, args: seq<Value>): (r: Reaction)
    ensures r.peer.config == peer.config && r.peer.waiters == peer.waiters
    ensures r.peer.hasConnected == peer.hasConnected && r.peer.attempts == peer.attempts
    ensures r.effects == [] || r.effects == [Invoke(cb, args)]
    ensures r.effects == [] <==> cb.Noop? || (cb.once && cb.handle in peer.fired)
    ensures r.peer.fired == if cb.Fn? && cb.once then peer.fired + {cb.handle} else peer.fired
  {
    match cb
    case Noop => Reaction(peer, [])
    case Fn(h, once) =>
      if once && h in peer.fired then Reaction(peer, [])
      else Reaction(peer.(fired := if once then peer.fired + {h} else peer.fired), [Invoke(cb, args)])
  }

  /** `_write_bridge`: the record stamped with the peer's id and written; a
      write that throws is emitted as `'error'`. */
  function WriteBridge(peer: Peer, msg: Message, fails: bool): (effects: seq<Effect>)
    ensures |effects| == 1
    ensures fails <==> effects[0].Emit?
    ensures !fails ==> effects[0] == Send(msg.(nodeName := peer.config.id))
  {
    var stamped := SetNodeName(msg, peer.config.id);
    if fails then [Emit([Val(Str("error")), Failure])] else [Send(stamped)]
  }

  /** `_handle_connect`: the peer is connected from now on, files the connect
      callback under the new `IDENT` record's id and writes that record. */
  function OnConnect(peer: Peer, id: string, fails: bool): (r: Reaction)
    ensures r.peer.hasConnected && r.peer.attempts == peer.attempts
    ensures r.peer.waiters == peer.waiters[id := Call(peer.config.connectCallback)]
    ensures r.effects == WriteBridge(peer, Message(id, IDENT, [], ""), fails)
  {
    Reaction(peer.(hasConnected := true, waiters := peer.waiters[id := Call(peer.config.connectCallback)]),
             WriteBridge(peer, New(id, IDENT, Null), fails))
  }

  /** `_handle_socket_error` with its retry policy: before the first connect
      the k-th failure schedules a retry after `k * backoff` while k is below
      the bound and calls the connect callback with `failure` from then on;
      once connected, the error is emitted. */
  function ErrorStep(peer: Peer, backoff: int, bound: int, failure: string): (r: Reaction)
    ensures !peer.hasConnected ==> r.peer.attempts == peer.attempts + 1
    ensures !peer.hasConnected && peer.attempts + 1 < bound ==>
      r == Reaction(peer.(attempts := peer.attempts + 1), [Retry((peer.attempts + 1) * backoff)])
    ensures !peer.hasConnected && peer.attempts + 1 >= bound ==>
      r == Run(peer.(attempts := peer.attempts + 1), peer.config.connectCallback, [Str(failure)])
    ensures peer.hasConnected ==> r == Reaction(peer, [Emit([Val(Str("error")), Failure])])
  {
    if !peer.hasConnected then
      var p := peer.(attempts := peer.attempts + 1);
      if p.attempts < bound then Reaction(p, [Retry(p.attempts * backoff)])
      else Run(p, p.config.connectCallback, [Str(failure)])
    else Reaction(peer, [Emit([Val(Str("error")), Failure])])
  }

  /** `_handle_socket_error` with the current peer's constants: before the
      first connect, the k-th failure retries after 50k ms while k is below
      `maxConnectAttempts`, and from then on hands the connect callback the
      failure; once connected, the error is emitted and nothing changes. */
  function OnSocketError(peer: Peer): (r: Reaction)
    ensures r.peer.config == peer.config && r.peer.waiters == peer.waiters && r.peer.hasConnected == peer.hasConnected
    ensures !peer.hasConnected ==> r.peer.attempts == peer.attempts + 1
    ensures !peer.hasConnected && peer.attempts + 1 < peer.config.maxConnectAttempts ==>
      r.effects == [Retry((peer.attempts + 1) * 50)]
    ensures !peer.hasConnected && peer.attempts + 1 >= peer.config.maxConnectAttempts ==>
      (r.effects == [] || r.effects == [Invoke(peer.config.connectCallback, [Str(CONNECT_FAILURE)])])
      && (r.effects == [] <==> peer.config.connectCallback.Noop? || (peer.config.connectCallback.once && peer.config.connectCallback.handle in peer.fired))
    ensures peer.hasConnected ==> r == Reaction(peer, [Emit([Val(Str("error")), Failure])])
  {
    ErrorStep(peer, CONNECT_BACKOFF_MULT, peer.config.maxConnectAttempts, CONNECT_FAILURE)
  }

  /** The arguments `apply` passes for `_.get(message, 'data[1]', [])`:
      none for a missing value or `null`; `apply` throws (`None`) for
      anything but an array. */
  function ApplyArgs(arg: Option<Value>): (r: Option<seq<Value>>)
    ensures r.Some? <==> arg.None? || arg == Some(Null) || arg.value.Arr?
  {
    match arg
    case None => Some([])
    case Some(Null) => Some([])
    case Some(Arr(items)) => Some(items)
    case Some(_) => None
  }

  function Fire(peer: Peer, w: Waiter, args: seq<Value>): (r: Reaction)
    ensures r.peer.waiters == peer.waiters && r.peer.config == peer.config
  {
    match w
    case Call(cb) => Run(peer, cb, args)
    case EndOnAck => Reaction(peer, [EndTransport])
  }

  /** Every value as an emitted argument. */
  function Vals(vs: seq<Value>): (r: seq<EmitArg>)
    ensures |r| == |vs| && forall i :: 0 <= i < |vs| ==> r[i] == Val(vs[i])
  {
    seq(|vs|, i requires 0 <= i < |vs| => Val(vs[i]))
  }

  function Emitted(arg: Option<Value>): EmitArg
  {
    if arg.Some? then Val(arg.value) else Undef
  }

  /** `_handle_ack_message`: the waiter filed under `data[0]` runs with the
      arguments in `data[1]` and is removed; `None` when `apply` throws. */
  function OnAck(peer: Peer, m: Message): (r: Option<Reaction>)
    ensures r.Some? <==> ApplyArgs(ArgAt(m.data, 1)).Some?
    ensures r.Some? ==> Calm(peer, r.value) && |r.value.effects| <= 1
    ensures r.Some? ==>
      r.value.peer.waiters == if KeyOf(ArgAt(m.data, 0)).Some? then peer.waiters - {KeyOf(ArgAt(m.data, 0)).value} else peer.waiters
    ensures r.Some? && (KeyOf(ArgAt(m.data, 0)).None? || KeyOf(ArgAt(m.data, 0)).value !in peer.waiters) ==>
      r.value == Reaction(peer, [])
  {
    var args :- ApplyArgs(ArgAt(m.data, 1));
    var key := KeyOf(ArgAt(m.data, 0));
    if key.Some? && key.value in peer.waiters then
      var fired := Fire(peer, peer.waiters[key.value], args);
      Some(Reaction(fired.peer.(waiters := peer.waiters - {key.value}), fired.effects))
    else Some(Reaction(peer, []))
  }

  /** `_handle_tell_message`: the event is emitted with the parameters and a
      reply closure; `None` when the parameters are not an array (`push`
      throws). */
  function OnTell(peer: Peer, m: Message): (r: Option<Reaction>)
    ensures r.Some? <==> ArgAt(m.data, 3).Some? && ArgAt(m.data, 3).value.Arr?
  {
    match ArgAt(m.data, 3)
    case Some(Arr(params)) =>
      Some(Reaction(peer, [Emit([Emitted(ArgAt(m.data, 2))] + Vals(params)
        + [Reply(Written(ArgAt(m.data, 0)), Written(ArgAt(m.data, 1)))])]))
    case _ => None
  }

  /** Reading leaves the configuration and the connection state alone,
      files no waiter, and neither writes nor schedules a retry. */
  ghost predicate Calm(before: Peer, r: Reaction) {
    && r.peer.config == before.config && r.peer.hasConnected == before.hasConnected
    && r.peer.attempts == before.attempts && r.peer.waiters.Keys <= before.waiters.Keys
    && forall i :: 0 <= i < |r.effects| ==> !r.effects[i].Send? && !r.effects[i].Retry?
  }

  /** One record read from the hub; `None` when its handler throws. */
  function Receive(peer: Peer, m: Message): (r: Option<Reaction>)
    ensures m.command !in {ACK, TELL} ==> r.Some? && r.value.peer == peer
    ensures r.Some? ==> Calm(peer, r.value)
  {
    if m.command == ACK then OnAck(peer, m)
    else if m.command == TELL then OnTell(peer, m)
    else if m.command == SHOUT then Some(Reaction(peer, [Emit(Vals(m.data))]))
    else if m.command == CLOSE then Some(Reaction(peer, [Emit([Val(Str("close"))] + Vals(m.data))]))
    else Some(Reaction(peer, []))
  }

  /** The records of a chunk read in order, up to the first whose handler
      throws: that record and the rest of the chunk have no effect. */
  function ReceiveAll(peer: Peer, ms: seq<Message>): (r: Reaction)
    ensures Calm(peer, r)
    decreases |ms|
  {
    if ms == [] then Reaction(peer, [])
    else match Receive(peer, ms[0])
      case None => Reaction(peer, [])
      case Some(first) =>
        var rest := ReceiveAll(first.peer, ms[1..]);
        Reaction(rest.peer, first.effects + rest.effects)
  }

  /** `_handle_data`: a chunk with no record changes nothing, and no chunk
      makes the peer write, retry, file a waiter or change its
      configuration or connection state. */
  function HandleData(peer: Peer, chunk: string): (r: Reaction)
    ensures Calm(peer, r)
    ensures Decode(chunk).messages == [] ==> r == Reaction(peer, [])
  {
    ReceiveAll(peer, Decode(chunk).messages)
  }

  /** How the caller's arguments are written inside an array: a function or
      `undefined` as `null`. */
  function Serialized(args: seq<Arg>): (r: seq<Value>)
    ensures |r| == |args|
    ensures forall i :: 0 <= i < |args| ==> r[i] == if args[i].Data? then args[i].v else Null
  {
    seq(|args|, i requires 0 <= i < |args| => if args[i].Data? then args[i].v else Null)
  }

  /** The reply closure of an inbound `TELL`, called with `args`. */
  function Answer(peer: Peer, from: Value, cbid: Value, args: seq<Arg>, id: string, fails: bool): (r: Reaction)
    ensures r.peer == peer
  {
    Reaction(peer, WriteBridge(peer, New(id, ACK, Arr([from, cbid, Arr(Serialized(args))])), fails))
  }

  /** The caller's arguments without a trailing function, and that
      function if there is one. */
  function PopCallback(args: seq<Arg>): (r: (seq<Arg>, Option<nat>))
    ensures r.1.Some? <==> |args| > 0 && args[|args| - 1].Func?
    ensures r.1.Some? ==> r.0 + [Func(r.1.value)] == args
    ensures r.1.None? ==> r.0 == args
  {
    if |args| > 0 && args[|args| - 1].Func? then (args[..|args| - 1], Some(args[|args| - 1].handle))
    else (args, None)
  }

  /** `tell(whoWhat, ...args)`: throws unless the address splits on ':' into
      exactly two parts; otherwise files a trailing function as the waiter of
      the new record and writes `TELL [name, event, args]`. */
  function Tell(peer: Peer, whoWhat: string, args: seq<Arg>, id: string, fails: bool): (r: Result<Reaction, string>)
    ensures r.Err? <==> |Split(whoWhat, ':')| != 2
    ensures r.Err? ==> r.error == INVALID_TELL
  {
    var (rest, callback) := PopCallback(args);
    var parts := Split(whoWhat, ':');
    if |parts| != 2 then Err(INVALID_TELL)
    else
      var msg := New(id, TELL, Arr([Str(parts[0]), Str(parts[1]), Arr(Serialized(rest))]));
      var p := if callback.Some? then peer.(waiters := peer.waiters[id := Call(Fn(callback.value, false))]) else peer;
      Ok(Reaction(p, WriteBridge(p, msg, fails)))
  }

  /** `shout(...args)`: every argument, functions written as `null`. */
  function Shout(peer: Peer, args: seq<Arg>, id: string, fails: bool): (r: Reaction)
    ensures r.peer == peer
  {
    Reaction(peer, WriteBridge(peer, New(id, SHOUT, Arr(Serialized(args))), fails))
  }

  /** JavaScript truthiness of an argument. */
  predicate ArgTruthy(a: Arg) {
    match a
    case Data(v) => Truthy(v)
    case Func(_) => true
    case Undefined => false
  }

  /** `leave(force)`: a truthy `force` ends the transport at once; otherwise
      a `LEAVE` record is written whose `ACK` ends it. */
  function Leave(peer: Peer, force: Arg, id: string, fails: bool): (r: Reaction)
    ensures ArgTruthy(force) ==> r == Reaction(peer, [EndTransport])
    ensures !ArgTruthy(force) ==>
      r.peer.waiters == peer.waiters[id := EndOnAck] && r.effects == WriteBridge(peer, Message(id, LEAVE, [], ""), fails)
  {
    if ArgTruthy(force) then Reaction(peer, [EndTransport])
    else
      var p := peer.(waiters := peer.waiters[id := EndOnAck]);
      Reaction(p, WriteBridge(p, New(id, LEAVE, Null), fails))
  }
}

=== FILE: node_properties.dfy ===
/** What a peer's operations promise (lib/node.js:20-275), stated against its
    waiter table and the effects it has. */
module NodeProperties {
  import opened Wrappers
  import opened Json
  import opened Message
  import opened Framing
  import opened Node

  /** Positional constructor arguments: the last string is the id, the last
      number the port, the last function the connect callback; what is
      missing takes its default, and the attempt bound and timeout are
      always the defaults. */
  lemma PositionalConfig(args: seq<Arg>, freshId: string)
    ensures var c := Configure(Positional(args), freshId);
      && ((forall i :: 0 <= i < |args| ==> !Is(StringArg, args[i])) ==> c.id == freshId)
      && ((forall i :: 0 <= i < |args| ==> !Is(NumberArg, args[i])) ==> c.port == DEFAULT_PORT)
      && ((forall i :: 0 <= i < |args| ==> !Is(FunctionArg, args[i])) ==> c.connectCallback == Noop)
      && (LastOf(args, StringArg).Some? ==> Data(Str(c.id)) == args[LastOf(args, StringArg).value])
      && (LastOf(args, NumberArg).Some? ==> Data(Num(c.port)) == args[LastOf(args, NumberArg).value])
      && (LastOf(args, FunctionArg).Some? ==> c.connectCallback == Fn(args[LastOf(args, FunctionArg).value].handle, false))
      && c.maxConnectAttempts == DEFAULT_MAX_CONNECT_ATTEMPTS && c.timeout == DEFAULT_TIMEOUT
  {
  }

  /** An options object: every member given is kept, every member left out
      takes its default. */
  lemma OptionsConfig(o: Options, freshId: string)
    ensures var c := Configure(PlainObject(o), freshId);
      && (o.id.Some? ==> c.id == o.id.value) && (o.id.None? ==> c.id == freshId)
      && (o.port.Some? ==> c.port == o.port.value) && (o.port.None? ==> c.port == DEFAULT_PORT)
      && (o.connectCallback.Some? ==> c.connectCallback == o.connectCallback.value)
      && (o.connectCallback.None? ==> c.connectCallback == Noop)
      && (o.maxConnectAttempts.Some? ==> c.maxConnectAttempts == o.maxConnectAttempts.value)
      && (o.maxConnectAttempts.None? ==> c.maxConnectAttempts == DEFAULT_MAX_CONNECT_ATTEMPTS)
      && (o.timeout.Some? ==> c.timeout == o.timeout.value) && (o.timeout.None? ==> c.timeout == DEFAULT_TIMEOUT)
  {
  }

  /** `n` socket errors in a row under a retry policy. */
  function Failures(peer: Peer, n: nat, backoff: int, bound: int, failure: string): Reaction
    decreases n
  {
    if n == 0 then Reaction(peer, [])
    else
      var first := ErrorStep(peer, backoff, bound, failure);
      var rest := Failures(first.peer, n - 1, backoff, bound, failure);
      Reaction(rest.peer, first.effects + rest.effects)
  }

  /** The retries a run of failures schedules: the k-th failed attempt waits
      `k * backoff`. */
  function Backoffs(from: int, n: nat, backoff: int): (r: seq<Effect>)
    ensures |r| == n && forall i :: 0 <= i < n ==> r[i] == Retry((from + i + 1) * backoff)
  {
    seq(n, i requires 0 <= i < n => Retry((from + i + 1) * backoff))
  }

  /** Before the first connect and below the bound, every failure schedules
      one retry, each waiting one backoff step longer than the last. */
  lemma {:induction false} RetrySchedule(peer: Peer, n: nat, backoff: int, bound: int, failure: string)
    requires !peer.hasConnected && peer.attempts + n < bound
    ensures Failures(peer, n, backoff, bound, failure).peer == peer.(attempts := peer.attempts + n)
    ensures Failures(peer, n, backoff, bound, failure).effects == Backoffs(peer.attempts, n, backoff)
    decreases n
  {
    if n > 0 {
      var first := ErrorStep(peer, backoff, bound, failure);
      RetrySchedule(first.peer, n - 1, backoff, bound, failure);
      assert first.effects + Backoffs(peer.attempts + 1, n - 1, backoff) == Backoffs(peer.attempts, n, backoff);
    }
  }

  /** A fresh peer whose connection keeps failing retries after 50, 100, ...
      milliseconds, and at the bound calls the connect callback with the
      failure message instead of retrying. */
  lemma GiveUpAtBound(config: Config)
    requires config.maxConnectAttempts >= 1
    ensures var r := Failures(Create(config), config.maxConnectAttempts, CONNECT_BACKOFF_MULT, config.maxConnectAttempts, CONNECT_FAILURE);
      && r.peer.attempts == config.maxConnectAttempts
      && r.effects == Backoffs(0, config.maxConnectAttempts - 1, CONNECT_BACKOFF_MULT)
           + (if config.connectCallback.Noop? then [] else [Invoke(config.connectCallback, [Str(CONNECT_FAILURE)])])
  {
    var bound := config.maxConnectAttempts;
    var p := Create(config);
    RetrySchedule(p, bound - 1, CONNECT_BACKOFF_MULT, bound, CONNECT_FAILURE);
    FailuresSplit(p, bound - 1, 1, CONNECT_BACKOFF_MULT, bound, CONNECT_FAILURE);
  }

  lemma {:induction false} FailuresSplit(peer: Peer, a: nat, b: nat, backoff: int, bound: int, failure: string)
    ensures var first := Failures(peer, a, backoff, bound, failure);
      var second := Failures(first.peer, b, backoff, bound, failure);
      Failures(peer, a + b, backoff, bound, failure) == Reaction(second.peer, first.effects + second.effects)
    decreases a
  {
    if a > 0 {
      var s := ErrorStep(peer, backoff, bound, failure);
      FailuresSplit(s.peer, a - 1, b, backoff, bound, failure);
      var r1 := Failures(s.peer, a - 1, backoff, bound, failure);
      var r2 := Failures(r1.peer, b, backoff, bound, failure);
      assert s.effects + (r1.effects + r2.effects) == (s.effects + r1.effects) + r2.effects;
    }
  }

  /** The contrast with `LegacyNodeProperties.OnceAtMostOnce`: the current
      constructor does not wrap the connect callback in `_.once`, so past
      the bound the error handler itself calls the callback on every
      failure it is handed. Nothing reconnects after giving up, so a peer
      is handed at most one such failure; what this guards is only the
      handler, not a run the peer goes through. */
  lemma CallbackRepeatsAfterGivingUp(peer: Peer, n: nat)
    requires !peer.hasConnected && peer.attempts + 1 >= peer.config.maxConnectAttempts
    requires peer.config.connectCallback.Fn? && !peer.config.connectCallback.once
    ensures Failures(peer, n, CONNECT_BACKOFF_MULT, peer.config.maxConnectAttempts, CONNECT_FAILURE).effects
      == seq(n, i => Invoke(peer.config.connectCallback, [Str(CONNECT_FAILURE)]))
    decreases n
  {
    if n > 0 {
      var first := OnSocketError(peer);
      CallbackRepeatsAfterGivingUp(first.peer, n - 1);
      assert first.effects + seq(n - 1, i => Invoke(peer.config.connectCallback, [Str(CONNECT_FAILURE)]))
        == seq(n, i => Invoke(peer.config.connectCallback, [Str(CONNECT_FAILURE)]));
    }
  }

  /** Once connected, no failure ever schedules a retry or calls back: each
      is emitted as `'error'` and the state stays as it is. */
  lemma {:induction false} NoRetryAfterConnect(peer: Peer, n: nat, backoff: int, bound: int, failure: string)
    requires peer.hasConnected
    ensures Failures(peer, n, backoff, bound, failure).peer == peer
    ensures forall e :: e in Failures(peer, n, backoff, bound, failure).effects ==> e == Emit([Val(Str("error")), Failure])
    decreases n
  {
    if n > 0 {
      NoRetryAfterConnect(peer, n - 1, backoff, bound, failure);
    }
  }

  /** The address splits into one more part than it has separators. */
  lemma {:induction false} SplitCount(s: string, sep: char)
    ensures |Split(s, sep)| == multiset(s)[sep] + 1
    decreases |s|
  {
    if s != "" {
      SplitCount(s[1..], sep);
      assert s == [s[0]] + s[1..];
      assert multiset(s) == multiset([s[0]]) + multiset(s[1..]);
    }
  }

  /** `tell` accepts exactly the addresses with one ':'; it then writes
      `TELL [name, event, args]` where the address is `name:event`, files a
      trailing function under the record's id, and otherwise files nothing. */
  lemma TellAddress(peer: Peer, whoWhat: string, args: seq<Arg>, id: string, fails: bool)
    ensures Tell(peer, whoWhat, args, id, fails).Ok? <==> multiset(whoWhat)[':'] == 1
    ensures var r := Tell(peer, whoWhat, args, id, fails);
      r.Ok? ==> exists name, event ::
        && whoWhat == name + ":" + event
        && r.value.effects == WriteBridge(r.value.peer,
             New(id, TELL, Arr([Str(name), Str(event), Arr(Serialized(PopCallback(args).0))])), fails)
        && r.value.peer.waiters == (if PopCallback(args).1.Some?
             then peer.waiters[id := Call(Fn(PopCallback(args).1.value, false))] else peer.waiters)
  {
    SplitCount(whoWhat, ':');
    var parts := Split(whoWhat, ':');
    if |parts| == 2 {
      JoinSplit(whoWhat, ':');
      assert Join(parts, ':') == parts[0] + [':'] + parts[1];
      assert whoWhat == parts[0] + ":" + parts[1];
    }
  }

  /** An `ACK` for a filed waiter runs it once with the arguments in
      `data[1]` and removes it, so a second `ACK` for the same id does
      nothing; an `ACK` for no waiter changes nothing. */
  lemma AckFiresOnce(peer: Peer, m: Message)
    requires m.command == ACK && ApplyArgs(ArgAt(m.data, 1)).Some?
    ensures var key := KeyOf(ArgAt(m.data, 0));
      var r := Receive(peer, m);
      && r.Some?
      && (key.Some? && key.value in peer.waiters ==>
            && r.value.peer.waiters == peer.waiters - {key.value}
            && r.value.effects == Fire(peer, peer.waiters[key.value], ApplyArgs(ArgAt(m.data, 1)).value).effects
            && Receive(r.value.peer, m) == Some(Reaction(r.value.peer, [])))
      && (key.None? || key.value !in peer.waiters ==> r.value == Reaction(peer, []))
  {
  }

  /** `_.get(this._waiters, [x])` reads the waiter under `x`'s key, and
      `delete this._waiters[[x]]` deletes that same key, so an `ACK` whose
      `data[0]` is a one-element array acts as one whose `data[0]` is its
      element. */
  lemma AckToArrayId(peer: Peer, m: Message, x: Value)
    requires m.command == ACK && |m.data| > 0 && m.data[0] == Arr([x]) && !x.Null? && !x.Arr?
    ensures Receive(peer, m) == Receive(peer, m.(data := [x] + m.data[1..]))
  {
  }

  /** An `ACK` whose `data[1]` is neither an array nor `null` nor missing
      throws before any waiter runs. */
  lemma AckThrows(peer: Peer, m: Message)
    requires m.command == ACK && |m.data| > 1 && !m.data[1].Arr? && !m.data[1].Null?
    ensures Receive(peer, m).None?
  {
  }

  /** An inbound `TELL` emits the event with its parameters and a reply
      closure; calling the closure writes `ACK [from, cbid, args]`, stamped
      with the peer's id. */
  lemma InboundTellReply(peer: Peer, m: Message, params: seq<Value>, replyArgs: seq<Arg>, id: string)
    requires m.command == TELL && ArgAt(m.data, 3) == Some(Arr(params))
    ensures Receive(peer, m) == Some(Reaction(peer, [Emit([Emitted(ArgAt(m.data, 2))] + Vals(params)
      + [Reply(Written(ArgAt(m.data, 0)), Written(ArgAt(m.data, 1)))])]))
    ensures Answer(peer, Written(ArgAt(m.data, 0)), Written(ArgAt(m.data, 1)), replyArgs, id, false).effects
      == [Send(Message(id, ACK, [Written(ArgAt(m.data, 0)), Written(ArgAt(m.data, 1)), Arr(Serialized(replyArgs))], peer.config.id))]
  {
  }

  /** Every record a peer writes carries the peer's own id as `nodeName`. */
  predicate Stamped(effects: seq<Effect>, id: string) {
    forall i :: 0 <= i < |effects| && effects[i].Send? ==> effects[i].msg.nodeName == id
  }

  lemma AllWritesStamped(peer: Peer, whoWhat: string, args: seq<Arg>, force: Arg, from: Value, cbid: Value,
                         id: string, fails: bool)
    ensures Stamped(OnConnect(peer, id, fails).effects, peer.config.id)
    ensures Tell(peer, whoWhat, args, id, fails).Ok? ==> Stamped(Tell(peer, whoWhat, args, id, fails).value.effects, peer.config.id)
    ensures Stamped(Shout(peer, args, id, fails).effects, peer.config.id)
    ensures Stamped(Leave(peer, force, id, fails).effects, peer.config.id)
    ensures Stamped(Answer(peer, from, cbid, args, id, fails).effects, peer.config.id)
  {
  }

  /** A graceful `leave` ends the transport when the hub's `ACK [id, []]`
      for its `LEAVE` record arrives, and not before. */
  lemma LeaveEndsOnAck(peer: Peer, force: Arg, id: string, fails: bool, ackId: string)
    requires !ArgTruthy(force)
    ensures var r := Leave(peer, force, id, fails);
      && EndTransport !in r.effects
      && Receive(r.peer, Message(ackId, ACK, [Str(id), Arr([])], "")) == Some(Reaction(r.peer.(waiters := r.peer.waiters - {id}), [EndTransport]))
  {
    var r := Leave(peer, force, id, fails);
    assert KeyOf(ArgAt([Str(id), Arr([])], 0)) == Some(id);
  }

  /** Every record of a run handled without throwing. */
  ghost predicate AllHandled(peer: Peer, ms: seq<Message>)
    decreases |ms|
  {
    ms == [] || (Receive(peer, ms[0]).Some? && AllHandled(Receive(peer, ms[0]).value.peer, ms[1..]))
  }

  /** The records before one whose handler throws keep their effects; the
      throwing record and everything after it in the chunk have none. */
  lemma {:induction false} ReceiveStopsAtThrow(peer: Peer, ms: seq<Message>, bad: Message, more: seq<Message>)
    requires AllHandled(peer, ms) && Receive(ReceiveAll(peer, ms).peer, bad).None?
    ensures ReceiveAll(peer, ms + [bad] + more) == ReceiveAll(peer, ms)
    decreases |ms|
  {
    if ms == [] {
      assert ms + [bad] + more == [bad] + more;
    } else {
      var first := Receive(peer, ms[0]).value;
      assert (ms + [bad] + more)[0] == ms[0];
      assert (ms + [bad] + more)[1..] == ms[1..] + [bad] + more;
      ReceiveStopsAtThrow(first.peer, ms[1..], bad, more);
    }
  }

  /** A chunk of written records is read record by record; a malformed
      frame ends the chunk. */
  lemma ChunkOfRecords(peer: Peer, ms: seq<Message>, t: string)
    ensures HandleData(peer, Frame(ms)) == ReceiveAll(peer, ms)
    ensures Frames(t) != [] && ParseRecord(Frames(t)[0]).None? ==> HandleData(peer, Frame(ms) + t) == ReceiveAll(peer, ms)
  {
    DecodeFrame(ms);
    if Frames(t) != [] && ParseRecord(Frames(t)[0]).None? {
      DecodeStopsAtMalformed(ms, t);
    }
  }
}

=== FILE: registry.dfy ===
/** The bridge's table of identified nodes (`this._sockets` in
    lib/bridge.js): node name to connection, kept in insertion order because
    that is the order in which `for (name in this._sockets)` visits it. */
module Registry {
  import opened Wrappers

  /** An accepted transport connection, as an opaque handle. */
  type ConnId = nat

  datatype Entry = Entry(name: string, conn: ConnId)

  type Registry = seq<Entry>

  function Names(reg: Registry): (r: seq<string>)
    ensures |r| == |reg|
    ensures forall i :: 0 <= i < |reg| ==> r[i] == reg[i].name
  {
    seq(|reg|, i requires 0 <= i < |reg| => reg[i].name)
  }

  /** No name is bound twice. */
  predicate Valid(reg: Registry) {
    forall i, j :: 0 <= i < j < |reg| ==> reg[i].name != reg[j].name
  }

  /** `_.has(this._sockets, name) ? this._sockets[name] : undefined`. */
  function Lookup(reg: Registry, name: string): (r: Option<ConnId>)
    ensures r.None? <==> forall i :: 0 <= i < |reg| ==> reg[i].name != name
    ensures r.Some? ==> exists i :: 0 <= i < |reg| && reg[i] == Entry(name, r.value)
  {
    if reg == [] then None
    else if reg[0].name == name then Some(reg[0].conn)
    else Lookup(reg[1..], name)
  }

  /** In a valid registry the lookup of an entry's name finds that entry. */
  lemma {:induction false} LookupEntry(reg: Registry, i: nat)
    requires Valid(reg) && i < |reg|
    ensures Lookup(reg, reg[i].name) == Some(reg[i].conn)
  {
    if i > 0 {
      assert reg[0].name != reg[i].name;
      LookupEntry(reg[1..], i - 1);
    }
  }

  /** How many entries are bound to the connection. */
  function Count(reg: Registry, conn: ConnId): (r: nat)
    ensures r == 0 <==> forall i :: 0 <= i < |reg| ==> reg[i].conn != conn
    ensures r <= |reg|
  {
    if reg == [] then 0 else (if reg[0].conn == conn then 1 else 0) + Count(reg[1..], conn)
  }

  /** Every bound name is non-empty (truthy), so cleanup can delete it. */
  predicate Named(reg: Registry) {
    forall e :: e in reg ==> e.name != ""
  }

  /** The registry as the map it stands for. */
  ghost function AsMap(reg: Registry): (m: map<string, ConnId>)
    ensures forall name :: name in m <==> Lookup(reg, name).Some?
    ensures forall name :: name in m ==> Lookup(reg, name) == Some(m[name])
  {
    map name | name in Names(reg) :: Lookup(reg, name).value
  }

  /** `this._sockets[name] = conn` for a name not yet bound. */
  function Register(reg: Registry, name: string, conn: ConnId): (r: Registry)
    requires Lookup(reg, name).None?
    ensures Valid(reg) ==> Valid(r)
    ensures forall k :: Lookup(r, k) == if k == name then Some(conn) else Lookup(reg, k)
    ensures forall c :: Count(r, c) == Count(reg, c) + if c == conn then 1 else 0
    ensures Named(reg) && name != "" ==> Named(r)
  {
    LookupAppend(reg, name, conn);
    CountAppend(reg, Entry(name, conn));
    reg + [Entry(name, conn)]
  }

  lemma {:induction false} CountAppend(reg: Registry, e: Entry)
    ensures forall c :: Count(reg + [e], c) == Count(reg, c) + if c == e.conn then 1 else 0
  {
    if reg != [] {
      assert (reg + [e])[1..] == reg[1..] + [e];
      CountAppend(reg[1..], e);
    }
  }

  lemma {:induction false} LookupAppend(reg: Registry, name: string, conn: ConnId)
    requires Lookup(reg, name).None?
    ensures forall k :: Lookup(reg + [Entry(name, conn)], k) == if k == name then Some(conn) else Lookup(reg, k)
  {
    if reg != [] {
      assert (reg + [Entry(name, conn)])[1..] == reg[1..] + [Entry(name, conn)];
      LookupAppend(reg[1..], name, conn);
    }
  }

  /** `delete this._sockets[name]`. */
  function Remove(reg: Registry, name: string): (r: Registry)
    ensures forall e :: e in r <==> e in reg && e.name != name
    ensures Valid(reg) ==> Valid(r)
    ensures forall k :: Lookup(r, k) == if k == name then None else Lookup(reg, k)
  {
    if reg == [] then []
    else if reg[0].name == name then Remove(reg[1..], name)
    else [reg[0]] + Remove(reg[1..], name)
  }

  /** `getSocketName(conn)`: the first name, in insertion order, whose
      connection is `conn`. */
  function NameOf(reg: Registry, conn: ConnId): (r: Option<string>)
    ensures r.None? <==> forall i :: 0 <= i < |reg| ==> reg[i].conn != conn
    ensures r.Some? ==> exists i :: (0 <= i < |reg| && reg[i] == Entry(r.value, conn)
      && forall j :: 0 <= j < i ==> reg[j].conn != conn)
  {
    if reg == [] then None
    else if reg[0].conn == conn then Some(reg[0].name)
    else
      var r := NameOf(reg[1..], conn);
      assert r.Some? ==> exists i :: (0 <= i < |reg| && reg[i] == Entry(r.value, conn)
        && forall j :: 0 <= j < i ==> reg[j].conn != conn) by {
        if r.Some? {
          var i :| 0 <= i < |reg[1..]| && reg[1..][i] == Entry(r.value, conn)
            && forall j :: 0 <= j < i ==> reg[1..][j].conn != conn;
          assert reg[i + 1] == Entry(r.value, conn);
        }
      }
      r
  }

  /** `_cleanup_dead_socket` on the registry: removes the name `getSocketName`
      finds for the connection, unless there is none or it is empty (falsy). */
  function Cleanup(reg: Registry, conn: ConnId): (r: Registry)
    ensures forall k :: Lookup(r, k) == if Some(k) == NameOf(reg, conn) && k != "" then None else Lookup(reg, k)
    ensures Valid(reg) ==> Valid(r)
    ensures Named(reg) ==> Named(r)
    ensures Valid(reg) ==> forall c :: c != conn ==> Count(r, c) == Count(reg, c)
    ensures Valid(reg) && Named(reg) && Count(reg, conn) > 0 ==> Count(r, conn) + 1 == Count(reg, conn)
    ensures forall k :: Lookup(r, k).Some? ==> Lookup(r, k) == Lookup(reg, k)
    ensures Valid(reg) ==> forall k :: Lookup(reg, k) != Some(conn) ==> Lookup(r, k) == Lookup(reg, k)
  {
    match NameOf(reg, conn)
    case Some(name) =>
      if name != "" then
        var i :| 0 <= i < |reg| && reg[i] == Entry(name, conn);
        RemoveCount(reg, name, i);
        if Valid(reg) then LookupEntry(reg, i); Remove(reg, name) else Remove(reg, name)
      else reg
    case None => reg
  }

  /** In a valid registry, deleting the name of the i-th entry takes one
      entry from that entry's connection and none from any other. */
  lemma {:induction false} RemoveCount(reg: Registry, name: string, i: nat)
    requires i < |reg| && reg[i].name == name
    ensures Valid(reg) ==> forall c :: Count(Remove(reg, name), c) + (if c == reg[i].conn then 1 else 0) == Count(reg, c)
  {
    if !Valid(reg) {
    } else if i == 0 {
      RemoveAbsent(reg[1..], name);
    } else {
      assert reg[0].name != name;
      RemoveCount(reg[1..], name, i - 1);
    }
  }

  /** Deleting a name nobody holds changes nothing. */
  lemma {:induction false} RemoveAbsent(reg: Registry, name: string)
    requires forall j :: 0 <= j < |reg| ==> reg[j].name != name
    ensures Remove(reg, name) == reg
  {
    if reg != [] {
      RemoveAbsent(reg[1..], name);
    }
  }

  /** `_cleanup_dead_socket` run `n` times on the same connection, as the
      `close` listeners a connection collected run one after another. */
  function CleanupTimes(reg: Registry, conn: ConnId, n: nat): (r: Registry)
    ensures Valid(reg) ==> Valid(r)
    ensures Named(reg) ==> Named(r)
    ensures forall k :: Lookup(r, k).Some? ==> Lookup(r, k) == Lookup(reg, k)
    ensures Valid(reg) ==> forall k :: Lookup(reg, k) != Some(conn) ==> Lookup(r, k) == Lookup(reg, k)
    ensures Valid(reg) ==> forall c :: c != conn ==> Count(r, c) == Count(reg, c)
    ensures Valid(reg) && Named(reg) ==> Count(r, conn) == if n < Count(reg, conn) then Count(reg, conn) - n else 0
    decreases n
  {
    if n == 0 then reg else CleanupTimes(Cleanup(reg, conn), conn, n - 1)
  }

  /** In a valid registry, cleanup deletes exactly the entry bound to the
      connection, and is a no-op for a connection no name is bound to. */
  lemma CleanupDeletesOnlyItsEntry(reg: Registry, conn: ConnId)
    requires Valid(reg)
    ensures (forall i :: 0 <= i < |reg| ==> reg[i].conn != conn) ==> Cleanup(reg, conn) == reg
    ensures forall k :: k !in AsMap(Cleanup(reg, conn)) && k in AsMap(reg) ==> AsMap(reg)[k] == conn
    ensures forall k :: k in AsMap(Cleanup(reg, conn)) ==> k in AsMap(reg) && AsMap(Cleanup(reg, conn))[k] == AsMap(reg)[k]
  {
    forall k | k !in AsMap(Cleanup(reg, conn)) && k in AsMap(reg)
      ensures AsMap(reg)[k] == conn
    {
      var i :| 0 <= i < |reg| && reg[i] == Entry(k, conn) && forall j :: 0 <= j < i ==> reg[j].conn != conn;
      LookupEntry(reg, i);
    }
  }
}

=== FILE: scenarios.dfy ===
/** Exchanges between peers through the hub (lib/node.js and lib/bridge.js
    together): each record a peer writes is read by the hub as one chunk,
    and each record the hub writes is read by its peer as one chunk. */
module Scenarios {
  import opened Wrappers
  import opened Json
  import opened Message
  import opened Framing
  import opened Registry
  import Bridge
  import BridgeProperties
  import Node
  import NodeProperties

  /** The hub reads a chunk holding one written record as that record. */
  lemma HubReadsOne(hub: Bridge.Hub, conn: ConnId, m: Message, ids: nat -> string, dead: set<ConnId>)
    requires conn !in hub.detached
    ensures Bridge.HandleChunk(hub, conn, ToString(m), ids, dead) == Bridge.Handle(hub, conn, m, ids(0), dead)
  {
    DecodeOne(m);
    var s := Bridge.Handle(hub, conn, m, ids(0), dead);
    assert Bridge.HandleAll(Bridge.Handling(dead), s.hub, conn, [m][1..], ids, 1) == Bridge.Step(s.hub, []);
    assert s.out + [] == s.out;
  }

  /** A peer reads a chunk holding one written record as that record. */
  lemma PeerReadsOne(peer: Node.Peer, m: Message)
    ensures Node.HandleData(peer, ToString(m))
      == (if Node.Receive(peer, m).Some? then Node.Receive(peer, m).value else Node.Reaction(peer, []))
  {
    DecodeOne(m);
    if Node.Receive(peer, m).Some? {
      var first := Node.Receive(peer, m).value;
      assert Node.ReceiveAll(first.peer, [m][1..]) == Node.Reaction(first.peer, []);
      assert first.effects + [] == first.effects;
    }
  }

  /** A relayed `ACK [key, args]` for a filed waiter fires that waiter with
      the arguments and retires it. */
  lemma HearAck(peer: Node.Peer, ackId: string, key: string, args: seq<Value>)
    requires key in peer.waiters
    ensures var fired := Node.Fire(peer, peer.waiters[key], args);
      Node.HandleData(peer, ToString(New(ackId, ACK, Arr([Str(key), Arr(args)]))))
        == Node.Reaction(fired.peer.(waiters := peer.waiters - {key}), fired.effects)
  {
    var m := New(ackId, ACK, Arr([Str(key), Arr(args)]));
    AckFires(peer, m, key, args);
    PeerReadsOne(peer, m);
  }

  lemma AckFires(peer: Node.Peer, m: Message, key: string, args: seq<Value>)
    requires m.command == ACK && m.data == [Str(key), Arr(args)] && key in peer.waiters
    ensures var fired := Node.Fire(peer, peer.waiters[key], args);
      Node.Receive(peer, m) == Some(Node.Reaction(fired.peer.(waiters := peer.waiters - {key}), fired.effects))
  {
    assert ArgAt(m.data, 1) == Some(Arr(args));
    assert KeyOf(ArgAt(m.data, 0)) == Some(key);
  }

  /** An address `name:event` splits into the name and the event. */
  lemma AddressParts(name: string, event: string)
    requires ':' !in name && ':' !in event
    ensures Split(name + ":" + event, ':') == [name, event]
  {
    SplitAfterPiece(name, ':', event);
    SplitWithout(event, ':');
    assert name + ":" + event == name + [':'] + event;
  }

  /** `tell("name:event", ...args, callback)` files the callback under the
      new record's id and writes `TELL [name, event, args]`. */
  lemma TellWrites(teller: Node.Peer, name: string, event: string, args: seq<Node.Arg>, h: nat, t: string)
    requires ':' !in name && ':' !in event
    ensures Node.Tell(teller, name + ":" + event, args + [Node.Func(h)], t, false)
      == Ok(Node.Reaction(teller.(waiters := teller.waiters[t := Node.Call(Node.Fn(h, false))]),
             [Node.Send(Message(t, TELL, [Str(name), Str(event), Arr(Node.Serialized(args))], teller.config.id))]))
  {
    AddressParts(name, event);
    assert (args + [Node.Func(h)])[..|args|] == args;
  }

  /** The hub passes a `TELL` for a registered name on to that name's
      connection, with the sender and the request id in front. */
  lemma HubForwards(hub: Bridge.Hub, from: ConnId, to: ConnId, m: Message, ids: nat -> string, dead: set<ConnId>)
    requires m.command == TELL && |m.data| == 3 && m.data[0].Str? && m.nodeName != ""
    requires Lookup(hub.reg, m.data[0].s) == Some(to) && to !in dead && from !in hub.detached
    ensures Bridge.HandleChunk(hub, from, ToString(m), ids, dead) == Bridge.Step(hub, [Bridge.Delivery(to,
      New(ids(0), TELL, Arr([Str(m.nodeName), Str(m.id), m.data[1], m.data[2]])))])
  {
    HubReadsOne(hub, from, m, ids, dead);
    BridgeProperties.TellKnown(hub, from, m, ids(0), dead, to);
  }

  /** The hub answers a `TELL` for a name nobody holds on the sender's
      registered connection with `unknown-node`. */
  lemma HubRefusesTell(hub: Bridge.Hub, from: ConnId, m: Message, ids: nat -> string, dead: set<ConnId>)
    requires m.command == TELL && |m.data| == 3 && m.data[0].Str? && m.nodeName != ""
    requires Lookup(hub.reg, m.data[0].s).None? && Lookup(hub.reg, m.nodeName) == Some(from)
    requires BridgeProperties.Live(hub.reg, dead) && from !in hub.detached
    ensures Bridge.HandleChunk(hub, from, ToString(m), ids, dead)
      == Bridge.Step(hub, [Bridge.Delivery(from, New(ids(0), ACK, Arr([Str(m.id), Arr([Str("unknown-node")])])))])
  {
    HubReadsOne(hub, from, m, ids, dead);
    BridgeProperties.TellUnknown(hub, from, m, ids(0), dead);
  }

  /** The hub relays a reply to the registered name it is addressed to. */
  lemma HubRelays(hub: Bridge.Hub, from: ConnId, to: ConnId, m: Message, ids: nat -> string, dead: set<ConnId>)
    requires m.command == ACK && |m.data| == 3 && m.data[0].Str?
    requires Lookup(hub.reg, m.data[0].s) == Some(to) && BridgeProperties.Live(hub.reg, dead) && from !in hub.detached
    ensures Bridge.HandleChunk(hub, from, ToString(m), ids, dead)
      == Bridge.Step(hub, [Bridge.Delivery(to, New(ids(0), ACK, Arr([m.data[1], m.data[2]])))])
  {
    HubReadsOne(hub, from, m, ids, dead);
    BridgeProperties.AckRelay(hub, from, m, ids(0), dead);
  }

  /** A forwarded `TELL` is emitted as the event, its parameters and a
      reply closure addressed to the sender and the request id. */
  lemma PeerHearsTell(told: Node.Peer, from: string, t: string, event: string, params: seq<Value>, fwdId: string)
    ensures Node.HandleData(told, ToString(New(fwdId, TELL, Arr([Str(from), Str(t), Str(event), Arr(params)]))))
      == Node.Reaction(told, [Node.Emit([Node.Val(Str(event))] + Node.Vals(params) + [Node.Reply(Str(from), Str(t))])])
  {
    var m := New(fwdId, TELL, Arr([Str(from), Str(t), Str(event), Arr(params)]));
    assert ArgAt(m.data, 3) == Some(Arr(params)) && ArgAt(m.data, 2) == Some(Str(event));
    assert Written(ArgAt(m.data, 0)) == Str(from) && Written(ArgAt(m.data, 1)) == Str(t);
    PeerReadsOne(told, m);
  }

  /** A relayed reply runs the callback waiting under its id with the
      reply's arguments, and retires it. */
  lemma PeerHearsReply(teller: Node.Peer, t: string, h: nat, replyArgs: seq<Value>, relayId: string)
    requires t in teller.waiters && teller.waiters[t] == Node.Call(Node.Fn(h, false))
    ensures Node.HandleData(teller, ToString(New(relayId, ACK, Arr([Str(t), Arr(replyArgs)]))))
      == Node.Reaction(teller.(waiters := teller.waiters - {t}), [Node.Invoke(Node.Fn(h, false), replyArgs)])
  {
    HearAck(teller, relayId, t, replyArgs);
  }

  /** The reply closure writes `ACK [from, cbid, args]` stamped with the
      replying peer's id. */
  lemma AnswerWrites(told: Node.Peer, from: Value, cbid: Value, replyArgs: seq<Node.Arg>, a: string)
    ensures Node.Answer(told, from, cbid, replyArgs, a, false)
      == Node.Reaction(told, [Node.Send(Message(a, ACK, [from, cbid, Arr(Node.Serialized(replyArgs))], told.config.id))])
  {
  }

  /** The hub answers an `IDENT` under a taken name on the connection it
      came from with `duplicate-node`, and changes nothing. */
  lemma HubRefusesIdent(hub: Bridge.Hub, conn: ConnId, m: Message, ids: nat -> string, dead: set<ConnId>)
    requires m.command == IDENT && m.nodeName != "" && Lookup(hub.reg, m.nodeName).Some?
    requires conn !in dead && conn !in hub.detached
    ensures Bridge.HandleChunk(hub, conn, ToString(m), ids, dead)
      == Bridge.Step(hub, [Bridge.Delivery(conn, New(ids(0), ACK, Arr([Str(m.id), Arr([Str("duplicate-node")])])))])
  {
    HubReadsOne(hub, conn, m, ids, dead);
    BridgeProperties.IdentDuplicate(hub, conn, m, ids(0), dead);
  }

  /** The reply to an `IDENT` runs the connect callback with the reply's
      arguments and retires its waiter. */
  lemma PeerHearsIdentReply(peer: Node.Peer, identId: string, replyArgs: seq<Value>, relayId: string)
    ensures var c := Node.OnConnect(peer, identId, false);
      var heard := Node.HandleData(c.peer, ToString(New(relayId, ACK, Arr([Str(identId), Arr(replyArgs)]))));
      && heard.effects == Node.Run(c.peer, peer.config.connectCallback, replyArgs).effects
      && heard.peer.waiters == peer.waiters - {identId}
  {
    var c := Node.OnConnect(peer, identId, false);
    HearAck(c.peer, relayId, identId, replyArgs);
  }

  /** The hub acknowledges a `LEAVE` on its connection and forgets the
      name that connection registered under. */
  lemma HubAcksLeave(hub: Bridge.Hub, conn: ConnId, m: Message, ids: nat -> string, dead: set<ConnId>)
    requires m.command == LEAVE && NameOf(hub.reg, conn).Some? && NameOf(hub.reg, conn).value != ""
    requires conn !in dead && conn !in hub.detached
    ensures var s := Bridge.HandleChunk(hub, conn, ToString(m), ids, dead);
      && s.out == [Bridge.Delivery(conn, New(ids(0), ACK, Arr([Str(m.id), Arr([])])))]
      && Lookup(s.hub.reg, NameOf(hub.reg, conn).value).None?
  {
    HubReadsOne(hub, conn, m, ids, dead);
    BridgeProperties.LeaveThenCleanup(hub, conn, m, ids(0), dead, "", ids);
  }

  /** `leave()` writes `LEAVE` stamped with the peer's id. */
  lemma LeaveWrites(peer: Node.Peer, id: string)
    ensures Node.Leave(peer, Node.Undefined, id, false).effects == [Node.Send(Message(id, LEAVE, [], peer.config.id))]
  {
  }

  /** The acknowledgement of a `LEAVE` ends the transport. */
  lemma PeerHearsLeaveAck(peer: Node.Peer, id: string, ackId: string)
    ensures var l := Node.Leave(peer, Node.Undefined, id, false);
      Node.HandleData(l.peer, ToString(New(ackId, ACK, Arr([Str(id), Arr([])]))))
        == Node.Reaction(peer.(waiters := peer.waiters - {id}), [Node.EndTransport])
  {
    var l := Node.Leave(peer, Node.Undefined, id, false);
    assert l.peer == peer.(waiters := peer.waiters[id := Node.EndOnAck]);
    HearAck(l.peer, ackId, id, []);
    assert l.peer.waiters - {id} == peer.waiters - {id};
  }

  /** The first half of lib/node.js `tell` with a callback: the teller
      files the callback and writes `TELL`, the hub forwards it to the
      named peer, and that peer emits the event with its parameters and a
      reply closure addressed to the teller and the request id. */
  lemma TellReachesTold(hub: Bridge.Hub, teller: Node.Peer, told: Node.Peer, c1: ConnId, c2: ConnId,
                        event: string, args: seq<Node.Arg>, h: nat, t: string, ids: nat -> string, dead: set<ConnId>)
    requires ':' !in told.config.id && ':' !in event && teller.config.id != ""
    requires Lookup(hub.reg, told.config.id) == Some(c1) && c1 !in dead && c2 !in hub.detached
    ensures var tell := Message(t, TELL, [Str(told.config.id), Str(event), Arr(Node.Serialized(args))], teller.config.id);
      var fwd := New(ids(0), TELL, Arr([Str(teller.config.id), Str(t), Str(event), Arr(Node.Serialized(args))]));
      var sent := Node.Tell(teller, told.config.id + ":" + event, args + [Node.Func(h)], t, false);
      && sent.Ok? && sent.value.effects == [Node.Send(tell)]
      && sent.value.peer.waiters == teller.waiters[t := Node.Call(Node.Fn(h, false))]
      && Bridge.HandleChunk(hub, c2, ToString(tell), ids, dead) == Bridge.Step(hub, [Bridge.Delivery(c1, fwd)])
      && Node.HandleData(told, ToString(fwd)) == Node.Reaction(told, [Node.Emit([Node.Val(Str(event))]
           + Node.Vals(Node.Serialized(args)) + [Node.Reply(Str(teller.config.id), Str(t))])])
  {
    var tell := Message(t, TELL, [Str(told.config.id), Str(event), Arr(Node.Serialized(args))], teller.config.id);
    TellWrites(teller, told.config.id, event, args, h, t);
    HubForwards(hub, c2, c1, tell, ids, dead);
    PeerHearsTell(told, teller.config.id, t, event, Node.Serialized(args), ids(0));
  }

  /** The second half: the reply closure writes `ACK`, the hub relays it
      to the teller, and the callback waiting under the request id runs
      with the reply's arguments and is retired. */
  lemma ReplyReachesTeller(hub: Bridge.Hub, teller: Node.Peer, told: Node.Peer, c1: ConnId, c2: ConnId,
                           h: nat, t: string, replyArgs: seq<Node.Arg>, a: string, ids: nat -> string, dead: set<ConnId>)
    requires teller.config.id != "" && Lookup(hub.reg, teller.config.id) == Some(c2)
    requires BridgeProperties.Live(hub.reg, dead) && c1 !in hub.detached
    requires t in teller.waiters && teller.waiters[t] == Node.Call(Node.Fn(h, false))
    ensures var reply := Message(a, ACK, [Str(teller.config.id), Str(t), Arr(Node.Serialized(replyArgs))], told.config.id);
      var relayed := New(ids(0), ACK, Arr([Str(t), Arr(Node.Serialized(replyArgs))]));
      && Node.Answer(told, Str(teller.config.id), Str(t), replyArgs, a, false).effects == [Node.Send(reply)]
      && Bridge.HandleChunk(hub, c1, ToString(reply), ids, dead) == Bridge.Step(hub, [Bridge.Delivery(c2, relayed)])
      && Node.HandleData(teller, ToString(relayed)) == Node.Reaction(
           teller.(waiters := teller.waiters - {t}), [Node.Invoke(Node.Fn(h, false), Node.Serialized(replyArgs))])
  {
    AnswerWrites(told, Str(teller.config.id), Str(t), replyArgs, a);
    var reply := Message(a, ACK, [Str(teller.config.id), Str(t), Arr(Node.Serialized(replyArgs))], told.config.id);
    HubRelays(hub, c1, c2, reply, ids, dead);
    PeerHearsReply(teller, t, h, Node.Serialized(replyArgs), ids(0));
  }

  /** `tell` to a name nobody holds: the hub answers the teller with
      `unknown-node`, and the teller's callback runs with that string. */
  lemma TellUnknownNode(hub: Bridge.Hub, teller: Node.Peer, c2: ConnId, name: string, event: string,
                        args: seq<Node.Arg>, h: nat, t: string, ids: nat -> string, dead: set<ConnId>)
    requires ':' !in name && ':' !in event && teller.config.id != ""
    requires Lookup(hub.reg, name).None? && Lookup(hub.reg, teller.config.id) == Some(c2)
    requires BridgeProperties.Live(hub.reg, dead) && c2 !in hub.detached
    ensures var tell := Message(t, TELL, [Str(name), Str(event), Arr(Node.Serialized(args))], teller.config.id);
      var refusal := New(ids(0), ACK, Arr([Str(t), Arr([Str("unknown-node")])]));
      var sent := Node.Tell(teller, name + ":" + event, args + [Node.Func(h)], t, false);
      && sent.Ok? && sent.value.effects == [Node.Send(tell)]
      && Bridge.HandleChunk(hub, c2, ToString(tell), ids, dead) == Bridge.Step(hub, [Bridge.Delivery(c2, refusal)])
      && Node.HandleData(sent.value.peer, ToString(refusal)) == Node.Reaction(
           sent.value.peer.(waiters := sent.value.peer.waiters - {t}), [Node.Invoke(Node.Fn(h, false), [Str("unknown-node")])])
  {
    var tell := Message(t, TELL, [Str(name), Str(event), Arr(Node.Serialized(args))], teller.config.id);
    TellWrites(teller, name, event, args, h, t);
    HubRefusesTell(hub, c2, tell, ids, dead);
    var sent := Node.Tell(teller, name + ":" + event, args + [Node.Func(h)], t, false);
    PeerHearsReply(sent.value.peer, t, h, [Str("unknown-node")], ids(0));
  }

  /** A peer connecting under a name already taken: its `IDENT` is
      answered with `duplicate-node`, its connect callback is called with
      that string, and the hub keeps the earlier holder. */
  lemma ConnectUnderTakenName(hub: Bridge.Hub, peer: Node.Peer, conn: ConnId, identId: string,
                              ids: nat -> string, dead: set<ConnId>)
    requires peer.config.id != "" && Lookup(hub.reg, peer.config.id).Some?
    requires conn !in dead && conn !in hub.detached
    ensures var c := Node.OnConnect(peer, identId, false);
      var ident := Message(identId, IDENT, [], peer.config.id);
      var refusal := New(ids(0), ACK, Arr([Str(identId), Arr([Str("duplicate-node")])]));
      var heard := Node.HandleData(c.peer, ToString(refusal));
      && c.effects == [Node.Send(ident)]
      && Bridge.HandleChunk(hub, conn, ToString(ident), ids, dead) == Bridge.Step(hub, [Bridge.Delivery(conn, refusal)])
      && heard.effects == Node.Run(c.peer, peer.config.connectCallback, [Str("duplicate-node")]).effects
      && heard.peer.waiters == peer.waiters - {identId}
  {
    HubRefusesIdent(hub, conn, Message(identId, IDENT, [], peer.config.id), ids, dead);
    PeerHearsIdentReply(peer, identId, [Str("duplicate-node")], ids(0));
  }

  /** A graceful `leave`: the hub acknowledges the `LEAVE` record, forgets
      the name the peer's connection registered under, and the
      acknowledgement ends the peer's transport. */
  lemma LeaveRoundTrip(hub: Bridge.Hub, peer: Node.Peer, conn: ConnId, id: string, ids: nat -> string,
                       dead: set<ConnId>)
    requires peer.config.id != "" && NameOf(hub.reg, conn) == Some(peer.config.id)
    requires conn !in dead && conn !in hub.detached
    ensures var l := Node.Leave(peer, Node.Undefined, id, false);
      var leave := Message(id, LEAVE, [], peer.config.id);
      var ack := New(ids(0), ACK, Arr([Str(id), Arr([])]));
      var s := Bridge.HandleChunk(hub, conn, ToString(leave), ids, dead);
      && l.effects == [Node.Send(leave)]
      && s.out == [Bridge.Delivery(conn, ack)]
      && Lookup(s.hub.reg, peer.config.id).None?
      && Node.HandleData(l.peer, ToString(ack)) == Node.Reaction(peer.(waiters := peer.waiters - {id}), [Node.EndTransport])
  {
    HubAcksLeave(hub, conn, Message(id, LEAVE, [], peer.config.id), ids, dead);
    LeaveWrites(peer, id);
    PeerHearsLeaveAck(peer, id, ids(0));
  }
}

=== FILE: wrappers.dfy ===
/** Failure-compatible wrappers shared by every module of the relay model. */
module Wrappers {

  /** A value that may be missing. */
  datatype Option<+T> = None | Some(value: T) {
    predicate IsFailure() {
      None?
    }

    function PropagateFailure<U>(): Option<U>
      requires None?
    {
      None
    }

    function Extract(): T
      requires Some?
    {
      value
    }
  }

  /** A value or an error; the error stands for a JavaScript `throw`. */
  datatype Result<+T, +E> = Ok(value: T) | Err(error: E)
}
